=== FILE: README.md ===
# ClicStudio core, modelled in Dafny

ClicStudio is a studio-management web app. A photo or video studio uses it to
plan shoots (tasks, "tarefas"), a social-media posting schedule ("cronograma
de posts") and its registers of clients, staff and task types. The screens are
React components over a hosted database. This project models the logic that
decides what those screens show and what they write:

- the deadline engine: urgency status, progress bar and badges;
- the bulk generator of scheduled posts;
- the task list's combined filter and three-tier sort;
- the calendar's day window, navigation, per-day grouping and cell limits;
- the task form: initialisation, edits, the saved payload and the two-click delete;
- the dashboard and TV dashboard filters with the filter sidebar;
- the day-detail dialog: lookups, phone digits, WhatsApp link and start-time order;
- the client, staff and task-type registers, including staff sign-up and password stripping;
- the install-the-app hook;
- the `formatTime` and `ICON_MAP` helpers.

Representation:

- Timestamps are integer milliseconds. The current time is a parameter.
- Calendar days are serial integers; day 0 is Thursday 1970-01-01. `Weekday`
  numbers Sunday 0 to Saturday 6, as `getDay` does.
- A `Dates` module gives the Gregorian calendar: conversion between serial
  days and year/month/day, month arithmetic, and the `yyyy-MM-dd` format
  with its parser, proved to round-trip both ways.
- Database writes are returned as values: `Mutation` is `Insert`, `Update`
  or `Remove`, and each carries the record that would be sent.
- Pure expressions of the source are functions. React state that handlers
  update is a class whose methods change its fields.
- Array sorts that work in place are one in-place sort on an `array`
  (`Sorting.SortInPlace`), proved sorted and a permutation.
- Loops that build lists or maps are methods with loop invariants.

Files:

- `lists.dfy`, `text.dfy`, `records.dfy`, `dates.dfy`, `sorting.dfy`,
  `crud.dfy` and `task_order.dfy` are shared building blocks.
- Each other file follows one source file:
  - `deadline.dfy`: src/lib/deadline.js
  - `utils.dfy`: src/lib/utils.js
  - `social_media.dfy`: SocialMediaPage
  - `tarefas_page.dfy`: TarefasPage
  - `calendar.dfy`: Calendar
  - `tarefa_modal.dfy`: TarefaModal
  - `dashboard.dfy`: DashboardPage
  - `tv_dashboard.dfy`: TvDashboardPage
  - `filter_sidebar.dfy`: FilterSidebar
  - `day_detail.dfy`: DayDetailModal
  - `clientes.dfy`: ClientesPage
  - `funcionarios.dfy`: FuncionariosPage
  - `tipos_tarefa.dfy`: TiposTarefaPage
  - `install_pwa.dfy`: useInstallPWA

## Model

| member | source | states |
|---|---|---|
| Deadline.DifferenceInHours | src/lib/deadline.js:16 | whole hours between two instants, truncated toward zero, bracketed by the millisecond difference |
| Deadline.GetDeadlineStatus | src/lib/deadline.js:10-28 | no deadline: null status, null label, infinite hours, even for a finished task; finished: 'done'/'Concluída'; otherwise past is 'critical'/'Atrasado', under 24 h 'critical'/'Crítico', under 48 h 'urgent'/'Urgente', else 'ok' with no label |
| Deadline.SeverityMonotone | src/lib/deadline.js:18-27 | with `now` fixed, a later deadline never gets a more severe status |
| Deadline.NegativeHoursArePast | src/lib/deadline.js:16-18 | a negative hour count means the deadline is at least an hour past; a deadline less than an hour past has hour count 0 and is caught by the `isPast` test |
| Deadline.GetDeadlineText | src/lib/deadline.js:35-42 | no text exactly when there is no deadline; otherwise the distance description of the deadline |
| Deadline.DeadlineBadge | src/lib/deadline.js:76-89 | only 'urgent' and 'critical' have a badge; the critical one pulses and has no label |
| Deadline.BadgeMatchesStatus | src/lib/deadline.js:76-89 | an urgent task's badge label is its status label; a critical task's badge pulses; an ok task has no badge |
| Deadline.RoundDiv | src/lib/deadline.js:70 | division rounded half up, as `Math.round` does for non-negative quotients |
| Deadline.RoundDivAtLeast | src/lib/deadline.js:70 | the rounded quotient reaches k exactly when 2n + t ≥ 2tk |
| Deadline.GetProgressBar | src/lib/deadline.js:51-71 | the percent is always in [0,100]; missing dates give 0 and 'bg-slate-500/50'; finished gives 100 and 'bg-green-500'; an empty or negative window gives 100 and 'bg-red-600' with no division |
| Deadline.ProgressInWindow | src/lib/deadline.js:59-70 | over an open window the percent is elapsed/total clamped to [0,100] and rounded; the colour is red from 80%, yellow from 50%, slate below, tested on the unrounded value |
| Deadline.ColorAgreesWithPercent | src/lib/deadline.js:64-70 | a red bar reads at least 80, a yellow bar 50 to 80, a slate bar at most 50 |
| Deadline.ProgressMonotoneInTime | src/lib/deadline.js:59-70 | as time passes the percent never decreases |
| Utils.FormatTime | src/lib/utils.js:16-19 | '' for a missing or empty time; otherwise a prefix of the input of length min(5, length) |
| Utils.FormatTimeIdempotent | src/lib/utils.js:16-19 | formatting a formatted time changes nothing |
| Utils.IconName | src/components/calendar/Calendar.jsx:156-161 | a known icon key gives its component name from `ICON_MAP`; a missing or unknown key gives the fallback |
| Utils.IconMapShape | src/lib/utils.js:26-37 | `ICON_MAP` has exactly the ten icon keys, and 'calendar' maps to 'CalendarDays' |
| Lists.Filter | src/pages/DashboardPage.jsx:50-54 | `Array.filter`: the kept elements are the input elements that satisfy the predicate |
| Lists.FilterIsSubsequence | src/pages/DashboardPage.jsx:50-54 | filtering keeps input order |
| Lists.FilterCounts | src/components/calendar/DayDetailModal.jsx:29 | the filter keeps every copy of a kept element and none of a dropped one |
| Lists.FilterIdempotent | src/pages/TvDashboardPage.jsx:34-38 | filtering twice by the same predicate equals filtering once |
| Lists.FilterKeepsAll | src/pages/DashboardPage.jsx:50-54 | a predicate that holds everywhere keeps the whole list, in order |
| Lists.FilterAppend | src/pages/DashboardPage.jsx:50-54 | filtering distributes over concatenation |
| Lists.FilterShrinks | src/pages/TarefasPage.jsx:112 | removing a present element makes the list shorter |
| Lists.Find | src/components/calendar/DayDetailModal.jsx:18-25 | `Array.find`: the first element satisfying the predicate, or nothing exactly when none does |
| Lists.FindFirst | src/components/calendar/DayDetailModal.jsx:18-25 | `find` returns the element at the first index where the predicate holds |
| Lists.Toggle | src/pages/TarefasPage.jsx:110-120 | the toggle flips membership of the item, keeps every other member, appends an absent item at the end and removes every occurrence of a present one |
| Lists.ToggleTwice | src/pages/SocialMediaPage.jsx:185-196 | toggling twice restores membership, and restores the list itself when the item was absent |
| Lists.NotInFilterKeepsAll | src/pages/TarefasPage.jsx:112 | removing an absent item changes nothing |
| Lists.Matching | src/components/calendar/Calendar.jsx:128-136 | every element with a given key and only those |
| Lists.MatchingIsFilter | src/components/calendar/Calendar.jsx:128-136 | a key's group is the filter by that key, so it keeps input order |
| Lists.MatchingSnoc | src/components/calendar/Calendar.jsx:130-133 | pushing one element extends exactly its own key's group |
| Lists.GroupBy | src/components/calendar/Calendar.jsx:128-146 | the grouping loop: each present key maps to its non-empty group in input order, and absent keys have no elements |
| Text.LowerChar | src/pages/TarefasPage.jsx:136 | lower-cases exactly the ASCII capitals |
| Text.Lower | src/pages/TarefasPage.jsx:136-141 | `toLowerCase`, character by character |
| Text.LowerIdempotent | src/pages/TarefasPage.jsx:136-141 | lower-casing twice is lower-casing once |
| Text.IncludesTrivial | src/pages/ClientesPage.jsx:64-68 | every string includes '' and itself |
| Text.IncludesLower | src/pages/ClientesPage.jsx:64-68 | a substring stays a substring after lower-casing both |
| Text.MatchesCIProperties | src/pages/ClientesPage.jsx:64-68 | the case-insensitive search matches everything for '', ignores the query's case, and accepts every exact substring |
| Text.StrLeqRefl | src/components/calendar/Calendar.jsx:258-260 | code-unit string order is reflexive |
| Text.StrLeqTotal | src/components/calendar/Calendar.jsx:258-260 | any two strings are comparable |
| Text.StrLeqTrans | src/components/calendar/Calendar.jsx:258-260 | the order is transitive |
| Text.StrLeqAntisym | src/components/calendar/Calendar.jsx:258-260 | the order is antisymmetric |
| Records.OrEmpty | src/pages/ClientesPage.jsx:35-38 | `x \|\| ''`: the value when truthy, '' otherwise |
| Records.NullIfEmpty | src/components/tarefas/TarefaModal.jsx:80-85 | `x \|\| null`: null exactly for '' |
| Records.NullIfEmptyRoundTrip | src/components/tarefas/TarefaModal.jsx:40-48 | a form field read with `\|\| ''` and written back with `\|\| null` gives back the value, and a missing or empty one becomes null |
| Records.DeadlineMs | src/pages/TarefasPage.jsx:172-175 | a task has a deadline time exactly when its `deadline_entrega` is truthy |
| Dates.MonthLength | src/components/calendar/Calendar.jsx:79 | months have 28 to 31 days, and February has 29 exactly in leap years |
| Dates.NextDay | src/components/calendar/Calendar.jsx:82 | the next calendar date is the next serial day |
| Dates.PrevDay | src/components/calendar/Calendar.jsx:59 | the previous calendar date is the previous serial day |
| Dates.FromDay | src/components/calendar/Calendar.jsx:78-79 | every serial day has a valid calendar date that maps back to it |
| Dates.ToDayInjective | src/components/calendar/Calendar.jsx:78-82 | distinct dates have distinct serial days |
| Dates.FromDayToDay | src/components/calendar/Calendar.jsx:78-82 | date to serial day and back is the identity |
| Dates.Weekday | src/pages/SocialMediaPage.jsx:126 | `getDay` is in 0..6 |
| Dates.WeekdayStep | src/pages/SocialMediaPage.jsx:126 | k days later the weekday has moved k places, modulo 7 |
| Dates.StartOfWeek | src/components/calendar/Calendar.jsx:80 | `startOfWeek` with Monday start: the Monday on or before the day, within 6 days |
| Dates.EndOfWeek | src/components/calendar/Calendar.jsx:81 | `endOfWeek`: the Sunday on or after the day, six days after its Monday |
| Dates.SameWeek | src/pages/TarefasPage.jsx:150-155 | a day is within a week's Monday..Sunday exactly when it has the same Monday |
| Dates.EachDay | src/components/calendar/Calendar.jsx:82 | `eachDayOfInterval`: the consecutive days from start to end, none when start is after end |
| Dates.AddMonths | src/components/calendar/Calendar.jsx:52 | `addMonths`: n months on, the day clamped to the target month's length |
| Dates.AddMonthsBack | src/components/calendar/Calendar.jsx:52 | a month forward and a month back returns to the date when no clamping happened |
| Dates.DigitsLength | src/components/tarefas/TarefaModal.jsx:59 | zero-padded numbers have the requested width |
| Dates.ParseDigits | src/components/tarefas/TarefaModal.jsx:59 | reading back a printed number gives the number |
| Dates.DigitsOfParse | src/pages/SocialMediaPage.jsx:116-117 | printing a read digit string with its width gives the string back |
| Dates.FormatMonthPrefix | src/pages/SocialMediaPage.jsx:99 | the 'yyyy-MM' key is the first seven characters of the 'yyyy-MM-dd' text |
| Dates.ParseDate | src/pages/SocialMediaPage.jsx:116-117 | a parsed 'yyyy-MM-dd' text is a valid date with a four-digit year |
| Dates.FormatParse | src/components/tarefas/TarefaModal.jsx:59 | parsing a formatted date gives the date back |
| Dates.ParseFormat | src/pages/TarefasPage.jsx:147 | formatting a parsed text gives the text back |
| Sorting.SortInPlace | src/components/calendar/Calendar.jsx:258-263 | the array is sorted by the comparison and is a permutation of what it held |
| Crud.DeleteClick | src/pages/ClientesPage.jsx:54-62 | a click on the armed row removes it and disarms; any other click removes nothing and arms the clicked row |
| Crud.DeleteNeedsTwoClicks | src/pages/ClientesPage.jsx:54-62 | the first click never removes, a second click on the same row removes it, and a click on another row only re-arms |
| TaskOrder.StartLeTotalPreorder | src/components/calendar/Calendar.jsx:258-260 | comparing `hora_inicio \|\| ''` is a total preorder |
| TaskOrder.SortByStart | src/components/calendar/DayDetailModal.jsx:44 | the tasks are sorted in place by start time and form a permutation of the input |
| TaskOrder.MissingTimesFirst | src/components/calendar/Calendar.jsx:258-260 | after the sort, tasks without a start time come before those with one |
| TaskOrder.SortedStartsIncrease | src/components/calendar/Calendar.jsx:258-260 | after the sort, a strictly earlier start time sits earlier |
| Calendar.NextSaturday | src/components/calendar/Calendar.jsx:97 | `nextSaturday`: the first Saturday strictly after the day |
| Calendar.PreviousSaturday | src/components/calendar/Calendar.jsx:56 | `previousSaturday`: the last Saturday strictly before the day |
| Calendar.ShownSaturday | src/components/calendar/Calendar.jsx:91-98 | the weekend shown starts on the day itself if a Saturday, the day before if a Sunday, else the coming Saturday |
| Calendar.MonthStart | src/components/calendar/Calendar.jsx:78 | `startOfMonth`: the day that is the 1st of the current day's month and year |
| Calendar.MonthEnd | src/components/calendar/Calendar.jsx:79 | `endOfMonth`: the day that is the last day of the current day's month and year |
| Calendar.Days | src/components/calendar/Calendar.jsx:76-104 | the `days` memo: a non-empty run of consecutive days; month and week views run Monday to Sunday, the week containing the current day; weekend view is two days from a Saturday; day view is the current day |
| Calendar.WeekDays | src/components/calendar/Calendar.jsx:84-88 | week view shows 7 consecutive days from the Monday on or before the current day |
| Calendar.WeekendDays | src/components/calendar/Calendar.jsx:89-101 | weekend view shows exactly the Saturday and the Sunday after it |
| Calendar.DayViewDays | src/components/calendar/Calendar.jsx:103 | day view shows the current day only |
| Calendar.MonthSpan | src/components/calendar/Calendar.jsx:78-79 | the current month runs from its first to its last day, day k falling on the first day + k − 1, and contains the current day |
| Calendar.WeekGrid | src/components/calendar/Calendar.jsx:80-82 | Monday-to-Sunday padding of a 28- to 31-day span gives 28, 35 or 42 days (four to six whole weeks) starting on a Monday and covering the span |
| Calendar.MonthDays | src/components/calendar/Calendar.jsx:77-82 | month view starts on a Monday, ends on a Sunday, has a multiple of 7 days, and they are consecutive |
| Calendar.MonthDaysCover | src/components/calendar/Calendar.jsx:77-82 | every day of the current month is in month view |
| Calendar.MonthShift | src/components/calendar/Calendar.jsx:52 | `addMonths`/`subMonths` on serial days: the date n months away with the day clamped to that month's length, so exactly n months away |
| Calendar.ForwardAsWritten | src/components/calendar/Calendar.jsx:62-71 | `goForward` as written: a month on, 7 days on, 1 day on, or in weekend view a Saturday within the next 7 days |
| Calendar.BackAsWritten | src/components/calendar/Calendar.jsx:51-60 | `goBack` as written: a month back, 7 days back, 1 day back, or in weekend view a Saturday within the previous 7 days |
| Calendar.Forward | src/components/calendar/Calendar.jsx:62-71 | corrected `goForward`: in weekend view a Saturday whose shown weekend is the next one; otherwise as written |
| Calendar.Back | src/components/calendar/Calendar.jsx:51-60 | corrected `goBack`: in weekend view a Saturday whose shown weekend is the previous one; otherwise as written |
| Calendar.WeekendStepsAsWritten | src/components/calendar/Calendar.jsx:54-57 | as written, weekend forward lands on a Saturday strictly after the current day and back on one strictly before it |
| Calendar.WeekendStepStuck | src/components/calendar/Calendar.jsx:65-68 | as written, forward from a weekday and back from a Sunday show the same weekend again |
| Calendar.DayViewSteps | src/components/calendar/Calendar.jsx:59-70 | day view moves by one day each way |
| Calendar.WeekSteps | src/components/calendar/Calendar.jsx:53-64 | week view moves the shown week by 7 days each way |
| Calendar.WeekendSteps | src/components/calendar/Calendar.jsx:54-57 | with the corrected step, each weekend press shows the weekend 7 days later or earlier |
| Calendar.MonthSteps | src/components/calendar/Calendar.jsx:52-63 | month view moves exactly one month each way |
| Calendar.ForwardBack | src/components/calendar/Calendar.jsx:51-71 | outside month view, back after forward shows the same days again |
| Calendar.GridCols | src/components/calendar/Calendar.jsx:166 | 7 columns for month and week, 2 for weekend, 1 for day |
| Calendar.MaxTasks | src/components/calendar/Calendar.jsx:170-173 | 20 tasks outside month view; in month view 4 in dark mode, else 3 |
| Calendar.GridFitsDays | src/components/calendar/Calendar.jsx:166 | every view's day count fills whole grid rows |
| Calendar.TaskDayKey | src/components/calendar/Calendar.jsx:128-136 | a task's key is its raw `data_prazo`; a key that reads as a date is already written as `yyyy-MM-dd`, so it matches the post key of that day |
| Calendar.PostDayKey | src/components/calendar/Calendar.jsx:138-146 | a post's key is a 10-character `yyyy-MM-dd` text that parses back to its scheduled day |
| Calendar.TarefasByDay | src/components/calendar/Calendar.jsx:128-136 | each `data_prazo` key maps to its tasks in input order, and no task is missing |
| Calendar.PostsByDay | src/components/calendar/Calendar.jsx:138-146 | each 'yyyy-MM-dd' key maps to its posts in input order, and no post is missing |
| Calendar.GroupedOnce | src/components/calendar/Calendar.jsx:128-136 | a task lies in exactly one group, its own key's |
| Calendar.PostLeTotalPreorder | src/components/calendar/Calendar.jsx:261-263 | comparing posts by scheduled time is a total preorder |
| Calendar.DayLists | src/components/calendar/Calendar.jsx:256-263 | a day's tasks and posts are its groups, sorted by start time and by scheduled time, as permutations |
| Calendar.CellAsWritten | src/components/calendar/Calendar.jsx:344-375 | the cell as written: min(tasks, max) tasks and min(posts, max(1, max − tasks)) posts; with too many tasks and no posts it prints the same overflow line twice; with everything fitting it prints none |
| Calendar.CellAsWrittenMiscounts | src/components/calendar/Calendar.jsx:344-374 | as written, 4 tasks and no post print '+1 mais' twice, and 3 tasks with 2 posts hide 1 item but print '+2 mais' |
| Calendar.Cell | src/components/calendar/Calendar.jsx:302-374 | at most `maxTasks` tasks, then min(posts, max(1, maxTasks − tasks)) posts, so at least one post when there are posts, and one overflow line exactly when something is hidden, counting exactly what is hidden |
| Calendar.CellAgrees | src/components/calendar/Calendar.jsx:344-374 | when the tasks fit, the corrected cell lists at most `maxTasks` items and prints the same line as the original |
| Calendar.CalendarState.constructor | src/components/calendar/Calendar.jsx:47-48 | the calendar opens in month view on today |
| Calendar.CalendarState.GoBack | src/components/calendar/Calendar.jsx:51-60 | moves the current date one step back for the view; the weekend step is the corrected one (see "## Left out"; the as-written step is Calendar.BackAsWritten) |
| Calendar.CalendarState.GoForward | src/components/calendar/Calendar.jsx:62-71 | moves the current date one step forward for the view; the weekend step is the corrected one (see "## Left out"; the as-written step is Calendar.ForwardAsWritten) |
| Calendar.CalendarState.GoToday | src/components/calendar/Calendar.jsx:73 | the current date becomes today; the view is kept |
| Calendar.CalendarState.SetViewMode | src/components/calendar/Calendar.jsx:48 | changes the view, keeping the date |
| SocialMedia.MakeRecord | src/pages/SocialMediaPage.jsx:137-151 | a record: the client, type and one network; the day at the form's hour and minute with zero seconds; status 'Planejado'; no caption or media; title '[rede] tipo - cliente' |
| SocialMedia.DayRecords | src/pages/SocialMediaPage.jsx:136-152 | one record per network of the day, in network order |
| SocialMedia.Expand | src/pages/SocialMediaPage.jsx:134-153 | the day groups of records one after another, \|days\|·\|networks\| records in all |
| SocialMedia.ExpandSlot | src/pages/SocialMediaPage.jsx:134-153 | for one day i and network j, slot i·\|networks\|+j lies within the records and holds day i on network j |
| SocialMedia.ExpandAt | src/pages/SocialMediaPage.jsx:134-153 | the nested loops give \|days\|·\|networks\| records, and record i·\|networks\|+j is day i on network j |
| SocialMedia.ExpandMembers | src/pages/SocialMediaPage.jsx:134-153 | every generated record is the record of some selected day and network |
| SocialMedia.GenerateRecords | src/pages/SocialMediaPage.jsx:134-153 | the push loops build exactly that sequence |
| SocialMedia.ParseTime | src/pages/SocialMediaPage.jsx:137-139 | a parsed 'HH:mm' gives an hour in 0..23 and a minute in 0..59 |
| SocialMedia.SelectedDays | src/pages/SocialMediaPage.jsx:125-126 | the days in the inclusive range whose weekday is ticked |
| SocialMedia.SelectedDaysIncrease | src/pages/SocialMediaPage.jsx:125-126 | the selected days are in increasing order |
| SocialMedia.FilterIncreasing | src/pages/SocialMediaPage.jsx:126 | filtering an increasing list keeps it increasing |
| SocialMedia.ClienteNome | src/pages/SocialMediaPage.jsx:115 | the name of the first client with the id, '' when none has it |
| SocialMedia.Plan | src/pages/SocialMediaPage.jsx:107-153 | `handleBulkCreate`'s outcome: the missing-fields alert exactly when a required field is empty; start after end only for parsed dates in that order; no matching days only when no day of the range is ticked; a throw only for an unreadable date or time; records only from parsed dates in order and a parsed time |
| SocialMedia.PlanNeedsFields | src/pages/SocialMediaPage.jsx:108-111 | a missing client, start, end, network list or weekday list produces no records |
| SocialMedia.PlanParts | src/pages/SocialMediaPage.jsx:115-153 | a plan that is sent had parseable dates and time, start no later than end, at least one selected day, and its records are the expansion of those days and networks |
| SocialMedia.PlanCountAndOrder | src/pages/SocialMediaPage.jsx:125-153 | a sent plan has at least one record, and its records are day-major, in network order, each with its own single network |
| SocialMedia.ExpandDayMajor | src/pages/SocialMediaPage.jsx:135-145 | the expansion is day-major |
| SocialMedia.PlanRecordFields | src/pages/SocialMediaPage.jsx:115-151 | every record's day lies in the range on a ticked weekday at the form's time, with the form's client and type, status 'Planejado', no caption or media, and a null responsible person when none was chosen |
| SocialMedia.PreviewOf | src/pages/SocialMediaPage.jsx:357-372 | the prompt exactly when a field is empty; 'Datas inválidas' only for parsed dates in the wrong order; blank only for an unreadable date; otherwise as many networks as chosen and at most the range's length in days |
| SocialMedia.PreviewCountsRecords | src/pages/SocialMediaPage.jsx:357-372 | when posts are generated, the preview promises days × networks, which is the number generated |
| SocialMedia.PreviewPromisesRecords | src/pages/SocialMediaPage.jsx:357-372 | a preview with a positive count, a chosen client and a valid time is honoured with exactly that many records |
| SocialMedia.FilterPosts | src/pages/SocialMediaPage.jsx:87-93 | a post is kept exactly when it matches the status filter if set and the client filter if set; order is kept; no filters keep everything |
| SocialMedia.MonthKey | src/pages/SocialMediaPage.jsx:99 | a post's month key is `yyyy-MM`: four digits reading as its year, a dash, two digits reading as its month |
| SocialMedia.MonthKeyOfDayKey | src/pages/SocialMediaPage.jsx:99 | a post's month key is the first seven characters of its day key |
| SocialMedia.PostsByMonth | src/pages/SocialMediaPage.jsx:96-104 | each 'yyyy-MM' key maps to its posts in input order, and no post is missing |
| SocialMedia.BuildRecords | src/pages/SocialMediaPage.jsx:107-153 | validation, day selection and the loops produce the outcome the plan specifies |
| SocialMedia.SocialMediaPage.constructor | src/pages/SocialMediaPage.jsx:49-63 | the form starts with 'Reel', '10:00' and Monday, Wednesday and Friday ticked, hidden, with no filters |
| SocialMedia.SocialMediaPage.ToggleRede | src/pages/SocialMediaPage.jsx:185-189 | only the network list changes, by the toggle |
| SocialMedia.SocialMediaPage.ToggleDia | src/pages/SocialMediaPage.jsx:192-196 | only the weekday list changes, by the toggle |
| SocialMedia.SocialMediaPage.HandleBulkCreate | src/pages/SocialMediaPage.jsx:107-174 | the outcome is the plan of the form; a successful insert resets the form and hides it; otherwise the form stays as it was; the filters never change |
| SocialMedia.SocialMediaPage.Finish | src/pages/SocialMediaPage.jsx:158-167 | the reset after a successful insert, or nothing |
| TarefasPage.DueDay | src/pages/TarefasPage.jsx:147 | a task's due day exists only when `data_prazo` parses |
| TarefasPage.WeekPeriod | src/pages/TarefasPage.jsx:150-155 | 'this week' keeps a task exactly when its due day has the same Monday as today |
| TarefasPage.QuickPeriodOverridesRange | src/pages/TarefasPage.jsx:146-159 | with a quick period set, the custom dates have no effect |
| TarefasPage.RangeIsCalendarRange | src/pages/TarefasPage.jsx:157-158 | the string comparison of 'yyyy-MM-dd' texts is the comparison of the days they name |
| TarefasPage.FormatOrder | src/pages/TarefasPage.jsx:157-158 | one formatted date is before another as text exactly when it is an earlier day |
| TarefasPage.DateOrder | src/pages/TarefasPage.jsx:157-158 | an earlier day is an earlier year, month or day, in that order |
| TarefasPage.TaskLeTotalPreorder | src/pages/TarefasPage.jsx:171-180 | the three-tier comparison is a total preorder, so the sort is well defined |
| TarefasPage.SortedTiers | src/pages/TarefasPage.jsx:171-180 | in the sorted list, tasks with a deadline come first in deadline order, then the rest by `data_prazo` text |
| TarefasPage.FilteredTarefas | src/pages/TarefasPage.jsx:132-181 | the result holds exactly the tasks passing search, date filter, client set and type set, as a permutation of the filter's output, sorted in three tiers |
| TarefasPage.ActiveFiltersCount | src/pages/TarefasPage.jsx:183-187 | the count is zero exactly when no quick period, no date, no client and no type is set, and is at least the number of clients plus types |
| TarefasPage.NoActiveFilter | src/pages/TarefasPage.jsx:132-168 | with no active filter only the search decides |
| TarefasPage.FilterNarrows | src/pages/TarefasPage.jsx:135-142 | every kept task matches the search in its description, client, staff or location |
| TarefasPage.TarefasFilters.constructor | src/pages/TarefasPage.jsx:37-45 | everything starts empty |
| TarefasPage.TarefasFilters.SelectQuickPeriod | src/pages/TarefasPage.jsx:76-84 | choosing the active period clears it; choosing another sets it and clears both dates; quick period and custom range stay exclusive |
| TarefasPage.TarefasFilters.HandleDateFrom | src/pages/TarefasPage.jsx:87-90 | sets the start date and clears the quick period |
| TarefasPage.TarefasFilters.HandleDateTo | src/pages/TarefasPage.jsx:91-94 | sets the end date and clears the quick period |
| TarefasPage.TarefasFilters.ToggleCliente | src/pages/TarefasPage.jsx:110-114 | only the client list changes, by the toggle |
| TarefasPage.TarefasFilters.ToggleTipo | src/pages/TarefasPage.jsx:116-120 | only the type list changes, by the toggle |
| TarefasPage.TarefasFilters.ClearAllFilters | src/pages/TarefasPage.jsx:122-129 | everything is empty, search included, and the active count is 0 |
| TarefasPage.ExclusiveCount | src/pages/TarefasPage.jsx:183-187 | while period and range are exclusive, the date part of the count is at most 1 |
| TarefaModal.Apply | src/components/tarefas/TarefaModal.jsx:72-74 | an edit changes exactly the named field |
| TarefaModal.FormExtensional | src/components/tarefas/TarefaModal.jsx:22-35 | forms that agree on every field are equal |
| TarefaModal.ApplyLaws | src/components/tarefas/TarefaModal.jsx:72-74 | typing a field's own value changes nothing, and the last write to a field wins |
| TarefaModal.Prefix | src/components/tarefas/TarefaModal.jsx:45-49 | `x?.slice(0, n) \|\| ''`: a prefix of length min(n, length), or '' |
| TarefaModal.FormTimeIsListTime | src/components/tarefas/TarefaModal.jsx:45-46 | the form shows a time as the list does |
| TarefaModal.InitialForm | src/components/tarefas/TarefaModal.jsx:37-68 | editing copies the task with missing fields as '' or false, times cut to 5 and the deadline to 16 characters; a new task is empty except the due date, the default date as 'yyyy-MM-dd', which parses back to that day |
| TarefaModal.Payload | src/components/tarefas/TarefaModal.jsx:78-87 | empty ids, times, gallery link and deadline become null, the others are sent as typed |
| TarefaModal.EditRoundTrip | src/components/tarefas/TarefaModal.jsx:37-87 | saving an untouched edit form sends back the description, done flag and set client, type, staff and gallery link unchanged; a missing client, type, staff member or link comes back null; location, notes and due date come back as they were, a missing one as ''; 'HH:mm' times come back unchanged |
| TarefaModal.TaskEditor.constructor | src/components/tarefas/TarefaModal.jsx:20-35 | the form starts empty and delete disarmed |
| TarefaModal.TaskEditor.Init | src/components/tarefas/TarefaModal.jsx:37-70 | the form becomes the initial form and delete is disarmed |
| TarefaModal.TaskEditor.HandleChange | src/components/tarefas/TarefaModal.jsx:72-74 | the form takes the edit; delete stays as it was |
| TarefaModal.TaskEditor.HandleSubmit | src/components/tarefas/TarefaModal.jsx:76-95 | an edited task is updated with the payload, otherwise the payload is inserted |
| TarefaModal.TaskEditor.HandleDelete | src/components/tarefas/TarefaModal.jsx:97-104 | the first press only arms; a press while armed removes the task |
| FilterSidebar.Handle | src/components/filters/FilterSidebar.jsx:13-98 | a toggle flips one id in its own list, keeps the other ids, and leaves the other list alone; clear empties both lists |
| FilterSidebar.ClearOfferedWhenUseful | src/components/filters/FilterSidebar.jsx:93-98 | the clear button is offered exactly when clearing would change something, and never right after a clear |
| FilterSidebar.ToggleTwiceRestores | src/components/filters/FilterSidebar.jsx:13-23 | toggling the same id twice restores membership, and the list itself when the id was absent |
| FilterSidebar.CheckOffersClear | src/components/filters/FilterSidebar.jsx:93-98 | after ticking an id the clear button is offered |
| Dashboard.FilterTarefas | src/pages/DashboardPage.jsx:50-54 | a task is kept exactly when it passes the staff and type sets, empty sets meaning no restriction; order is kept; no filters keep everything |
| Dashboard.FilterTwice | src/pages/TvDashboardPage.jsx:34-38 | filtering twice equals filtering once |
| Dashboard.MoreStaffShowsMore | src/pages/DashboardPage.jsx:51 | ticking one more staff member in a non-empty set hides nothing that was shown |
| Dashboard.DashboardState.constructor | src/pages/DashboardPage.jsx:14-22 | no day, no modal, no filters |
| Dashboard.DashboardState.DayDetailTarefas | src/pages/DashboardPage.jsx:113-117 | the day-detail list is the clicked day's tasks re-filtered with the same predicate |
| Dashboard.DashboardState.HandleDayClick | src/pages/DashboardPage.jsx:56-59 | records the day and its tasks, nothing else |
| Dashboard.DashboardState.CloseDayDetail | src/pages/DashboardPage.jsx:111 | clears the selected day only |
| Dashboard.DashboardState.HandleNewTarefa | src/pages/DashboardPage.jsx:61-65 | clears the edited task, records the date and opens the task modal |
| Dashboard.DashboardState.HandleEditTarefa | src/pages/DashboardPage.jsx:67-71 | records the edited task, clears the date and opens the task modal |
| Dashboard.DashboardState.CloseTarefaModal | src/pages/DashboardPage.jsx:126-140 | close and save both close the modal and clear the edited task |
| Dashboard.DashboardState.OnSidebar | src/pages/DashboardPage.jsx:78-85 | a sidebar action changes the filters only |
| Dashboard.DayDetailMatchesCalendar | src/pages/DashboardPage.jsx:56-117 | when every task a click passed was shown on the filtered calendar, the dialog shows exactly that list, as long as the filters are unchanged |
| Dashboard.DayGroupShownUnchanged | src/pages/DashboardPage.jsx:56-117 | a click passes one day's group of the filtered tasks, and the dialog shows that group unchanged |
| TvDashboard.TvDashboardState.constructor | src/pages/TvDashboardPage.jsx:9-11 | filters hidden and empty |
| TvDashboard.TvDashboardState.ToggleShowFilters | src/pages/TvDashboardPage.jsx:60 | the button flips `showFilters` |
| TvDashboard.TvDashboardState.Sidebar | src/pages/TvDashboardPage.jsx:76 | the sidebar is rendered exactly when `showFilters` is on, with the page's filters |
| TvDashboard.TvDashboardState.OnSidebar | src/pages/TvDashboardPage.jsx:76-84 | a sidebar action changes the filters only |
| TvDashboard.TvDashboardState.Shown | src/pages/TvDashboardPage.jsx:34-38 | a task is shown exactly when it passes both sets, in input order |
| TvDashboard.ShownIsStable | src/pages/TvDashboardPage.jsx:34-38 | the shown list is a fixed point of the filter |
| DayDetail.TypeOf | src/components/calendar/DayDetailModal.jsx:18-21 | the type row with the task's type id, or none exactly when no row has it |
| DayDetail.TypeName | src/components/calendar/DayDetailModal.jsx:18 | the type's name, or 'Sem tipo' |
| DayDetail.TypeColor | src/components/calendar/DayDetailModal.jsx:19 | the type's colour, or '#5d109c' |
| DayDetail.TypeIcon | src/components/calendar/DayDetailModal.jsx:20-24 | the icon of the type's key, or Camera |
| DayDetail.FuncName | src/components/calendar/DayDetailModal.jsx:25 | a found staff member with a non-empty name shows that name; an unknown id shows 'Sem responsável'; any other text shown is a listed member's name |
| DayDetail.UnknownTypeFallbacks | src/components/calendar/DayDetailModal.jsx:18-24 | an unknown type shows 'Sem tipo', '#5d109c' and Camera |
| DayDetail.KnownTypeShown | src/components/calendar/DayDetailModal.jsx:18-24 | a type with a unique id shows its own name, colour and icon |
| DayDetail.FormatPhone | src/components/calendar/DayDetailModal.jsx:27-30 | null for a missing or empty number, otherwise exactly its digits in order: a subsequence of the number holding each digit as often as the number does and nothing else |
| DayDetail.FormatPhoneDigitsOnly | src/components/calendar/DayDetailModal.jsx:27-30 | a number of bare digits is kept as it is |
| DayDetail.WhatsAppLink | src/components/calendar/DayDetailModal.jsx:71-78 | a link exists exactly when the client name is set and the phone has a digit; it is 'https://wa.me/55' followed by digits only |
| DayDetail.Hours | src/components/calendar/DayDetailModal.jsx:97-101 | no times without a start; the start, or 'start - end', each cut to 'HH:mm' |
| DayDetail.CardOf | src/components/calendar/DayDetailModal.jsx:45-107 | a card shows the task's type name and staff name, the check icon when done and the type icon otherwise, and a WhatsApp link only beside a client name |
| DayDetail.Render | src/components/calendar/DayDetailModal.jsx:16-45 | nothing and no sort without a day; otherwise the tasks are sorted in place by start time as a permutation and there is one card per task in that order |
| ClientesPage.EditForm | src/pages/ClientesPage.jsx:31-41 | the client's name and other fields, missing ones as '' |
| ClientesPage.EditFormRoundTrip | src/pages/ClientesPage.jsx:31-48 | an edited client saved untouched sends its name and every set field unchanged, and sends '' for a field exactly when the client had none |
| ClientesPage.FilterClientes | src/pages/ClientesPage.jsx:64-68 | a client is kept exactly when the case-insensitive query is in its name, e-mail or company; order is kept; '' keeps all |
| ClientesPage.ClientesState.constructor | src/pages/ClientesPage.jsx:11-23 | closed dialog, no search, nothing armed, empty form |
| ClientesPage.ClientesState.OpenNew | src/pages/ClientesPage.jsx:25-29 | an empty dialog for a new client |
| ClientesPage.ClientesState.OpenEdit | src/pages/ClientesPage.jsx:31-41 | the dialog on the client with its edit form |
| ClientesPage.ClientesState.HandleSubmit | src/pages/ClientesPage.jsx:43-52 | updates the edited client or inserts the form, then closes the dialog |
| ClientesPage.ClientesState.HandleDelete | src/pages/ClientesPage.jsx:54-62 | the two-click delete per row |
| FuncionariosPage.StripPassword | src/pages/FuncionariosPage.jsx:57 | the written columns are the form's, the password excluded |
| FuncionariosPage.PasswordNeverWritten | src/pages/FuncionariosPage.jsx:57-81 | what is written does not depend on the password |
| FuncionariosPage.EditForm | src/pages/FuncionariosPage.jsx:36-49 | the member's values, missing ones as '', the colour defaulting to '#5d109c', no password |
| FuncionariosPage.SignUpOnlyForNew | src/pages/FuncionariosPage.jsx:59-63 | editing never signs up, nor does a form without e-mail, password or "criar acesso" |
| FuncionariosPage.FilterFuncionarios | src/pages/FuncionariosPage.jsx:104-107 | a member is kept exactly when the case-insensitive query is in the name or role; order is kept; '' keeps all |
| FuncionariosPage.FuncionariosState.constructor | src/pages/FuncionariosPage.jsx:11-26 | closed dialog, no error, not loading, the default form |
| FuncionariosPage.FuncionariosState.OpenNew | src/pages/FuncionariosPage.jsx:28-34 | a fresh dialog with "criar acesso" on and no error |
| FuncionariosPage.FuncionariosState.OpenEdit | src/pages/FuncionariosPage.jsx:36-49 | the dialog on the member with "criar acesso" off and no error |
| FuncionariosPage.FuncionariosState.HandleSubmit | src/pages/FuncionariosPage.jsx:51-92 | sign-up happens exactly when it is wanted; an error or exception inserts nothing and shows its message, or 'Erro ao salvar'; otherwise an update, or an insert linked to the new user id (null when missing) after a sign-up; a write closes the dialog; never loading afterwards |
| FuncionariosPage.FuncionariosState.HandleDelete | src/pages/FuncionariosPage.jsx:94-102 | the two-click delete per row |
| TiposTarefaPage.IconOptionsMatchIconMap | src/pages/TiposTarefaPage.jsx:9-20 | every picker key can be drawn with a non-empty label, and every drawable key is offered |
| TiposTarefaPage.LabelIn | src/pages/TiposTarefaPage.jsx:109 | over options with non-empty labels: the label of the first option with the key, the key itself when no option has it |
| TiposTarefaPage.IconLabel | src/pages/TiposTarefaPage.jsx:109 | nothing for a missing key; a key the picker offers shows the label of its first option; any other key is shown raw |
| TiposTarefaPage.EditForm | src/pages/TiposTarefaPage.jsx:42-50 | the name, with the colour defaulting to '#5d109c' and the icon to 'camera' |
| TiposTarefaPage.FormsHaveColourAndIcon | src/pages/TiposTarefaPage.jsx:36-50 | every dialog starts with a colour and an icon, and the default icon is listed as 'Câmera' |
| TiposTarefaPage.TiposState.constructor | src/pages/TiposTarefaPage.jsx:23-34 | closed dialog, nothing armed, the default form |
| TiposTarefaPage.TiposState.OpenNew | src/pages/TiposTarefaPage.jsx:36-40 | the form is nome '', cor '#5d109c', icone 'camera' |
| TiposTarefaPage.TiposState.OpenEdit | src/pages/TiposTarefaPage.jsx:42-50 | the dialog on the type with its edit form |
| TiposTarefaPage.TiposState.HandleSubmit | src/pages/TiposTarefaPage.jsx:52-61 | updates the edited type or inserts the form, then closes the dialog |
| TiposTarefaPage.TiposState.HandleDelete | src/pages/TiposTarefaPage.jsx:63-71 | the two-click delete per row |
| InstallPwa.Flags | src/hooks/useInstallPWA.js:56-61 | native install needs a prompt and no installation; iOS install needs iOS, no standalone mode and no installation; `canInstall` is either; installed means nothing to offer |
| InstallPwa.OnlyIOSWithoutPrompt | src/hooks/useInstallPWA.js:56-61 | without a prompt only the iOS path can offer an install, and never in standalone mode |
| InstallPwa.InstallState.constructor | src/hooks/useInstallPWA.js:15-18 | no prompt, not installed, the platform checks taken once |
| InstallPwa.InstallState.Mount | src/hooks/useInstallPWA.js:20-23 | an app already in standalone mode counts as installed |
| InstallPwa.InstallState.BeforeInstallPrompt | src/hooks/useInstallPWA.js:25-28 | the event's prompt is kept |
| InstallPwa.InstallState.AppInstalled | src/hooks/useInstallPWA.js:30-33 | installed, prompt dropped, nothing left to offer |
| InstallPwa.InstallState.Install | src/hooks/useInstallPWA.js:44-54 | without a prompt returns false and changes nothing; otherwise the prompt is used up and the app becomes installed, with true returned, exactly when the user accepts |

## Left out

- Network and database: every query, insert, update, delete, sign-up and
  refetch is a value returned by the model. The database client in
  src/hooks/useSupabase.js is not part of this model, nor are realtime
  subscriptions or loading flags.
- Clock: `new Date()` is the parameter `now` (milliseconds) or `today`
  (a serial day).
- Time zones: `setHours` and `toISOString` are out of scope. A generated post's time is the pair
  (serial day, hour:minute). The task form's deadline conversion is the parameter `toIso`.
- Floating point: the progress bar is computed exactly on integers. It
  agrees with the JavaScript arithmetic except where a float rounding would
  move a value across 50%, 80% or a half percent.
- Deadline.GetDeadlineText: the text of `formatDistanceToNow` (Portuguese, with suffix) is the parameter `describe`;
  only the null guard is modelled.
- Locale strings: the header titles, weekday labels and `format(..., ptBR)` output are out of scope.
- Text.Lower: lower-cases ASCII letters only, not the full Unicode `toLowerCase`.
- Text.StrLeq: `localeCompare` is modelled as code-unit order. The two
  agree on the 'HH:mm' and 'yyyy-MM-dd' strings the sorts compare.
- Sorting.SortInPlace: proved sorted and a permutation, not stable. The
  order of equal elements, which JavaScript's stable sort keeps, is not
  stated.
- TaskOrder.SortByStart: same as Sorting.SortInPlace.
- TarefasPage.FilteredTarefas: same as Sorting.SortInPlace.
- Calendar.CalendarState.GoForward: in weekend view the state takes the corrected step (`Calendar.Forward`, the next weekend) rather than the program's `nextSaturday` step of src/components/calendar/Calendar.jsx:65-68, which from a weekday stays on the weekend already shown; the program's step is `Calendar.ForwardAsWritten`, and the first Findings row records the difference.
- Calendar.CalendarState.GoBack: in weekend view the state takes the corrected step (`Calendar.Back`, the previous weekend) rather than the program's `previousSaturday` step of src/components/calendar/Calendar.jsx:54-57, which from a Sunday stays on the weekend already shown; the program's step is `Calendar.BackAsWritten`.
- Calendar.DayLists: sorts a copy of the day's groups; the in-place sort of the cached `tarefasByDay`/`postsByDay` arrays, which are then handed to `onDayClick`, and its stability are not modelled.
- DayDetail.Render: the dialog sorts the array it receives in place. The
  model sorts that array too. The Dashboard's re-filtered copy is a fresh
  list, so the aliasing with Calendar's cached day arrays is not modelled.
- SocialMedia.ParseTime: accepts only 'HH:mm', the value a time input
  produces. Other texts that `parseInt` would partly read count as an
  invalid form.
- SocialMedia.SocialMediaPage.HandleBulkCreate: the `alert` messages are out of scope. A failed insert is the parameter `insertFailed`.
- Dates.ParseDate: reads only 'yyyy-MM-dd' with a four-digit year. Other
  ISO forms that `parseISO` accepts are read as invalid.
- SocialMediaPage `handleDelete` and the page's own `PostEditModal` (src/pages/SocialMediaPage.jsx:529-655): a browser `confirm` with one delete request, and a dialog whose `handleSave` sends one update request. Neither is modelled.
- TarefasPage `toggleRealizado` is a single update request and is not modelled.
- The three-argument `getProgressBar(deadline, realizado, janela_alerta_horas)` call and its `bar.color` at
  src/pages/TarefasPage.jsx:401,412 do not match the function's signature. The model keeps the function's own
  two-dates behaviour and does not invent a countdown policy.
- Platform detection: `getIsIOS` and `getIsStandalone` are constructor and
  `Mount` parameters. Browser event listeners become method calls.
- The TV page's fullscreen toggle, dropdown click-outside handling, scrolling and all rendering markup are out of scope.
- Presentation-only files are not part of this model: the landing, login
  and layout pages, the UI kit, App routing and the build configuration.
  `cn` and `formatDate` in src/lib/utils.js only delegate to libraries and
  are left out too.

## Findings

| source | as written | input that shows it | evidently intended | confidence | as-written member | corrected member |
|---|---|---|---|---|---|---|
| src/components/calendar/Calendar.jsx:54-57,65-68 | in weekend view, forward goes to `nextSaturday(currentDate)` (after `currentDate + 1` on a Saturday), and back mirrors it | current date Thursday 1970-01-01: the view shows Sat 3 / Sun 4 January, and forward jumps to Sat 3 January, the same weekend; back from Sunday 4 January lands on Sat 3 January, also the same | each press shows the next or previous weekend | not executed | Calendar.WeekendStepStuck | Calendar.WeekendSteps |
| src/components/calendar/Calendar.jsx:344-374 | a cell prints '+(tasks − max) mais' when there are no posts, and then '+(tasks + posts − max) mais' | month view (max 3) with 4 tasks and no post prints '+1 mais' twice; 3 tasks and 2 posts list 3 tasks and 1 post but print '+2 mais' for the one hidden post | one overflow line counting the items not listed | not executed | Calendar.CellAsWrittenMiscounts | Calendar.Cell |

=== FILE: calendar.dfy ===
/** The shared calendar: which days it shows in each view mode, how its
    navigation moves the current date, how tasks and posts are grouped and
    ordered per day, and how much of a day cell is shown before the
    "+N mais" overflow line. Days are serial day numbers (see Dates). */
module Calendar {
  import opened Lists
  import opened Records
  import opened Dates
  import opened Sorting
  import opened TaskOrder

  datatype ViewMode = Month | Week | Weekend | DayView

  /** `nextSaturday(n)`: the first Saturday strictly after `n`. */
  function NextSaturday(n: int): (r: int)
    ensures Weekday(r) == 6 && n < r <= n + 7
    ensures forall k :: n < k < r ==> Weekday(k) != 6
  {
    var ahead := if Weekday(n) == 6 then 7 else 6 - Weekday(n);
    WeekdayStep(n, ahead);
    forall k | n < k < n + ahead ensures Weekday(k) != 6 {
      WeekdayStep(n, k - n);
    }
    n + ahead
  }

  /** `previousSaturday(n)`: the last Saturday strictly before `n`. */
  function PreviousSaturday(n: int): (r: int)
    ensures Weekday(r) == 6 && n - 7 <= r < n
    ensures forall k :: r < k < n ==> Weekday(k) != 6
  {
    var back := Weekday(n) + 1;
    WeekdayStep(n, -back);
    forall k | n - back < k < n ensures Weekday(k) != 6 {
      WeekdayStep(n - back, k - (n - back));
    }
    n - back
  }

  /** The Saturday of the weekend the weekend view shows for `cur`: `cur`
      itself on a Saturday, the day before on a Sunday, otherwise the coming
      Saturday. */
  function ShownSaturday(cur: int): (r: int)
    ensures Weekday(r) == 6
    ensures Weekday(cur) == 6 ==> r == cur
    ensures Weekday(cur) == 0 ==> r == cur - 1
    ensures 1 <= Weekday(cur) <= 5 ==> cur < r < cur + 6
  {
    if Weekday(cur) == 6 then cur
    else if Weekday(cur) == 0 then
      WeekdayStep(cur, -1);
      cur - 1
    else NextSaturday(cur)
  }

  /** The serial of the first day of the month containing `cur`. */
  function MonthStart(cur: int): (r: int)
    ensures FromDay(r) == Date(FromDay(cur).year, FromDay(cur).month, 1)
  {
    var c := FromDay(cur);
    FromDayToDay(Date(c.year, c.month, 1));
    ToDay(Date(c.year, c.month, 1))
  }

  /** The serial of the last day of the month containing `cur`. */
  function MonthEnd(cur: int): (r: int)
    ensures FromDay(r) == Date(FromDay(cur).year, FromDay(cur).month, MonthLength(FromDay(cur).year, FromDay(cur).month))
  {
    var c := FromDay(cur);
    FromDayToDay(Date(c.year, c.month, MonthLength(c.year, c.month)));
    ToDay(Date(c.year, c.month, MonthLength(c.year, c.month)))
  }

  /** The days the calendar shows for `cur` in view mode `mode`. */
  function Days(mode: ViewMode, cur: int): (r: seq<int>)
    ensures |r| >= 1
    ensures forall i :: 0 <= i < |r| ==> r[i] == r[0] + i
    ensures mode == Month || mode == Week ==> Weekday(r[0]) == 1 && Weekday(r[|r| - 1]) == 0
    ensures mode == Week ==> r[0] <= cur <= r[|r| - 1]
    ensures mode == Weekend ==> |r| == 2 && Weekday(r[0]) == 6
    ensures mode == DayView ==> r == [cur]
  {
    match mode
    case Month => EachDay(StartOfWeek(MonthStart(cur)), EndOfWeek(MonthEnd(cur)))
    case Week => EachDay(StartOfWeek(cur), EndOfWeek(cur))
    case Weekend => [ShownSaturday(cur), ShownSaturday(cur) + 1]
    case DayView => [cur]
  }

  lemma SameWeekdayApart(a: int, b: int)
    requires Weekday(a) == Weekday(b) && a <= b
    ensures (b - a) % 7 == 0
  {
    var qa, qb := (a + 4) / 7, (b + 4) / 7;
    assert a + 4 == 7 * qa + Weekday(a);
    assert b + 4 == 7 * qb + Weekday(b);
    assert b - a == 7 * (qb - qa);
  }

  /** Week view: the seven days from the Monday on or before `cur` to the
      following Sunday. */
  lemma WeekDays(cur: int)
    ensures var d := Days(Week, cur);
      |d| == 7 && Weekday(d[0]) == 1 && Weekday(d[6]) == 0
      && d[0] <= cur <= d[6]
      && forall i :: 0 <= i < 7 ==> d[i] == d[0] + i
  {
  }

  /** Weekend view: a Saturday and the Sunday after it, the weekend `cur`
      belongs to or, on a weekday, the coming one. */
  lemma WeekendDays(cur: int)
    ensures var d := Days(Weekend, cur);
      |d| == 2 && Weekday(d[0]) == 6 && d[1] == d[0] + 1 && Weekday(d[1]) == 0
      && (Weekday(cur) == 6 || Weekday(cur) == 0 ==> cur in d)
      && (1 <= Weekday(cur) <= 5 ==> cur < d[0] < cur + 6)
  {
    WeekdayStep(ShownSaturday(cur), 1);
  }

  /** Day view shows the current day alone. */
  lemma DayViewDays(cur: int)
    ensures Days(DayView, cur) == [cur]
  {
  }

  /** The month of `cur` runs from `MonthStart(cur)` to `MonthEnd(cur)`,
      day `k` of the month at `MonthStart(cur) + k - 1`, and contains `cur`. */
  lemma MonthSpan(cur: int)
    ensures var c := FromDay(cur);
      MonthEnd(cur) == MonthStart(cur) + MonthLength(c.year, c.month) - 1
      && MonthStart(cur) <= cur <= MonthEnd(cur)
      && forall k :: 1 <= k <= MonthLength(c.year, c.month) ==>
           ToDay(Date(c.year, c.month, k)) == MonthStart(cur) + k - 1
  {
    var c := FromDay(cur);
    assert ToDay(c) == cur;
  }

  /** Whole Monday-to-Sunday weeks from the week of `first` to the week of
      `last`, for a span of 28 to 31 days: four to six weeks. */
  lemma WeekGrid(first: int, last: int)
    requires 27 <= last - first <= 30
    ensures var d := EachDay(StartOfWeek(first), EndOfWeek(last));
      |d| % 7 == 0 && 28 <= |d| <= 42
      && Weekday(d[0]) == 1 && Weekday(d[|d| - 1]) == 0
      && d[0] <= first < d[0] + 7
      && last <= d[|d| - 1] < last + 7
    ensures var d := EachDay(StartOfWeek(first), EndOfWeek(last));
      forall x :: first <= x <= last ==> x in d
  {
    var lo, hi := StartOfWeek(first), EndOfWeek(last);
    var d := EachDay(lo, hi);
    SameWeekdayApart(lo, StartOfWeek(last));
    assert hi - lo + 1 == StartOfWeek(last) - lo + 7;
    forall x | first <= x <= last ensures x in d {
      assert d[x - lo] == x;
    }
  }

  /** Month view: whole Monday-to-Sunday weeks, four to six of them, from
      the Monday on or before the first of the month to the Sunday on or
      after its last day. */
  lemma MonthDays(cur: int)
    ensures var d := Days(Month, cur);
      |d| % 7 == 0 && 28 <= |d| <= 42
      && Weekday(d[0]) == 1 && Weekday(d[|d| - 1]) == 0
      && d[0] <= MonthStart(cur) < d[0] + 7
      && MonthEnd(cur) <= d[|d| - 1] < MonthEnd(cur) + 7
  {
    MonthSpan(cur);
    WeekGrid(MonthStart(cur), MonthEnd(cur));
  }

  /** Month view shows every day of the month containing `cur`. */
  lemma MonthDaysCover(cur: int)
    ensures var d := Days(Month, cur);
      var c := FromDay(cur);
      cur in d && forall k :: 1 <= k <= MonthLength(c.year, c.month) ==> ToDay(Date(c.year, c.month, k)) in d
  {
    var c := FromDay(cur);
    var first, last := MonthStart(cur), MonthEnd(cur);
    MonthSpan(cur);
    WeekGrid(first, last);
    var d := Days(Month, cur);
    forall k | 1 <= k <= MonthLength(c.year, c.month) ensures ToDay(Date(c.year, c.month, k)) in d {
      assert ToDay(Date(c.year, c.month, k)) == first + k - 1;
    }
  }

  /** `addMonths(cur, n)` on serial days: the day lands `n` months away. */
  function MonthShift(cur: int, n: int): (r: int)
    ensures FromDay(r) == AddMonths(FromDay(cur), n)
    ensures MonthIndex(FromDay(r)) == MonthIndex(FromDay(cur)) + n
  {
    FromDayToDay(AddMonths(FromDay(cur), n));
    ToDay(AddMonths(FromDay(cur), n))
  }

  /** `goForward` as written: a month, a week or a day ahead; in weekend
      view, the next Saturday after `cur` (after `cur + 1` on a Saturday). */
  function ForwardAsWritten(mode: ViewMode, cur: int): (r: int)
    ensures mode == Month ==> MonthIndex(FromDay(r)) == MonthIndex(FromDay(cur)) + 1
    ensures mode == Week ==> r == cur + 7
    ensures mode == Weekend ==> Weekday(r) == 6 && cur < r <= cur + 7
    ensures mode == DayView ==> r == cur + 1
  {
    match mode
    case Month => MonthShift(cur, 1)
    case Week => cur + 7
    case Weekend => NextSaturday(if Weekday(cur) == 6 then cur + 1 else cur)
    case DayView => cur + 1
  }

  /** `goBack` as written: the mirror image of `ForwardAsWritten`. */
  function BackAsWritten(mode: ViewMode, cur: int): (r: int)
    ensures mode == Month ==> MonthIndex(FromDay(r)) == MonthIndex(FromDay(cur)) - 1
    ensures mode == Week ==> r == cur - 7
    ensures mode == Weekend ==> Weekday(r) == 6 && cur - 7 <= r < cur
    ensures mode == DayView ==> r == cur - 1
  {
    match mode
    case Month => MonthShift(cur, -1)
    case Week => cur - 7
    case Weekend => PreviousSaturday(if Weekday(cur) == 6 then cur - 1 else cur)
    case DayView => cur - 1
  }

  /** What the weekend buttons promise as written: forward lands on a
      Saturday strictly after `cur`, back on one strictly before it. */
  lemma WeekendStepsAsWritten(cur: int)
    ensures var f := ForwardAsWritten(Weekend, cur);
      Weekday(f) == 6 && cur < f <= cur + 7
    ensures var b := BackAsWritten(Weekend, cur);
      Weekday(b) == 6 && cur - 7 <= b < cur
  {
  }

  /** But on a weekday the weekend view already shows the coming weekend,
      and forward lands on exactly that Saturday, so the view does not move;
      likewise back from a Sunday. Thursday 1970-01-01 (serial 0) and the
      Sunday 1970-01-04 (serial 3) both show serials 2 and 3 before and
      after the press. */
  lemma WeekendStepStuck()
    ensures Days(Weekend, ForwardAsWritten(Weekend, 0)) == Days(Weekend, 0) == [2, 3]
    ensures Days(Weekend, BackAsWritten(Weekend, 3)) == Days(Weekend, 3) == [2, 3]
  {
  }

  /** `goForward`, with the weekend step measured from the weekend on
      screen, so that every press shows the next weekend. */
  function Forward(mode: ViewMode, cur: int): (r: int)
    ensures mode == Weekend ==> Weekday(r) == 6 && ShownSaturday(r) == ShownSaturday(cur) + 7
    ensures mode != Weekend ==> r == ForwardAsWritten(mode, cur)
  {
    WeekdayStep(ShownSaturday(cur), 7);
    match mode
    case Weekend => ShownSaturday(cur) + 7
    case _ => ForwardAsWritten(mode, cur)
  }

  /** `goBack`, with the weekend step measured from the weekend on screen. */
  function Back(mode: ViewMode, cur: int): (r: int)
    ensures mode == Weekend ==> Weekday(r) == 6 && ShownSaturday(r) == ShownSaturday(cur) - 7
    ensures mode != Weekend ==> r == BackAsWritten(mode, cur)
  {
    WeekdayStep(ShownSaturday(cur), -7);
    match mode
    case Weekend => ShownSaturday(cur) - 7
    case _ => BackAsWritten(mode, cur)
  }

  /** Each press moves the day view by one day. */
  lemma DayViewSteps(cur: int)
    ensures Days(DayView, Forward(DayView, cur)) == [cur + 1]
    ensures Days(DayView, Back(DayView, cur)) == [cur - 1]
  {
  }

  /** Each press shifts the week view by exactly seven days. */
  lemma WeekSteps(cur: int)
    ensures Days(Week, Forward(Week, cur))[0] == Days(Week, cur)[0] + 7
    ensures Days(Week, Back(Week, cur))[0] == Days(Week, cur)[0] - 7
  {
    StartOfWeekShift(cur, 7);
    StartOfWeekShift(cur, -7);
  }

  lemma StartOfWeekShift(n: int, k: int)
    requires k % 7 == 0
    ensures StartOfWeek(n + k) == StartOfWeek(n) + k
  {
    WeekdayStep(n, k);
  }

  /** Each press shifts the weekend view by exactly one weekend. */
  lemma WeekendSteps(cur: int)
    ensures Days(Weekend, Forward(Weekend, cur))[0] == Days(Weekend, cur)[0] + 7
    ensures Days(Weekend, Back(Weekend, cur))[0] == Days(Weekend, cur)[0] - 7
  {
    var s := ShownSaturday(cur);
    WeekdayStep(s, 7);
    WeekdayStep(s, -7);
  }

  /** Each press moves the month view to the next or previous calendar
      month. */
  lemma MonthSteps(cur: int)
    ensures MonthIndex(FromDay(Forward(Month, cur))) == MonthIndex(FromDay(cur)) + 1
    ensures MonthIndex(FromDay(Back(Month, cur))) == MonthIndex(FromDay(cur)) - 1
  {
    FromDayToDay(AddMonths(FromDay(cur), 1));
    FromDayToDay(AddMonths(FromDay(cur), -1));
  }

  /** Forward then back shows the same days again in day, week and weekend
      view. */
  lemma ForwardBack(mode: ViewMode, cur: int)
    requires mode != Month
    ensures Days(mode, Back(mode, Forward(mode, cur))) == Days(mode, cur)
  {
    match mode
    case Week =>
      WeekSteps(cur);
      WeekSteps(Forward(Week, cur));
      var a, b := Days(Week, Back(Week, Forward(Week, cur))), Days(Week, cur);
      assert |a| == |b| == 7;
      assert forall i :: 0 <= i < 7 ==> a[i] == b[i];
    case Weekend =>
      WeekendSteps(cur);
      WeekendSteps(Forward(Weekend, cur));
    case DayView =>
  }

  /** `gridCols`: columns of the day grid. */
  function GridCols(mode: ViewMode): (r: int)
    ensures mode == Month || mode == Week ==> r == 7
    ensures mode == Weekend ==> r == 2
    ensures mode == DayView ==> r == 1
  {
    match mode
    case Month => 7
    case Week => 7
    case Weekend => 2
    case DayView => 1
  }

  /** `maxTasks`: items a day cell lists before the overflow line. */
  function MaxTasks(mode: ViewMode, darkMode: bool): (r: int)
    ensures mode != Month ==> r == 20
    ensures mode == Month ==> r == (if darkMode then 4 else 3)
  {
    if mode != Month then 20 else if darkMode then 4 else 3
  }

  /** Every view's grid holds whole rows of its days. */
  lemma GridFitsDays(mode: ViewMode, cur: int)
    ensures |Days(mode, cur)| % GridCols(mode) == 0
  {
    match mode
    case Month => MonthDays(cur);
    case Week => WeekDays(cur);
    case Weekend =>
    case DayView =>
  }

  /** `format(new Date(p.data_agendada), 'yyyy-MM-dd')`: a post's day key. */
  function PostDayKey(p: Post): (r: string)
    ensures 0 <= FromDay(p.dataAgendada.day).year <= 9999 ==>
      |r| == 10 && ParseDate(r) == Some(FromDay(p.dataAgendada.day))
  {
    var d := FromDay(p.dataAgendada.day);
    if 0 <= d.year <= 9999 then
      FormatParse(d);
      FormatMonthPrefix(d);
      FormatDate(d)
    else FormatDate(d)
  }

  /** A task's day key: its raw `data_prazo`. A key that reads as a date is
      already in the form post keys take, so a task and a post of the same
      day share a cell. */
  function TaskDayKey(t: Tarefa): (r: Option<string>)
    ensures r.Some? && ParseDate(r.value).Some? ==> r.value == FormatDate(ParseDate(r.value).value)
  {
    if t.dataPrazo.Some? && ParseDate(t.dataPrazo.value).Some? then
      ParseFormat(t.dataPrazo.value);
      t.dataPrazo
    else t.dataPrazo
  }

  /** `tarefasByDay`: each task under its `data_prazo`, in input order. */
  method TarefasByDay(tarefas: seq<Tarefa>) returns (m: map<Option<string>, seq<Tarefa>>)
    ensures forall k :: k in m ==> m[k] == Matching(tarefas, TaskDayKey, k) && m[k] != []
    ensures forall k :: k !in m ==> Matching(tarefas, TaskDayKey, k) == []
  {
    m := GroupBy(tarefas, TaskDayKey);
    forall k | k !in m ensures Matching(tarefas, TaskDayKey, k) == [] {
      var group := Matching(tarefas, TaskDayKey, k);
    }
  }

  /** `postsByDay`: each post under the day of its schedule, in input order. */
  method PostsByDay(posts: seq<Post>) returns (m: map<string, seq<Post>>)
    ensures forall k :: k in m ==> m[k] == Matching(posts, PostDayKey, k) && m[k] != []
    ensures forall k :: k !in m ==> Matching(posts, PostDayKey, k) == []
  {
    m := GroupBy(posts, PostDayKey);
  }

  /** Each task appears in exactly one group: the one under its own key. */
  lemma GroupedOnce(tarefas: seq<Tarefa>, t: Tarefa, k: Option<string>)
    requires t in tarefas
    ensures t in Matching(tarefas, TaskDayKey, k) <==> k == t.dataPrazo
  {
  }

  /** A post's schedule as one number: milliseconds since the epoch, local. */
  function PostStamp(p: Post): int
  {
    var t := p.dataAgendada;
    (((t.day * 24 + t.hour) * 60 + t.minute) * 60 + t.second) * 1000 + t.millisecond
  }

  /** `new Date(a.data_agendada) - new Date(b.data_agendada) <= 0`. */
  predicate PostLe(a: Post, b: Post)
  {
    PostStamp(a) <= PostStamp(b)
  }

  lemma PostLeTotalPreorder()
    ensures TotalPreorder(PostLe)
  {
  }

  /** The lists a day cell shows (and hands to the day-click handler): the
      day's tasks sorted by start time and its posts sorted by schedule. */
  method DayLists(tarefasByDay: map<Option<string>, seq<Tarefa>>, postsByDay: map<string, seq<Post>>, day: int)
    returns (tarefas: seq<Tarefa>, posts: seq<Post>)
    ensures var key := FormatDate(FromDay(day));
      multiset(tarefas) == multiset(if Some(key) in tarefasByDay then tarefasByDay[Some(key)] else [])
      && multiset(posts) == multiset(if key in postsByDay then postsByDay[key] else [])
    ensures SortedBy(tarefas, StartLe)
    ensures SortedBy(posts, PostLe)
  {
    var key := FormatDate(FromDay(day));
    var ts := if Some(key) in tarefasByDay then tarefasByDay[Some(key)] else [];
    var ps := if key in postsByDay then postsByDay[key] else [];
    var ta := new Tarefa[|ts|](i requires 0 <= i < |ts| => ts[i]);
    assert ta[..] == ts;
    SortByStart(ta);
    var pa := new Post[|ps|](i requires 0 <= i < |ps| => ps[i]);
    assert pa[..] == ps;
    PostLeTotalPreorder();
    SortInPlace(pa, PostLe);
    tarefas, posts := ta[..], pa[..];
  }

  /** What a day cell lists: how many tasks, how many posts, and the numbers
      of the "+N mais" lines under them. */
  datatype CellLayout = CellLayout(shownTasks: int, shownPosts: int, moreLines: seq<int>)

  function Min(a: int, b: int): int { if a <= b then a else b }
  function Max(a: int, b: int): int { if a >= b then a else b }

  /** The cell as written, for `t` tasks and `p` posts: at most `max` tasks,
      then "+(t - max) mais" when there are no posts, then at least one post
      (`Math.max(1, max - t)`), then "+(t + p - max) mais". */
  function CellAsWritten(t: nat, p: nat, max: int): (r: CellLayout)
    ensures r.shownTasks == Min(t, max) && r.shownPosts == Min(p, Max(1, max - t))
    ensures t > max && p == 0 ==> r.moreLines == [t - max, t - max]
    ensures t + p <= max ==> r.moreLines == []
  {
    CellLayout(
      Min(t, max),
      Min(p, Max(1, max - t)),
      (if t > max && p == 0 then [t - max] else [])
      + (if t + p > max then [t + p - max] else []))
  }

  /** As written, a month cell with 4 tasks and no post says "+1 mais"
      twice, and one with 3 tasks and 2 posts shows 3 tasks and 1 post
      (one item hidden) but says "+2 mais". */
  lemma CellAsWrittenMiscounts()
    ensures CellAsWritten(4, 0, 3) == CellLayout(3, 0, [1, 1])
    ensures CellAsWritten(3, 2, 3) == CellLayout(3, 1, [2])
  {
  }

  /** The cell with a single overflow line counting exactly what is not
      listed. */
  function Cell(t: nat, p: nat, max: int): (r: CellLayout)
    requires max >= 1
    ensures 0 <= r.shownTasks <= t && 0 <= r.shownPosts <= p
    ensures r.shownTasks == Min(t, max)
    ensures p > 0 ==> r.shownPosts >= 1
    ensures r.shownPosts == Min(p, Max(1, max - t))
    ensures |r.moreLines| <= 1
    ensures r.moreLines == [] <==> r.shownTasks + r.shownPosts == t + p
    ensures forall i :: 0 <= i < |r.moreLines| ==> r.shownTasks + r.shownPosts + r.moreLines[i] == t + p
  {
    var w := CellAsWritten(t, p, max);
    var hidden := t + p - w.shownTasks - w.shownPosts;
    CellLayout(w.shownTasks, w.shownPosts, if hidden > 0 then [hidden] else [])
  }

  /** Without the forced post, the corrected cell lists at most `max` items
      and agrees with the written one whenever that one shows one line. */
  lemma CellAgrees(t: nat, p: nat, max: int)
    requires max >= 1 && t < max
    ensures Cell(t, p, max).shownTasks + Cell(t, p, max).shownPosts <= max
    ensures Cell(t, p, max).moreLines == CellAsWritten(t, p, max).moreLines
  {
  }

  /** The calendar's own state: the date it is centred on and its view. */
  class CalendarState {
    var currentDate: int
    var viewMode: ViewMode

    constructor(today: int)
      ensures currentDate == today && viewMode == Month
    {
      currentDate := today;
      viewMode := Month;
    }

    function ShownDays(): seq<int>
      reads this
    {
      Days(viewMode, currentDate)
    }

    method GoBack()
      modifies this
      ensures currentDate == Back(old(viewMode), old(currentDate))
      ensures viewMode == old(viewMode)
    {
      currentDate := Back(viewMode, currentDate);
    }

    method GoForward()
      modifies this
      ensures currentDate == Forward(old(viewMode), old(currentDate))
      ensures viewMode == old(viewMode)
    {
      currentDate := Forward(viewMode, currentDate);
    }

    method GoToday(today: int)
      modifies this
      ensures currentDate == today && viewMode == old(viewMode)
    {
      currentDate := today;
    }

    method SetViewMode(mode: ViewMode)
      modifies this
      ensures viewMode == mode && currentDate == old(currentDate)
    {
      viewMode := mode;
    }
  }
}

=== FILE: clientes.dfy ===
/** The client register of src/pages/ClientesPage.jsx: a searchable list,
    a create/edit dialog and a two-click delete. */
module ClientesPage {
  import opened Lists
  import opened Text
  import opened Records
  import opened Crud

  /** The dialog's inputs. */
  datatype ClienteForm = ClienteForm(nome: string, email: string, telefone: string, empresa: string, notas: string)

  const EMPTY_FORM := ClienteForm("", "", "", "", "")

  /** `openEdit`'s form: the client's values, a missing one as ''. */
  function EditForm(c: Cliente): (r: ClienteForm)
    ensures r.nome == c.nome
    ensures r.email == OrEmpty(c.email) && r.telefone == OrEmpty(c.telefone)
    ensures r.empresa == OrEmpty(c.empresa) && r.notas == OrEmpty(c.notas)
  {
    ClienteForm(c.nome, OrEmpty(c.email), OrEmpty(c.telefone), OrEmpty(c.empresa), OrEmpty(c.notas))
  }

  /** Saving an edited client untouched sends back the values it had: a set
      optional field is sent unchanged, and a field is sent as '' exactly
      when the client had none (null and '' both become ''). */
  lemma EditFormRoundTrip(c: Cliente)
    ensures EditForm(c).nome == c.nome
    ensures (EditForm(c).email == "" <==> !Truthy(c.email)) && (Truthy(c.email) ==> EditForm(c).email == c.email.value)
    ensures (EditForm(c).telefone == "" <==> !Truthy(c.telefone)) && (Truthy(c.telefone) ==> EditForm(c).telefone == c.telefone.value)
    ensures (EditForm(c).empresa == "" <==> !Truthy(c.empresa)) && (Truthy(c.empresa) ==> EditForm(c).empresa == c.empresa.value)
    ensures (EditForm(c).notas == "" <==> !Truthy(c.notas)) && (Truthy(c.notas) ==> EditForm(c).notas == c.notas.value)
  {
  }

  /** The search: the name, e-mail or company contains the query, ignoring
      case. */
  predicate SearchMatches(c: Cliente, search: string)
  {
    MatchesCI(c.nome, search) || FieldMatches(c.email, search) || FieldMatches(c.empresa, search)
  }

  /** `filtered`: the matching clients in list order; the empty query
      keeps all of them. */
  function FilterClientes(clientes: seq<Cliente>, search: string): (r: seq<Cliente>)
    ensures forall c :: c in r <==> c in clientes && SearchMatches(c, search)
    ensures IsSubsequence(r, clientes)
    ensures search == "" ==> r == clientes
  {
    var keep := (c: Cliente) => SearchMatches(c, search);
    FilterIsSubsequence(clientes, keep);
    assert search == "" ==> Filter(clientes, keep) == clientes by {
      if search == "" {
        forall c | c in clientes ensures keep(c) {
          MatchesCIProperties(c.nome, search);
        }
        FilterKeepsAll(clientes, keep);
      }
    }
    Filter(clientes, keep)
  }

  /** The page state. */
  class ClientesState {
    var showModal: bool
    var editing: Option<Cliente>
    var search: string
    var confirmDelete: Option<Id>
    var form: ClienteForm

    constructor()
      ensures !showModal && editing.None? && search == "" && confirmDelete.None? && form == EMPTY_FORM
    {
      showModal, editing, search, confirmDelete, form := false, None, "", None, EMPTY_FORM;
    }

    /** The list shown. */
    function Filtered(clientes: seq<Cliente>): seq<Cliente>
      reads this
    {
      FilterClientes(clientes, search)
    }

    /** `openNew`: an empty dialog for a new client. */
    method OpenNew()
      modifies this
      ensures showModal && editing.None? && form == EMPTY_FORM
      ensures search == old(search) && confirmDelete == old(confirmDelete)
    {
      editing := None;
      form := EMPTY_FORM;
      showModal := true;
    }

    /** `openEdit`: the dialog on an existing client. */
    method OpenEdit(c: Cliente)
      modifies this
      ensures showModal && editing == Some(c) && form == EditForm(c)
      ensures search == old(search) && confirmDelete == old(confirmDelete)
    {
      editing := Some(c);
      form := EditForm(c);
      showModal := true;
    }

    /** `handleSubmit`: the form goes out as an update of the edited client
        or as an insert, and the dialog closes (a failed write is kept
        in the mutation hook's error state, which the page does not show). */
    method HandleSubmit() returns (m: Mutation<ClienteForm>)
      modifies this
      ensures old(editing).Some? ==> m == Update(old(editing).value.id, old(form))
      ensures old(editing).None? ==> m == Insert(old(form))
      ensures !showModal && editing == old(editing) && form == old(form)
      ensures search == old(search) && confirmDelete == old(confirmDelete)
    {
      if editing.Some? {
        m := Update(editing.value.id, form);
      } else {
        m := Insert(form);
      }
      showModal := false;
    }

    /** `handleDelete(id)`: the first click arms the row, a click on the
        armed row removes it and disarms. */
    method HandleDelete(id: Id) returns (removed: Option<Id>)
      modifies this
      ensures confirmDelete == DeleteClick(old(confirmDelete), id).armed
      ensures removed == DeleteClick(old(confirmDelete), id).removed
      ensures showModal == old(showModal) && editing == old(editing)
      ensures form == old(form) && search == old(search)
    {
      if confirmDelete != Some(id) {
        confirmDelete := Some(id);
        return None;
      }
      removed := Some(id);
      confirmDelete := None;
    }
  }
}

=== FILE: crud.dfy ===
/** The two-click delete confirmation shared by the client, staff and
    task-type screens: `if (confirmDelete !== id) { setConfirmDelete(id);
    return } await remove(id); setConfirmDelete(null)`. */
module Crud {
  import opened Lists
  import opened Records

  /** What one click on the delete button of row `id` leaves behind: the id
      now armed for deletion, and the id removed, if any. */
  datatype DeleteEffect = DeleteEffect(armed: Option<Id>, removed: Option<Id>)

  function DeleteClick(armed: Option<Id>, id: Id): (r: DeleteEffect)
    ensures r.removed.Some? <==> armed == Some(id)
    ensures r.removed.Some? ==> r.removed.value == id && r.armed.None?
    ensures r.removed.None? ==> r.armed == Some(id)
  {
    if armed != Some(id) then DeleteEffect(Some(id), None)
    else DeleteEffect(None, Some(id))
  }

  /** Two clicks on the same row remove it, whatever was armed before the
      first; a click on another row in between re-arms that row instead and
      removes nothing. */
  lemma DeleteNeedsTwoClicks(armed: Option<Id>, id: Id, other: Id)
    requires armed != Some(id) && other != id
    ensures DeleteClick(armed, id).removed.None?
    ensures DeleteClick(DeleteClick(armed, id).armed, id).removed == Some(id)
    ensures DeleteClick(DeleteClick(armed, id).armed, other) == DeleteEffect(Some(other), None)
  {
  }
}

=== FILE: dashboard.dfy ===
/** The main dashboard of src/pages/DashboardPage.jsx: the calendar of the
    tasks that pass the staff and type filters, the day-detail dialog and
    the new/edit task dialog. */
module Dashboard {
  import opened Lists
  import opened Records
  import opened FilterSidebar

  /** The task filter of both dashboards: a non-empty staff list requires
      the task's staff member in it, a non-empty type list requires the
      task's type in it (a task without one fails a non-empty list). */
  predicate Passes(t: Tarefa, f: SidebarFilters)
  {
    (|f.funcionarios| == 0 || (t.funcionarioId.Some? && t.funcionarioId.value in f.funcionarios))
    && (|f.tipos| == 0 || (t.tipoTarefaId.Some? && t.tipoTarefaId.value in f.tipos))
  }

  /** `filteredTarefas`: the passing tasks in their original order; with no
      filter set, all of them. */
  function FilterTarefas(tarefas: seq<Tarefa>, f: SidebarFilters): (r: seq<Tarefa>)
    ensures forall t :: t in r <==> t in tarefas && Passes(t, f)
    ensures IsSubsequence(r, tarefas)
    ensures f == NO_FILTERS ==> r == tarefas
  {
    var keep := t => Passes(t, f);
    FilterIsSubsequence(tarefas, keep);
    assert f == NO_FILTERS ==> Filter(tarefas, keep) == tarefas by {
      if f == NO_FILTERS {
        FilterKeepsAll(tarefas, keep);
      }
    }
    Filter(tarefas, keep)
  }

  /** Filtering a filtered list again changes nothing; so the day-detail
      list, re-filtered with the same lists, is the calendar's list. */
  lemma FilterTwice(tarefas: seq<Tarefa>, f: SidebarFilters)
    ensures FilterTarefas(FilterTarefas(tarefas, f), f) == FilterTarefas(tarefas, f)
  {
    FilterIdempotent(tarefas, t => Passes(t, f));
  }

  /** Selecting one more staff member never hides a task that was shown
      under a non-empty staff selection. */
  lemma MoreStaffShowsMore(tarefas: seq<Tarefa>, f: SidebarFilters, id: Id, t: Tarefa)
    requires |f.funcionarios| > 0 && id !in f.funcionarios
    requires t in FilterTarefas(tarefas, f)
    ensures t in FilterTarefas(tarefas, Handle(f, ToggleFuncionario(id)))
  {
  }

  /** The page state. */
  class DashboardState {
    var selectedDay: Option<int>
    var dayTarefas: seq<Tarefa>
    var showTarefaModal: bool
    var editingTarefa: Option<Tarefa>
    var selectedDate: Option<int>
    var filters: SidebarFilters

    constructor()
      ensures selectedDay.None? && dayTarefas == [] && !showTarefaModal
      ensures editingTarefa.None? && selectedDate.None? && filters == NO_FILTERS
    {
      selectedDay, dayTarefas, showTarefaModal := None, [], false;
      editingTarefa, selectedDate, filters := None, None, NO_FILTERS;
    }

    /** The tasks the calendar receives. */
    function Shown(tarefas: seq<Tarefa>): seq<Tarefa>
      reads this
    {
      FilterTarefas(tarefas, filters)
    }

    /** The list the day-detail dialog receives: the clicked day's tasks
        re-filtered with the current lists, so a filter changed while the
        dialog is open applies to it too. */
    function DayDetailTarefas(): (r: seq<Tarefa>)
      reads this
      ensures forall t :: t in r <==> t in dayTarefas && Passes(t, filters)
    {
      FilterTarefas(dayTarefas, filters)
    }

    /** `handleDayClick`: remembers the day and the tasks the calendar
        showed on it; the day-detail dialog opens. */
    method HandleDayClick(day: int, tarefasDoDia: seq<Tarefa>)
      modifies this
      ensures selectedDay == Some(day) && dayTarefas == tarefasDoDia
      ensures showTarefaModal == old(showTarefaModal) && editingTarefa == old(editingTarefa)
      ensures selectedDate == old(selectedDate) && filters == old(filters)
    {
      selectedDay := Some(day);
      dayTarefas := tarefasDoDia;
    }

    /** Closing the day-detail dialog. */
    method CloseDayDetail()
      modifies this
      ensures selectedDay.None? && dayTarefas == old(dayTarefas)
      ensures showTarefaModal == old(showTarefaModal) && editingTarefa == old(editingTarefa)
      ensures selectedDate == old(selectedDate) && filters == old(filters)
    {
      selectedDay := None;
    }

    /** `handleNewTarefa(date)`: an empty task dialog for `date` (today from
        the header button, the open day from the day-detail dialog). */
    method HandleNewTarefa(date: Option<int>)
      modifies this
      ensures showTarefaModal && editingTarefa.None? && selectedDate == date
      ensures selectedDay == old(selectedDay) && dayTarefas == old(dayTarefas) && filters == old(filters)
    {
      editingTarefa := None;
      selectedDate := date;
      showTarefaModal := true;
    }

    /** `handleEditTarefa(tarefa)`: the task dialog on an existing task. */
    method HandleEditTarefa(t: Tarefa)
      modifies this
      ensures showTarefaModal && editingTarefa == Some(t) && selectedDate.None?
      ensures selectedDay == old(selectedDay) && dayTarefas == old(dayTarefas) && filters == old(filters)
    {
      editingTarefa := Some(t);
      selectedDate := None;
      showTarefaModal := true;
    }

    /** The task dialog's `onClose` and `onSaved` (the latter also refetches
        the tasks, which is outside the model): both close it and forget
        the edited task. */
    method CloseTarefaModal()
      modifies this
      ensures !showTarefaModal && editingTarefa.None? && selectedDate == old(selectedDate)
      ensures selectedDay == old(selectedDay) && dayTarefas == old(dayTarefas) && filters == old(filters)
    {
      showTarefaModal := false;
      editingTarefa := None;
    }

    /** An event from the filter panel. */
    method OnSidebar(e: SidebarEvent)
      modifies this
      ensures filters == Handle(old(filters), e)
      ensures selectedDay == old(selectedDay) && dayTarefas == old(dayTarefas)
      ensures showTarefaModal == old(showTarefaModal) && editingTarefa == old(editingTarefa)
      ensures selectedDate == old(selectedDate)
    {
      filters := Handle(filters, e);
    }
  }

  /** A day clicked in the calendar shows the same tasks in its dialog as
      in its cell, as long as the filters stay as they were: every task the
      click passed was one the filtered calendar showed. */
  lemma DayDetailMatchesCalendar(s: DashboardState, tarefas: seq<Tarefa>)
    requires forall t :: t in s.dayTarefas ==> t in s.Shown(tarefas)
    ensures s.DayDetailTarefas() == s.dayTarefas
  {
    var f := s.filters;
    var keep := (t: Tarefa) => Passes(t, f);
    forall t | t in s.dayTarefas
      ensures keep(t)
    {
      assert t in FilterTarefas(tarefas, f);
    }
    FilterKeepsAll(s.dayTarefas, keep);
    assert FilterTarefas(s.dayTarefas, f) == Filter(s.dayTarefas, keep);
  }

  /** The list a click passes is the clicked day's group of the filtered
      tasks (grouped by any day key, such as the calendar's `data_prazo`);
      the dialog shows that group unchanged. */
  lemma DayGroupShownUnchanged<K>(s: DashboardState, tarefas: seq<Tarefa>, key: Tarefa -> K, k: K)
    requires s.dayTarefas == Matching(s.Shown(tarefas), key, k)
    ensures s.DayDetailTarefas() == s.dayTarefas
  {
    DayDetailMatchesCalendar(s, tarefas);
  }
}

=== FILE: dates.dfy ===
/** Calendar dates as the pages use them through date-fns: local dates with
    Gregorian month lengths, a serial day number for weekday arithmetic, day
    and month stepping, Monday-start weeks, and the 'yyyy-MM-dd' text form
    in which `data_prazo` is stored and by which days are keyed. */
module Dates {
  import opened Text
  import opened Lists

  /** A local calendar date. */
  datatype Date = Date(year: int, month: int, day: int)

  predicate IsLeapYear(y: int)
  {
    y % 4 == 0 && (y % 100 != 0 || y % 400 == 0)
  }

  function MonthLength(y: int, m: int): (r: int)
    requires 1 <= m <= 12
    ensures 28 <= r <= 31
    ensures m == 2 ==> (r == 29 <==> IsLeapYear(y))
  {
    if m == 2 then (if IsLeapYear(y) then 29 else 28)
    else if m == 4 || m == 6 || m == 9 || m == 11 then 30
    else 31
  }

  predicate Valid(d: Date)
  {
    1 <= d.month <= 12 && 1 <= d.day <= MonthLength(d.year, d.month)
  }

  function YearLength(y: int): int
  {
    if IsLeapYear(y) then 366 else 365
  }

  /** Days of the year `y` before the first of month `m`. */
  function DaysBeforeMonth(y: int, m: int): int
    requires 1 <= m <= 12
  {
    var common := [0, 31, 59, 90, 120, 151, 181, 212, 243, 273, 304, 334][m - 1];
    common + (if m > 2 && IsLeapYear(y) then 1 else 0)
  }

  lemma DaysBeforeMonthStep(y: int, m: int)
    requires 1 <= m <= 12
    ensures m < 12 ==> DaysBeforeMonth(y, m + 1) == DaysBeforeMonth(y, m) + MonthLength(y, m)
    ensures m == 12 ==> DaysBeforeMonth(y, m) + MonthLength(y, m) == YearLength(y)
  {
  }

  /** Leap years in [1, y). */
  function LeapYearsBefore(y: int): int
  {
    (y - 1) / 4 - (y - 1) / 100 + (y - 1) / 400
  }

  /** Days from 1970-01-01 to the first of January of `y`. */
  function DaysBeforeYear(y: int): int
  {
    365 * (y - 1970) + LeapYearsBefore(y) - LeapYearsBefore(1970)
  }

  lemma DaysBeforeYearStep(y: int)
    ensures DaysBeforeYear(y + 1) == DaysBeforeYear(y) + YearLength(y)
  {
    var a, b, c := y / 4 - (y - 1) / 4, y / 100 - (y - 1) / 100, y / 400 - (y - 1) / 400;
    assert a == if y % 4 == 0 then 1 else 0;
    assert b == if y % 100 == 0 then 1 else 0;
    assert c == if y % 400 == 0 then 1 else 0;
    assert y % 400 == 0 ==> y % 100 == 0;
    assert y % 100 == 0 ==> y % 4 == 0;
  }

  /** The serial number of a date: days since 1970-01-01 (a Thursday). */
  function ToDay(d: Date): int
    requires Valid(d)
  {
    DaysBeforeYear(d.year) + DaysBeforeMonth(d.year, d.month) + d.day - 1
  }

  /** The date after `d`. */
  function NextDay(d: Date): (r: Date)
    requires Valid(d)
    ensures Valid(r) && ToDay(r) == ToDay(d) + 1
  {
    DaysBeforeMonthStep(d.year, d.month);
    if d.day < MonthLength(d.year, d.month) then Date(d.year, d.month, d.day + 1)
    else if d.month < 12 then Date(d.year, d.month + 1, 1)
    else
      DaysBeforeYearStep(d.year);
      Date(d.year + 1, 1, 1)
  }

  /** The date before `d`. */
  function PrevDay(d: Date): (r: Date)
    requires Valid(d)
    ensures Valid(r) && ToDay(r) == ToDay(d) - 1
  {
    if d.day > 1 then Date(d.year, d.month, d.day - 1)
    else if d.month > 1 then
      DaysBeforeMonthStep(d.year, d.month - 1);
      Date(d.year, d.month - 1, MonthLength(d.year, d.month - 1))
    else
      DaysBeforeYearStep(d.year - 1);
      DaysBeforeMonthStep(d.year - 1, 12);
      Date(d.year - 1, 12, 31)
  }

  /** The date with serial number `n`, reached by stepping from 1970-01-01. */
  function FromDay(n: int): (r: Date)
    ensures Valid(r) && ToDay(r) == n
    decreases if n >= 0 then n else -n
  {
    if n == 0 then Date(1970, 1, 1)
    else if n > 0 then NextDay(FromDay(n - 1))
    else PrevDay(FromDay(n + 1))
  }

  lemma {:induction false} DaysBeforeMonthMono(y: int, m1: int, m2: int)
    requires 1 <= m1 < m2 <= 12
    ensures DaysBeforeMonth(y, m1) + MonthLength(y, m1) <= DaysBeforeMonth(y, m2)
    decreases m2
  {
    DaysBeforeMonthStep(y, m2 - 1);
    if m1 < m2 - 1 {
      DaysBeforeMonthMono(y, m1, m2 - 1);
    }
  }

  lemma {:induction false} DaysBeforeYearMono(y1: int, y2: int)
    requires y1 < y2
    ensures DaysBeforeYear(y1) + YearLength(y1) <= DaysBeforeYear(y2)
    decreases y2 - y1
  {
    DaysBeforeYearStep(y2 - 1);
    if y1 < y2 - 1 {
      DaysBeforeYearMono(y1, y2 - 1);
    }
  }

  /** A date's serial number lies within its year's span of serials. */
  lemma ToDayInYear(d: Date)
    requires Valid(d)
    ensures DaysBeforeYear(d.year) <= ToDay(d) < DaysBeforeYear(d.year) + YearLength(d.year)
  {
    DaysBeforeMonthStep(d.year, 12);
    if d.month < 12 {
      DaysBeforeMonthMono(d.year, d.month, 12);
    }
  }

  /** Different dates have different serial numbers. */
  lemma ToDayInjective(d1: Date, d2: Date)
    requires Valid(d1) && Valid(d2) && ToDay(d1) == ToDay(d2)
    ensures d1 == d2
  {
    ToDayInYear(d1);
    ToDayInYear(d2);
    if d1.year < d2.year {
      DaysBeforeYearMono(d1.year, d2.year);
    } else if d2.year < d1.year {
      DaysBeforeYearMono(d2.year, d1.year);
    } else if d1.month < d2.month {
      DaysBeforeMonthMono(d1.year, d1.month, d2.month);
    } else if d2.month < d1.month {
      DaysBeforeMonthMono(d1.year, d2.month, d1.month);
    }
  }

  /** Serial numbers and dates are in one-to-one correspondence. */
  lemma FromDayToDay(d: Date)
    requires Valid(d)
    ensures FromDay(ToDay(d)) == d
  {
    ToDayInjective(FromDay(ToDay(d)), d);
  }

  /** `getDay` of the day with serial `n`: 0 is Sunday, 1 Monday, ..., 6 Saturday. */
  function Weekday(n: int): (r: int)
    ensures 0 <= r < 7
  {
    (n + 4) % 7
  }

  lemma WeekdayStep(n: int, k: int)
    ensures Weekday(n + k) == (Weekday(n) + k) % 7
  {
  }

  /** `startOfWeek(d, { weekStartsOn: 1 })`: the Monday on or before `n`. */
  function StartOfWeek(n: int): (r: int)
    ensures Weekday(r) == 1
    ensures r <= n < r + 7
  {
    var back := (Weekday(n) + 6) % 7;
    WeekdayStep(n, -back);
    n - back
  }

  /** `endOfWeek(d, { weekStartsOn: 1 })`: the Sunday on or after `n`, which
      closes the week `StartOfWeek` opens. */
  function EndOfWeek(n: int): (r: int)
    ensures Weekday(r) == 0
    ensures n <= r < n + 7
    ensures r == StartOfWeek(n) + 6
  {
    var ahead := (7 - Weekday(n)) % 7;
    WeekdayStep(n, ahead);
    n + ahead
  }

  /** A day lies in the Monday-start week of `n` exactly when it has the same
      Monday as `n`. */
  lemma SameWeek(n: int, e: int)
    ensures StartOfWeek(n) <= e <= EndOfWeek(n) <==> StartOfWeek(e) == StartOfWeek(n)
  {
    var s := StartOfWeek(n);
    if s <= e <= s + 6 {
      WeekdayStep(s, e - s);
      assert StartOfWeek(e) == e - (e - s);
    }
  }

  /** `eachDayOfInterval({ start: lo, end: hi })`: every day from `lo` to
      `hi` inclusive, in order. */
  function EachDay(lo: int, hi: int): (r: seq<int>)
    ensures |r| == if hi < lo then 0 else hi - lo + 1
    ensures forall i :: 0 <= i < |r| ==> r[i] == lo + i
    decreases hi - lo
  {
    if hi < lo then [] else [lo] + EachDay(lo + 1, hi)
  }

  /** Months since January of year 0; `addMonths` moves this index. */
  function MonthIndex(d: Date): int
  {
    12 * d.year + d.month - 1
  }

  /** `addMonths(d, n)`: the same day in the month `n` months away, clamped
      to that month's last day (`subMonths` is a negative `n`). */
  function AddMonths(d: Date, n: int): (r: Date)
    requires Valid(d)
    ensures Valid(r) && MonthIndex(r) == MonthIndex(d) + n
    ensures r.day == if d.day <= MonthLength(r.year, r.month) then d.day else MonthLength(r.year, r.month)
  {
    var idx := MonthIndex(d) + n;
    var y, m := idx / 12, idx % 12 + 1;
    var len := MonthLength(y, m);
    Date(y, m, if d.day <= len then d.day else len)
  }

  /** A month forward and a month back returns to the same date whenever the
      day exists in the next month (always for days up to the 28th). */
  lemma AddMonthsBack(d: Date)
    requires Valid(d) && d.day <= MonthLength(AddMonths(d, 1).year, AddMonths(d, 1).month)
    ensures AddMonths(AddMonths(d, 1), -1) == d
  {
  }

  function DigitChar(k: int): (c: char)
    requires 0 <= k < 10
    ensures IsDigit(c)
  {
    ('0' as int + k) as char
  }

  function DigitValue(c: char): (k: int)
    requires IsDigit(c)
    ensures 0 <= k < 10 && DigitChar(k) == c
  {
    c as int - '0' as int
  }

  /** The decimal digits of `n`, zero-padded on the left to at least `width`
      characters (date-fns' `yyyy`, `MM` and `dd` tokens). */
  function Digits(n: nat, width: nat): (r: string)
    ensures |r| >= 1 && forall i :: 0 <= i < |r| ==> IsDigit(r[i])
    ensures n < 10 && width <= 1 ==> |r| == 1
    decreases n + width
  {
    if n < 10 && width <= 1 then [DigitChar(n)]
    else Digits(n / 10, if width == 0 then 0 else width - 1) + [DigitChar(n % 10)]
  }

  /** The value of a string of decimal digits. */
  function ParseNat(s: string): nat
    requires forall i :: 0 <= i < |s| ==> IsDigit(s[i])
  {
    if s == [] then 0 else ParseNat(s[..|s| - 1]) * 10 + DigitValue(s[|s| - 1])
  }

  function Pow10(k: nat): (r: nat)
    ensures r >= 1
  {
    if k == 0 then 1 else 10 * Pow10(k - 1)
  }

  /** Digits are exactly `width` long while the number fits in them. */
  lemma {:induction false} DigitsLength(n: nat, width: nat)
    requires 1 <= width && n < Pow10(width)
    ensures |Digits(n, width)| == width
    decreases width
  {
    if !(n < 10 && width <= 1) {
      DigitsLength(n / 10, width - 1);
    }
  }

  /** Reading printed digits back gives the number. */
  lemma {:induction false} ParseDigits(n: nat, width: nat)
    ensures ParseNat(Digits(n, width)) == n
    decreases n + width
  {
    if !(n < 10 && width <= 1) {
      var w := if width == 0 then 0 else width - 1;
      ParseDigits(n / 10, w);
      var s := Digits(n, width);
      assert s[..|s| - 1] == Digits(n / 10, w);
    }
  }

  /** Printing the value of `width` digits reproduces them. */
  lemma {:induction false} DigitsOfParse(s: string)
    requires 1 <= |s| && forall i :: 0 <= i < |s| ==> IsDigit(s[i])
    ensures Digits(ParseNat(s), |s|) == s
    decreases |s|
  {
    var n := ParseNat(s);
    var init := s[..|s| - 1];
    if |s| == 1 {
      assert init == [];
    } else {
      DigitsOfParse(init);
      assert n / 10 == ParseNat(init) && n % 10 == DigitValue(s[|s| - 1]);
      assert s == init + [s[|s| - 1]];
    }
  }

  /** `format(d, 'yyyy-MM-dd')` (a negative year is written with a sign). */
  function FormatDate(d: Date): string
  {
    YearText(d.year) + "-" + Digits(if d.month < 0 then 0 else d.month, 2)
      + "-" + Digits(if d.day < 0 then 0 else d.day, 2)
  }

  /** `format(d, 'yyyy-MM')`, the month key of the social-media schedule. */
  function FormatMonth(d: Date): string
  {
    YearText(d.year) + "-" + Digits(if d.month < 0 then 0 else d.month, 2)
  }

  function YearText(y: int): string
  {
    if y < 0 then "-" + Digits(-y, 4) else Digits(y, 4)
  }

  /** The month key is the first seven characters of the day key. */
  lemma FormatMonthPrefix(d: Date)
    requires Valid(d) && 0 <= d.year <= 9999
    ensures |FormatDate(d)| == 10 && FormatMonth(d) == FormatDate(d)[..7]
  {
    DigitsLength(d.year, 4);
    DigitsLength(d.month, 2);
    DigitsLength(d.day, 2);
  }

  predicate AllDigits(s: string, lo: int, hi: int)
    requires 0 <= lo <= hi <= |s|
  {
    forall i :: lo <= i < hi ==> IsDigit(s[i])
  }

  /** `parseISO` on a date-only string: `Some` date for a well-formed
      'yyyy-MM-dd' naming a real day, `None` (an Invalid Date) otherwise. */
  function ParseDate(s: string): (r: Option<Date>)
    ensures r.Some? ==> Valid(r.value) && 0 <= r.value.year <= 9999
  {
    if |s| == 10 && s[4] == '-' && s[7] == '-'
       && AllDigits(s, 0, 4) && AllDigits(s, 5, 7) && AllDigits(s, 8, 10) then
      var d := Date(ParseNat(s[0..4]), ParseNat(s[5..7]), ParseNat(s[8..10]));
      ParseBound(s[0..4]);
      if Valid(d) then Some(d) else None
    else None
  }

  lemma {:induction false} ParseBound(s: string)
    requires forall i :: 0 <= i < |s| ==> IsDigit(s[i])
    ensures ParseNat(s) < Pow10(|s|)
    decreases |s|
  {
    if s != [] {
      ParseBound(s[..|s| - 1]);
    }
  }

  /** Parsing a printed date gives the date back (four-digit years). */
  lemma FormatParse(d: Date)
    requires Valid(d) && 0 <= d.year <= 9999
    ensures ParseDate(FormatDate(d)) == Some(d)
  {
    var s := FormatDate(d);
    var ys, ms, ds := Digits(d.year, 4), Digits(d.month, 2), Digits(d.day, 2);
    DigitsLength(d.year, 4);
    DigitsLength(d.month, 2);
    DigitsLength(d.day, 2);
    assert s == ys + "-" + ms + "-" + ds;
    assert s[0..4] == ys && s[5..7] == ms && s[8..10] == ds;
    ParseDigits(d.year, 4);
    ParseDigits(d.month, 2);
    ParseDigits(d.day, 2);
  }

  /** Only the printed form of a date parses to it: a parsed string is
      exactly the date's key, so string keys and parsed dates agree. */
  lemma ParseFormat(s: string)
    requires ParseDate(s).Some?
    ensures FormatDate(ParseDate(s).value) == s
  {
    var d := ParseDate(s).value;
    DigitsOfParse(s[0..4]);
    DigitsOfParse(s[5..7]);
    DigitsOfParse(s[8..10]);
    assert s == s[0..4] + "-" + s[5..7] + "-" + s[8..10];
  }
}

=== FILE: day_detail.dfy ===
/** The dialog listing one day's tasks, src/components/calendar/DayDetailModal.jsx:
    each task as a card with its type (name, colour, icon), client and
    WhatsApp link, times and responsible person, the cards in start-time
    order. */
module DayDetail {
  import opened Lists
  import opened Text
  import opened Records
  import opened Utils
  import opened Sorting
  import opened TaskOrder

  const DEFAULT_COLOR := "#5d109c"
  const NO_TYPE := "Sem tipo"
  const NO_STAFF := "Sem responsável"
  const WHATSAPP_PREFIX := "https://wa.me/55"

  /** `tiposTarefa.find(t => t.id === id)`: a task without a type matches
      no row. */
  function TypeOf(tipos: seq<TipoTarefa>, id: Option<Id>): (r: Option<TipoTarefa>)
    ensures r.Some? ==> r.value in tipos && id == Some(r.value.id)
    ensures r.None? <==> forall u :: u in tipos ==> id != Some(u.id)
  {
    if id.None? then None else Find(tipos, (u: TipoTarefa) => u.id == id.value)
  }

  /** `getTypeName`: the type's name, or 'Sem tipo' for an unknown type or
      an empty name. */
  function TypeName(tipos: seq<TipoTarefa>, id: Option<Id>): (r: string)
    ensures TypeOf(tipos, id).Some? && TypeOf(tipos, id).value.nome != "" ==> r == TypeOf(tipos, id).value.nome
    ensures TypeOf(tipos, id).None? || TypeOf(tipos, id).value.nome == "" ==> r == NO_TYPE
  {
    var tipo := TypeOf(tipos, id);
    if tipo.Some? && tipo.value.nome != "" then tipo.value.nome else NO_TYPE
  }

  /** `getTypeColor`: the type's colour, or the brand purple. */
  function TypeColor(tipos: seq<TipoTarefa>, id: Option<Id>): (r: string)
    ensures TypeOf(tipos, id).Some? && Truthy(TypeOf(tipos, id).value.cor) ==> r == TypeOf(tipos, id).value.cor.value
    ensures TypeOf(tipos, id).None? || !Truthy(TypeOf(tipos, id).value.cor) ==> r == DEFAULT_COLOR
  {
    var tipo := TypeOf(tipos, id);
    if tipo.Some? && Truthy(tipo.value.cor) then tipo.value.cor.value else DEFAULT_COLOR
  }

  /** `getTypeIcon`: the icon of the type's key, or the camera. */
  function TypeIcon(tipos: seq<TipoTarefa>, id: Option<Id>): (r: string)
    ensures r == "Camera" || r in ICON_MAP.Values
    ensures TypeOf(tipos, id).None? ==> r == "Camera"
    ensures TypeOf(tipos, id).Some? ==> r == IconName(TypeOf(tipos, id).value.icone, "Camera")
  {
    var tipo := TypeOf(tipos, id);
    IconName(if tipo.Some? then tipo.value.icone else None, "Camera")
  }

  /** `getFuncName`: the responsible person's name, or 'Sem responsável'. */
  function FuncName(funcs: seq<Funcionario>, id: Option<Id>): (r: string)
    ensures (forall u :: u in funcs ==> id != Some(u.id)) ==> r == NO_STAFF
    ensures r != NO_STAFF ==> exists u :: u in funcs && id == Some(u.id) && u.nome == r
    ensures id.Some? && Find(funcs, (u: Funcionario) => u.id == id.value).Some?
            && Find(funcs, (u: Funcionario) => u.id == id.value).value.nome != ""
            ==> r == Find(funcs, (u: Funcionario) => u.id == id.value).value.nome
  {
    if id.None? then NO_STAFF else
      match Find(funcs, (u: Funcionario) => u.id == id.value)
      case Some(u) => if u.nome != "" then u.nome else NO_STAFF
      case None => NO_STAFF
  }

  /** A task whose type is unknown is shown with every fallback. */
  lemma UnknownTypeFallbacks(tipos: seq<TipoTarefa>, id: Option<Id>)
    requires forall u :: u in tipos ==> id != Some(u.id)
    ensures TypeName(tipos, id) == NO_TYPE && TypeColor(tipos, id) == DEFAULT_COLOR
    ensures TypeIcon(tipos, id) == "Camera"
  {
  }

  /** A type whose id is not shared shows its own name, colour and icon. */
  lemma KnownTypeShown(tipos: seq<TipoTarefa>, u: TipoTarefa)
    requires u in tipos && forall v :: v in tipos && v.id == u.id ==> v == u
    ensures u.nome != "" ==> TypeName(tipos, Some(u.id)) == u.nome
    ensures Truthy(u.cor) ==> TypeColor(tipos, Some(u.id)) == u.cor.value
    ensures u.icone.Some? && u.icone.value in ICON_KEYS ==> TypeIcon(tipos, Some(u.id)) == ICON_MAP[u.icone.value]
  {
    assert TypeOf(tipos, Some(u.id)) == Some(u);
  }

  /** `formatPhone`: null for a missing or empty number, otherwise its
      digits in order. */
  function FormatPhone(phone: Option<string>): (r: Option<string>)
    ensures r.None? <==> !Truthy(phone)
    ensures r.Some? ==> forall c :: c in r.value <==> c in phone.value && IsDigit(c)
    ensures r.Some? ==> IsSubsequence(r.value, phone.value)
    ensures r.Some? ==> forall c :: multiset(r.value)[c] == (if IsDigit(c) then multiset(phone.value)[c] else 0)
  {
    if !Truthy(phone) then None else
      FilterIsSubsequence(phone.value, IsDigit);
      FilterCounts(phone.value, IsDigit);
      Some(Filter(phone.value, IsDigit))
  }

  /** A number already written as bare digits is kept as it is, so
      formatting a formatted number changes nothing. */
  lemma FormatPhoneDigitsOnly(phone: string)
    requires phone != "" && forall i :: 0 <= i < |phone| ==> IsDigit(phone[i])
    ensures FormatPhone(Some(phone)) == Some(phone)
  {
    FilterKeepsAll(phone, IsDigit);
  }

  /** The WhatsApp link of a card: shown only when the task has a client
      name and the client's number has at least one digit. */
  function WhatsAppLink(t: Tarefa): (r: Option<string>)
    ensures r.Some? <==> (Truthy(t.clienteNome) && Truthy(t.clienteTelefone)
                          && exists c :: c in t.clienteTelefone.value && IsDigit(c))
    ensures r.Some? ==> |r.value| > |WHATSAPP_PREFIX| && r.value[..|WHATSAPP_PREFIX|] == WHATSAPP_PREFIX
    ensures r.Some? ==> forall i :: |WHATSAPP_PREFIX| <= i < |r.value| ==> IsDigit(r.value[i])
  {
    var digits := FormatPhone(t.clienteTelefone);
    if Truthy(t.clienteNome) && Truthy(digits) then
      var link := WHATSAPP_PREFIX + digits.value;
      assert digits.value[0] in t.clienteTelefone.value && IsDigit(digits.value[0]);
      assert forall i :: |WHATSAPP_PREFIX| <= i < |link| ==> link[i] == digits.value[i - |WHATSAPP_PREFIX|];
      Some(link)
    else
      assert Truthy(t.clienteTelefone) ==> digits.value == "" ==> forall c :: c in t.clienteTelefone.value ==> !IsDigit(c);
      None
  }

  /** One card of the list. */
  datatype Card = Card(
    id: Id,
    descricao: string,
    icon: string,            // 'CheckCircle2' for a finished task
    color: string,
    typeName: string,
    clienteNome: Option<string>,
    whatsApp: Option<string>,
    hours: Option<string>,   // 'HH:mm' or 'HH:mm - HH:mm'
    responsavel: string)

  /** The times shown on a card: none without a start time. */
  function Hours(t: Tarefa): (r: Option<string>)
    ensures r.None? <==> !Truthy(t.horaInicio)
    ensures r.Some? && !Truthy(t.horaFim) ==> r.value == FormatTime(t.horaInicio)
    ensures r.Some? && Truthy(t.horaFim) ==> r.value == FormatTime(t.horaInicio) + " - " + FormatTime(t.horaFim)
  {
    if !Truthy(t.horaInicio) then None
    else if Truthy(t.horaFim) then Some(FormatTime(t.horaInicio) + " - " + FormatTime(t.horaFim))
    else Some(FormatTime(t.horaInicio))
  }

  function CardOf(t: Tarefa, tipos: seq<TipoTarefa>, funcs: seq<Funcionario>): (c: Card)
    ensures c.id == t.id && c.descricao == t.descricao
    ensures t.realizado ==> c.icon == "CheckCircle2"
    ensures !t.realizado ==> c.icon == TypeIcon(tipos, t.tipoTarefaId)
    ensures c.whatsApp.Some? ==> c.clienteNome.Some?
    ensures c.typeName == TypeName(tipos, t.tipoTarefaId) && c.responsavel == FuncName(funcs, t.funcionarioId)
  {
    Card(
      t.id,
      t.descricao,
      if t.realizado then "CheckCircle2" else TypeIcon(tipos, t.tipoTarefaId),
      TypeColor(tipos, t.tipoTarefaId),
      TypeName(tipos, t.tipoTarefaId),
      if Truthy(t.clienteNome) then t.clienteNome else None,
      WhatsAppLink(t),
      Hours(t),
      FuncName(funcs, t.funcionarioId))
  }

  /** The dialog: nothing without a day; otherwise the passed-in task array
      is sorted in place by start time and one card is made per task, in
      that order. */
  method Render(day: Option<int>, tarefas: array<Tarefa>, tipos: seq<TipoTarefa>, funcs: seq<Funcionario>)
    returns (cards: Option<seq<Card>>)
    modifies tarefas
    ensures day.None? ==> cards.None? && tarefas[..] == old(tarefas[..])
    ensures day.Some? ==> SortedBy(tarefas[..], StartLe) && multiset(tarefas[..]) == multiset(old(tarefas[..]))
    ensures day.Some? ==> cards.Some? && |cards.value| == tarefas.Length
    ensures day.Some? ==> forall i :: 0 <= i < tarefas.Length ==> cards.value[i] == CardOf(tarefas[i], tipos, funcs)
  {
    if day.None? {
      return None;
    }
    SortByStart(tarefas);
    var list := seq(tarefas.Length, i requires 0 <= i < tarefas.Length reads tarefas => CardOf(tarefas[i], tipos, funcs));
    cards := Some(list);
  }
}

=== FILE: deadline.dfy ===
/** The deadline urgency and progress engine of src/lib/deadline.js.
    Timestamps are integer milliseconds and the wall clock `now` is a
    parameter; a missing (null or empty) timestamp is `None`. */
module Deadline {
  import opened Lists

  const MS_PER_HOUR: int := 3600000

  datatype Status = Ok | Urgent | Critical | Done

  /** `hoursLeft`: `Infinity` or a whole number of hours. */
  datatype Hours = Infinity | Finite(hours: int)

  /** The object `getDeadlineStatus` returns (its `label` is `statusLabel`);
      a null status or label is `None`. */
  datatype DeadlineInfo = DeadlineInfo(status: Option<Status>, statusLabel: Option<string>, hoursLeft: Hours)

  /** `differenceInHours(later, earlier)`: the difference in whole hours,
      truncated toward zero (not floored) for negative differences. */
  function DifferenceInHours(later: int, earlier: int): (h: int)
    ensures later >= earlier ==> 0 <= h * MS_PER_HOUR <= later - earlier < h * MS_PER_HOUR + MS_PER_HOUR
    ensures later < earlier ==> h * MS_PER_HOUR - MS_PER_HOUR < later - earlier <= h * MS_PER_HOUR <= 0
  {
    var ms := later - earlier;
    if ms >= 0 then ms / MS_PER_HOUR else -((-ms) / MS_PER_HOUR)
  }

  /** `getDeadlineStatus(deadline, realizado)` at time `now`. */
  function GetDeadlineStatus(deadline: Option<int>, realizado: bool, now: int): (r: DeadlineInfo)
    ensures deadline.None? ==> r == DeadlineInfo(None, None, Infinity)
    ensures deadline.Some? && realizado ==> r == DeadlineInfo(Some(Done), Some("Concluída"), Infinity)
    ensures deadline.Some? && !realizado ==>
      r.status.Some? && r.status.value != Done && r.hoursLeft == Finite(DifferenceInHours(deadline.value, now))
    ensures deadline.Some? && !realizado && deadline.value < now ==>
      r.status == Some(Critical) && r.statusLabel == Some("Atrasado")
    ensures deadline.Some? && !realizado && now <= deadline.value < now + 24 * MS_PER_HOUR ==>
      r.status == Some(Critical) && r.statusLabel == Some("Crítico")
    ensures deadline.Some? && !realizado && now + 24 * MS_PER_HOUR <= deadline.value < now + 48 * MS_PER_HOUR ==>
      r.status == Some(Urgent) && r.statusLabel == Some("Urgente")
    ensures deadline.Some? && !realizado && now + 48 * MS_PER_HOUR <= deadline.value ==>
      r.status == Some(Ok) && r.statusLabel == None
  {
    if deadline.None? then DeadlineInfo(None, None, Infinity)
    else if realizado then DeadlineInfo(Some(Done), Some("Concluída"), Infinity)
    else
      var hoursLeft := DifferenceInHours(deadline.value, now);
      var isPast := deadline.value < now;
      if isPast || hoursLeft < 0 then DeadlineInfo(Some(Critical), Some("Atrasado"), Finite(hoursLeft))
      else if hoursLeft < 24 then DeadlineInfo(Some(Critical), Some("Crítico"), Finite(hoursLeft))
      else if hoursLeft < 48 then DeadlineInfo(Some(Urgent), Some("Urgente"), Finite(hoursLeft))
      else DeadlineInfo(Some(Ok), None, Finite(hoursLeft))
  }

  /** Ordering of the open statuses by urgency. */
  function Severity(s: Status): nat
  {
    match s
    case Ok => 0
    case Urgent => 1
    case Critical => 2
    case Done => 0
  }

  /** With `now` fixed, a later deadline is never more severe. */
  lemma SeverityMonotone(d1: int, d2: int, now: int)
    requires d1 <= d2
    ensures Severity(GetDeadlineStatus(Some(d2), false, now).status.value)
         <= Severity(GetDeadlineStatus(Some(d1), false, now).status.value)
  {
    var h1, h2 := DifferenceInHours(d1, now), DifferenceInHours(d2, now);
    assert d2 - now < 24 * MS_PER_HOUR ==> d1 - now < 24 * MS_PER_HOUR;
    assert d2 - now < 48 * MS_PER_HOUR ==> d1 - now < 48 * MS_PER_HOUR;
  }

  /** The `hoursLeft < 0` test adds nothing to `isPast`: truncation toward
      zero makes the hours negative only for a deadline at least an hour past. */
  lemma NegativeHoursArePast(deadline: int, now: int)
    ensures DifferenceInHours(deadline, now) < 0 ==> deadline <= now - MS_PER_HOUR
    ensures deadline < now && now - MS_PER_HOUR < deadline ==> DifferenceInHours(deadline, now) == 0
  {
  }

  /** `getDeadlineText`: null without a deadline, otherwise the relative
      phrase `describe` produces for it. */
  function GetDeadlineText(deadline: Option<int>, describe: int -> string): (r: Option<string>)
    ensures r.None? <==> deadline.None?
    ensures deadline.Some? ==> r.value == describe(deadline.value)
  {
    if deadline.None? then None else Some(describe(deadline.value))
  }

  /** One entry of the `DEADLINE_BADGE` table; `label` and `pulse` are absent
      (`None`, `false`) where the table leaves them out; `label` is `badgeLabel`. */
  datatype Badge = Badge(bg: string, text: string, border: string, badgeLabel: Option<string>, pulse: bool)

  /** `DEADLINE_BADGE[status]`: only 'urgent' and 'critical' have a badge. */
  function DeadlineBadge(s: Status): (r: Option<Badge>)
    ensures r.Some? <==> s == Urgent || s == Critical
    ensures s == Critical ==> r.value.pulse && r.value.badgeLabel.None?
  {
    match s
    case Urgent => Some(Badge("bg-yellow-500/15", "text-yellow-400", "border-yellow-500/30", Some("Urgente"), false))
    case Critical => Some(Badge("bg-red-500/15", "text-red-400", "border-red-500/30", None, true))
    case _ => None
  }

  /** Every task the status engine calls urgent carries the badge whose label
      is the status label, and every critical task gets the pulsing badge. */
  lemma BadgeMatchesStatus(deadline: int, now: int)
    ensures var info := GetDeadlineStatus(Some(deadline), false, now);
      (info.status == Some(Urgent) ==> DeadlineBadge(Urgent).value.badgeLabel == info.statusLabel)
      && (info.status == Some(Critical) ==> DeadlineBadge(Critical).value.pulse)
      && (info.status == Some(Ok) ==> DeadlineBadge(Ok).None?)
  {
  }

  /** The object `getProgressBar` returns. */
  datatype ProgressBar = ProgressBar(percent: int, colorClass: string)

  lemma MulMono(c: int, a: int, b: int)
    requires c > 0 && a <= b
    ensures c * a <= c * b
  {
    assert c * b - c * a == c * (b - a);
  }

  /** `Math.round(n / t)` for `t > 0`: halves round up. */
  function RoundDiv(n: int, t: int): (q: int)
    requires t > 0
    ensures 2 * t * q <= 2 * n + t < 2 * t * q + 2 * t
  {
    var d := 2 * t;
    var q := (2 * n + t) / d;
    assert d * q + (2 * n + t) % d == 2 * n + t;
    q
  }

  /** The rounded quotient reaches `k` exactly when `n / t >= k - 1/2`. */
  lemma RoundDivAtLeast(n: int, t: int, k: int)
    requires t > 0
    ensures RoundDiv(n, t) >= k <==> 2 * n + t >= 2 * t * k
  {
    var q := RoundDiv(n, t);
    if q >= k {
      MulMono(2 * t, k, q);
    } else {
      MulMono(2 * t, q + 1, k);
    }
  }

  /** `Math.min(hi, Math.max(lo, x))`. */
  function Clamp(x: int, lo: int, hi: int): int
  {
    if x < lo then lo else if x > hi then hi else x
  }

  /** `getProgressBar(createdAt, deadline, realizado)` at time `now`. The
      unrounded percentage is `num / total` with `num` the clamped value of
      `100 * elapsed`, so every comparison is exact. */
  function GetProgressBar(createdAt: Option<int>, deadline: Option<int>, realizado: bool, now: int): (r: ProgressBar)
    ensures 0 <= r.percent <= 100
    ensures deadline.None? || createdAt.None? ==> r == ProgressBar(0, "bg-slate-500/50")
    ensures deadline.Some? && createdAt.Some? && realizado ==> r == ProgressBar(100, "bg-green-500")
    ensures deadline.Some? && createdAt.Some? && !realizado && deadline.value <= createdAt.value ==>
      r == ProgressBar(100, "bg-red-600")
  {
    if deadline.None? || createdAt.None? then ProgressBar(0, "bg-slate-500/50")
    else if realizado then ProgressBar(100, "bg-green-500")
    else
      var total := deadline.value - createdAt.value;
      var elapsed := now - createdAt.value;
      if total <= 0 then ProgressBar(100, "bg-red-600")
      else
        var num := Clamp(100 * elapsed, 0, 100 * total);
        var colorClass :=
          if num >= 80 * total then "bg-red-600"
          else if num >= 50 * total then "bg-yellow-500"
          else "bg-slate-500";
        RoundPercentBounds(num, total);
        ProgressBar(RoundDiv(num, total), colorClass)
  }

  lemma RoundPercentBounds(num: int, total: int)
    requires total > 0 && 0 <= num <= 100 * total
    ensures 0 <= RoundDiv(num, total) <= 100
  {
    RoundDivAtLeast(num, total, 0);
    RoundDivAtLeast(num, total, 101);
  }

  /** Over an open window (`createdAt < deadline`, not done) the bar shows
      the elapsed fraction of the window as a percentage, clamped to [0,100]
      and rounded half up, and its colour is decided on the unrounded value:
      red from 80%, yellow from 50%, slate below. */
  lemma ProgressInWindow(createdAt: int, deadline: int, now: int)
    requires createdAt < deadline
    ensures var r := GetProgressBar(Some(createdAt), Some(deadline), false, now);
      var total, elapsed := deadline - createdAt, now - createdAt;
      (elapsed <= 0 ==> r.percent == 0)
      && (elapsed >= total ==> r.percent == 100)
      && (0 < elapsed < total ==>
            2 * total * r.percent - total <= 200 * elapsed < 2 * total * r.percent + total)
      && (r.colorClass == "bg-red-600" <==> 100 * elapsed >= 80 * total)
      && (r.colorClass == "bg-yellow-500" <==> 50 * total <= 100 * elapsed < 80 * total)
      && (r.colorClass == "bg-slate-500" <==> 100 * elapsed < 50 * total)
  {
    var total, elapsed := deadline - createdAt, now - createdAt;
    var num := Clamp(100 * elapsed, 0, 100 * total);
    if elapsed <= 0 {
      RoundDivAtLeast(num, total, 1);
    } else if elapsed >= total {
      RoundDivAtLeast(num, total, 100);
      RoundDivAtLeast(num, total, 101);
    }
  }

  /** The colour never contradicts the rounded number: red bars read at
      least 80, yellow bars 50 to 80, slate bars at most 50. */
  lemma ColorAgreesWithPercent(createdAt: int, deadline: int, now: int)
    requires createdAt < deadline
    ensures var r := GetProgressBar(Some(createdAt), Some(deadline), false, now);
      (r.colorClass == "bg-red-600" ==> r.percent >= 80)
      && (r.colorClass == "bg-yellow-500" ==> 50 <= r.percent <= 80)
      && (r.colorClass == "bg-slate-500" ==> r.percent <= 50)
  {
    var total := deadline - createdAt;
    var num := Clamp(100 * (now - createdAt), 0, 100 * total);
    RoundDivAtLeast(num, total, 80);
    RoundDivAtLeast(num, total, 81);
    RoundDivAtLeast(num, total, 50);
    RoundDivAtLeast(num, total, 51);
  }

  /** As time passes the bar never goes back. */
  lemma ProgressMonotoneInTime(createdAt: int, deadline: int, now1: int, now2: int)
    requires createdAt < deadline && now1 <= now2
    ensures GetProgressBar(Some(createdAt), Some(deadline), false, now1).percent
         <= GetProgressBar(Some(createdAt), Some(deadline), false, now2).percent
  {
    var total := deadline - createdAt;
    var n1 := Clamp(100 * (now1 - createdAt), 0, 100 * total);
    var n2 := Clamp(100 * (now2 - createdAt), 0, 100 * total);
    RoundDivAtLeast(n2, total, RoundDiv(n1, total));
  }
}

=== FILE: filter_sidebar.dfy ===
/** The staff and task-type filter panel of
    src/components/filters/FilterSidebar.jsx, shared by the dashboard and
    the TV dashboard: two id lists, a checkbox per id, and a clear button. */
module FilterSidebar {
  import opened Lists
  import opened Records

  /** The two lists the panel edits (`filtroFuncionarios`, `filtroTipos`). */
  datatype SidebarFilters = SidebarFilters(funcionarios: seq<Id>, tipos: seq<Id>)

  const NO_FILTERS := SidebarFilters([], [])

  /** What the user can do in the panel. */
  datatype SidebarEvent = ToggleFuncionario(funcionarioId: Id) | ToggleTipo(tipoId: Id) | ClearFilters

  /** The lists after one event: a checkbox flips one id's membership in its
      own list and leaves the other list alone; clear empties both. */
  function Handle(f: SidebarFilters, e: SidebarEvent): (r: SidebarFilters)
    ensures e.ToggleFuncionario? ==> r.tipos == f.tipos
    ensures e.ToggleFuncionario? ==> (e.funcionarioId in r.funcionarios <==> e.funcionarioId !in f.funcionarios)
    ensures e.ToggleFuncionario? ==> forall y :: y != e.funcionarioId ==> (y in r.funcionarios <==> y in f.funcionarios)
    ensures e.ToggleTipo? ==> r.funcionarios == f.funcionarios
    ensures e.ToggleTipo? ==> (e.tipoId in r.tipos <==> e.tipoId !in f.tipos)
    ensures e.ToggleTipo? ==> forall y :: y != e.tipoId ==> (y in r.tipos <==> y in f.tipos)
    ensures e.ClearFilters? ==> r == NO_FILTERS
  {
    match e
    case ToggleFuncionario(id) => f.(funcionarios := Toggle(f.funcionarios, id))
    case ToggleTipo(id) => f.(tipos := Toggle(f.tipos, id))
    case ClearFilters => NO_FILTERS
  }

  /** "Limpar filtros" is offered only while some filter is set. */
  predicate ClearOffered(f: SidebarFilters)
  {
    |f.funcionarios| > 0 || |f.tipos| > 0
  }

  /** The clear button is offered exactly when clearing would change
      something. */
  lemma ClearOfferedWhenUseful(f: SidebarFilters)
    ensures ClearOffered(f) <==> Handle(f, ClearFilters) != f
    ensures !ClearOffered(Handle(f, ClearFilters))
  {
  }

  /** A checked box unchecked again (or the reverse) restores which ids are
      selected; an id that was not selected is removed again without a
      trace. */
  lemma {:induction false} ToggleTwiceRestores(f: SidebarFilters, e: SidebarEvent)
    requires !e.ClearFilters?
    ensures forall y :: y in Handle(Handle(f, e), e).funcionarios <==> y in f.funcionarios
    ensures forall y :: y in Handle(Handle(f, e), e).tipos <==> y in f.tipos
    ensures e.ToggleFuncionario? && e.funcionarioId !in f.funcionarios ==> Handle(Handle(f, e), e) == f
    ensures e.ToggleTipo? && e.tipoId !in f.tipos ==> Handle(Handle(f, e), e) == f
  {
    match e
    case ToggleFuncionario(id) =>
      ToggleTwice(f.funcionarios, id);
    case ToggleTipo(id) =>
      ToggleTwice(f.tipos, id);
  }

  /** Checking a box always offers the clear button. */
  lemma CheckOffersClear(f: SidebarFilters, e: SidebarEvent)
    requires e.ToggleFuncionario? ==> e.funcionarioId !in f.funcionarios
    requires e.ToggleTipo? ==> e.tipoId !in f.tipos
    requires !e.ClearFilters?
    ensures ClearOffered(Handle(f, e))
  {
    match e
    case ToggleFuncionario(id) =>
      assert id in Handle(f, e).funcionarios;
    case ToggleTipo(id) =>
      assert id in Handle(f, e).tipos;
  }
}

=== FILE: funcionarios.dfy ===
/** The staff register of src/pages/FuncionariosPage.jsx: a searchable
    list, a create/edit dialog that can also open a login for the new staff
    member, and a two-click delete. */
module FuncionariosPage {
  import opened Lists
  import opened Text
  import opened Records
  import opened Crud

  const DEFAULT_COLOR := "#5d109c"
  const SAVE_ERROR := "Erro ao salvar"

  /** The dialog's inputs, the password included. */
  datatype FuncForm = FuncForm(nome: string, email: string, telefone: string, cargo: string, cor: string, senha: string)

  const NEW_FORM := FuncForm("", "", "", "", DEFAULT_COLOR, "")

  /** The columns written to the table: the form without the password. */
  datatype FuncData = FuncData(nome: string, email: string, telefone: string, cargo: string, cor: string)

  /** Whether the written record carries an `auth_user_id` key, and its
      value. */
  datatype AuthField = Absent | Linked(authUserId: Option<Id>)

  datatype FuncRecord = FuncRecord(data: FuncData, auth: AuthField)

  /** `const { senha, ...funcData } = form`. */
  function StripPassword(f: FuncForm): (r: FuncData)
    ensures r.nome == f.nome && r.email == f.email && r.telefone == f.telefone
    ensures r.cargo == f.cargo && r.cor == f.cor
  {
    FuncData(f.nome, f.email, f.telefone, f.cargo, f.cor)
  }

  /** What is written does not depend on the password. */
  lemma PasswordNeverWritten(f: FuncForm, other: string)
    ensures StripPassword(f.(senha := other)) == StripPassword(f)
  {
  }

  /** `openEdit`'s form: the member's values, missing ones as '', the
      colour defaulting to the brand purple, and no password. */
  function EditForm(u: Funcionario): (r: FuncForm)
    ensures r.nome == u.nome && r.email == OrEmpty(u.email)
    ensures r.telefone == OrEmpty(u.telefone) && r.cargo == OrEmpty(u.cargo)
    ensures r.cor == (if Truthy(u.cor) then u.cor.value else DEFAULT_COLOR) && r.cor != ""
    ensures r.senha == ""
  {
    FuncForm(u.nome, OrEmpty(u.email), OrEmpty(u.telefone), OrEmpty(u.cargo),
      if Truthy(u.cor) then u.cor.value else DEFAULT_COLOR, "")
  }

  /** Sign-up is attempted only for a new member, with "criar acesso"
      ticked and both e-mail and password filled in. */
  predicate WantsSignUp(editing: Option<Funcionario>, criarAcesso: bool, f: FuncForm)
  {
    editing.None? && criarAcesso && f.email != "" && f.senha != ""
  }

  /** Editing never signs anyone up; nor does a form with an empty
      password. */
  lemma SignUpOnlyForNew(editing: Option<Funcionario>, criarAcesso: bool, f: FuncForm)
    ensures editing.Some? ==> !WantsSignUp(editing, criarAcesso, f)
    ensures f.senha == "" || f.email == "" || !criarAcesso ==> !WantsSignUp(editing, criarAcesso, f)
    ensures WantsSignUp(editing, criarAcesso, f) ==> StripPassword(f).email != ""
  {
  }

  /** The sign-up call: e-mail, password and the name and role as user
      metadata. */
  datatype SignUpRequest = SignUpRequest(email: string, password: string, nome: string, cargo: string)

  /** How the authentication service answered: an error it reports, a new
      user (whose id may be missing), or an exception with its message. */
  datatype SignUpResult = SignUpError(message: string) | SignedUp(userId: Option<Id>) | SignUpThrew(thrown: string)

  /** The search: the name or the role contains the query, ignoring case. */
  predicate SearchMatches(u: Funcionario, search: string)
  {
    MatchesCI(u.nome, search) || FieldMatches(u.cargo, search)
  }

  function FilterFuncionarios(funcs: seq<Funcionario>, search: string): (r: seq<Funcionario>)
    ensures forall u :: u in r <==> u in funcs && SearchMatches(u, search)
    ensures IsSubsequence(r, funcs)
    ensures search == "" ==> r == funcs
  {
    var keep := (u: Funcionario) => SearchMatches(u, search);
    FilterIsSubsequence(funcs, keep);
    assert search == "" ==> Filter(funcs, keep) == funcs by {
      if search == "" {
        forall u | u in funcs ensures keep(u) {
          MatchesCIProperties(u.nome, search);
        }
        FilterKeepsAll(funcs, keep);
      }
    }
    Filter(funcs, keep)
  }

  /** The page state. */
  class FuncionariosState {
    var showModal: bool
    var editing: Option<Funcionario>
    var search: string
    var confirmDelete: Option<Id>
    var authError: string
    var authLoading: bool
    var criarAcesso: bool
    var form: FuncForm

    constructor()
      ensures !showModal && editing.None? && search == "" && confirmDelete.None?
      ensures authError == "" && !authLoading && !criarAcesso && form == NEW_FORM
    {
      showModal, editing, search, confirmDelete := false, None, "", None;
      authError, authLoading, criarAcesso, form := "", false, false, NEW_FORM;
    }

    function Filtered(funcs: seq<Funcionario>): seq<Funcionario>
      reads this
    {
      FilterFuncionarios(funcs, search)
    }

    /** `openNew`: an empty dialog with "criar acesso" ticked. */
    method OpenNew()
      modifies this
      ensures showModal && editing.None? && criarAcesso && authError == "" && form == NEW_FORM
      ensures search == old(search) && confirmDelete == old(confirmDelete) && authLoading == old(authLoading)
    {
      editing := None;
      criarAcesso := true;
      authError := "";
      form := NEW_FORM;
      showModal := true;
    }

    /** `openEdit`: the dialog on an existing member, "criar acesso" off. */
    method OpenEdit(u: Funcionario)
      modifies this
      ensures showModal && editing == Some(u) && !criarAcesso && authError == "" && form == EditForm(u)
      ensures search == old(search) && confirmDelete == old(confirmDelete) && authLoading == old(authLoading)
    {
      editing := Some(u);
      criarAcesso := false;
      authError := "";
      form := EditForm(u);
      showModal := true;
    }

    /** `handleSubmit`. An edit updates the member; a new member is signed
        up first when `WantsSignUp` holds (`answer` is what the service
        returns), and then inserted, linked to the new user; a reported
        error or an exception stops before the insert and is shown in the
        dialog. The password is never part of a written record. */
    method HandleSubmit(answer: SignUpResult) returns (signUp: Option<SignUpRequest>, m: Option<Mutation<FuncRecord>>)
      modifies this
      ensures signUp.Some? <==> WantsSignUp(old(editing), old(criarAcesso), old(form))
      ensures signUp.Some? ==> signUp.value == SignUpRequest(old(form).email, old(form).senha, old(form).nome, old(form).cargo)
      ensures m.None? <==> WantsSignUp(old(editing), old(criarAcesso), old(form)) && !answer.SignedUp?
      ensures old(editing).Some? ==> m == Some(Update(old(editing).value.id, FuncRecord(StripPassword(old(form)), Absent)))
      ensures old(editing).None? && !WantsSignUp(old(editing), old(criarAcesso), old(form)) ==>
        m == Some(Insert(FuncRecord(StripPassword(old(form)), Absent)))
      ensures signUp.Some? && answer.SignedUp? ==>
        m == Some(Insert(FuncRecord(StripPassword(old(form)), Linked(answer.userId))))
      ensures signUp.Some? && answer.SignUpError? ==> authError == answer.message && showModal == old(showModal)
      ensures signUp.Some? && answer.SignUpThrew? ==>
        authError == (if answer.thrown != "" then answer.thrown else SAVE_ERROR) && showModal == old(showModal)
      ensures m.Some? ==> authError == "" && !showModal
      ensures !authLoading && form == old(form) && editing == old(editing) && criarAcesso == old(criarAcesso)
      ensures search == old(search) && confirmDelete == old(confirmDelete)
    {
      authError := "";
      authLoading := true;
      var data := StripPassword(form);
      signUp, m := None, None;
      if editing.Some? {
        m := Some(Update(editing.value.id, FuncRecord(data, Absent)));
      } else if criarAcesso && form.email != "" && form.senha != "" {
        signUp := Some(SignUpRequest(form.email, form.senha, form.nome, form.cargo));
        match answer
        case SignUpError(message) =>
          authError := message;
          authLoading := false;
          return;
        case SignUpThrew(thrown) =>
          authError := if thrown != "" then thrown else SAVE_ERROR;
          authLoading := false;
          return;
        case SignedUp(userId) =>
          m := Some(Insert(FuncRecord(data, Linked(userId))));
      } else {
        m := Some(Insert(FuncRecord(data, Absent)));
      }
      showModal := false;
      authLoading := false;
    }

    /** `handleDelete(id)`: the two-click confirmation. */
    method HandleDelete(id: Id) returns (removed: Option<Id>)
      modifies this
      ensures confirmDelete == DeleteClick(old(confirmDelete), id).armed
      ensures removed == DeleteClick(old(confirmDelete), id).removed
      ensures showModal == old(showModal) && editing == old(editing) && form == old(form)
      ensures search == old(search) && authError == old(authError) && criarAcesso == old(criarAcesso)
      ensures authLoading == old(authLoading)
    {
      if confirmDelete != Some(id) {
        confirmDelete := Some(id);
        return None;
      }
      removed := Some(id);
      confirmDelete := None;
    }
  }
}

=== FILE: install_pwa.dfy ===
/** The install-the-app hook of src/hooks/useInstallPWA.js: it keeps the
    browser's deferred install prompt and whether the app is installed, and
    derives whether an install button should be offered. Browser events
    arrive as method calls; the platform checks are constructor
    arguments. */
module InstallPwa {
  import opened Lists

  /** What the hook returns besides `install`. */
  datatype InstallFlags = InstallFlags(
    canInstall: bool,
    canInstallNative: bool,
    canInstallIOS: bool,
    isInstalled: bool,
    isStandalone: bool,
    isIOS: bool)

  /** The derived flags: the native prompt is usable while it is held and
      the app is not installed; the iOS instructions apply on iOS outside
      standalone mode while the app is not installed. */
  function Flags(hasPrompt: bool, installed: bool, ios: bool, standalone: bool): (r: InstallFlags)
    ensures r.canInstall <==> r.canInstallNative || r.canInstallIOS
    ensures r.canInstallNative <==> hasPrompt && !installed
    ensures r.canInstallIOS <==> ios && !standalone && !installed
    ensures installed ==> !r.canInstall
    ensures r.isInstalled == installed && r.isStandalone == standalone && r.isIOS == ios
  {
    var native := hasPrompt && !installed;
    var iosInstall := ios && !standalone && !installed;
    InstallFlags(native || iosInstall, native, iosInstall, installed, standalone, ios)
  }

  /** Without a held prompt only the iOS path can offer an install, and an
      app opened standalone never offers the iOS path. */
  lemma OnlyIOSWithoutPrompt(installed: bool, ios: bool, standalone: bool)
    ensures Flags(false, installed, ios, standalone).canInstall <==> ios && !standalone && !installed
    ensures standalone ==> !Flags(false, installed, ios, standalone).canInstall
  {
  }

  /** The hook's state. `deferredPrompt` holds the number of the
      `beforeinstallprompt` event kept, if any. */
  class InstallState {
    var deferredPrompt: Option<nat>
    var isInstalled: bool
    const isIOS: bool
    const isStandalone: bool

    /** The first render: no prompt, not installed, the platform checks
        taken once. */
    constructor(ios: bool, standalone: bool)
      ensures deferredPrompt.None? && !isInstalled && isIOS == ios && isStandalone == standalone
    {
      deferredPrompt := None;
      isInstalled := false;
      isIOS := ios;
      isStandalone := standalone;
    }

    function CurrentFlags(): InstallFlags
      reads this
    {
      Flags(deferredPrompt.Some?, isInstalled, isIOS, isStandalone)
    }

    /** The mount effect: an app already running standalone counts as
        installed. */
    method Mount(standaloneNow: bool)
      modifies this
      ensures isInstalled == (old(isInstalled) || standaloneNow)
      ensures deferredPrompt == old(deferredPrompt)
    {
      if standaloneNow {
        isInstalled := true;
      }
    }

    /** A `beforeinstallprompt` event: its prompt is kept (replacing an
        earlier one) for a later `install`. */
    method BeforeInstallPrompt(event: nat)
      modifies this
      ensures deferredPrompt == Some(event) && isInstalled == old(isInstalled)
    {
      deferredPrompt := Some(event);
    }

    /** An `appinstalled` event. */
    method AppInstalled()
      modifies this
      ensures isInstalled && deferredPrompt.None?
      ensures !CurrentFlags().canInstall
    {
      isInstalled := true;
      deferredPrompt := None;
    }

    /** `install()`: without a held prompt it reports false and changes
        nothing; otherwise the prompt is shown (`prompted`), used up, and
        the app counts as installed exactly when the user's choice
        (`outcome`) is 'accepted'. */
    method Install(outcome: string) returns (prompted: bool, accepted: bool)
      modifies this
      ensures prompted <==> old(deferredPrompt).Some?
      ensures !prompted ==> !accepted && deferredPrompt == old(deferredPrompt) && isInstalled == old(isInstalled)
      ensures prompted ==> deferredPrompt.None? && (accepted <==> outcome == "accepted")
      ensures prompted ==> isInstalled == (old(isInstalled) || accepted)
    {
      if deferredPrompt.None? {
        return false, false;
      }
      prompted := true;
      deferredPrompt := None;
      if outcome == "accepted" {
        isInstalled := true;
        return prompted, true;
      }
      accepted := false;
    }
  }
}

=== FILE: lists.dfy ===
/** Sequence helpers shared by the pages: the JavaScript array idioms the
    source uses (`filter`, `find`, `includes`-based toggling, grouping into
    a dictionary by pushing in a loop), each with its meaning stated. */
module Lists {

  datatype Option<+T> = None | Some(value: T)

  /** `a` is obtained from `b` by deleting elements: an order-preserving subset. */
  ghost predicate IsSubsequence<T>(a: seq<T>, b: seq<T>)
  {
    if a == [] then true
    else if b == [] then false
    else if a[0] == b[0] then IsSubsequence(a[1..], b[1..])
    else IsSubsequence(a, b[1..])
  }

  /** `Array.prototype.filter`: the elements satisfying `p`, in their order. */
  function Filter<T>(s: seq<T>, p: T -> bool): (r: seq<T>)
    ensures |r| <= |s|
    ensures forall x :: x in r ==> x in s && p(x)
    ensures forall x :: x in s && p(x) ==> x in r
  {
    if s == [] then [] else (if p(s[0]) then [s[0]] else []) + Filter(s[1..], p)
  }

  lemma {:induction false} FilterAppend<T>(a: seq<T>, b: seq<T>, p: T -> bool)
    ensures Filter(a + b, p) == Filter(a, p) + Filter(b, p)
  {
    if a == [] {
      assert a + b == b;
    } else {
      assert (a + b)[1..] == a[1..] + b;
      FilterAppend(a[1..], b, p);
    }
  }

  /** The filter result keeps the input's relative order. */
  lemma {:induction false} FilterIsSubsequence<T>(s: seq<T>, p: T -> bool)
    ensures IsSubsequence(Filter(s, p), s)
  {
    if s != [] {
      FilterIsSubsequence(s[1..], p);
      var rest := Filter(s[1..], p);
      if p(s[0]) {
        assert Filter(s, p) == [s[0]] + rest;
        assert ([s[0]] + rest)[1..] == rest;
      } else {
        assert Filter(s, p) == rest;
        if rest != [] {
          assert rest[0] in rest;
          assert rest[0] != s[0];
        }
      }
    }
  }

  /** The filter keeps every copy of a kept element and no copy of a
      dropped one. */
  lemma {:induction false} FilterCounts<T>(s: seq<T>, p: T -> bool)
    ensures forall x :: multiset(Filter(s, p))[x] == if p(x) then multiset(s)[x] else 0
  {
    if s != [] {
      FilterCounts(s[1..], p);
      assert s == [s[0]] + s[1..];
      assert multiset(s) == multiset([s[0]]) + multiset(s[1..]);
      assert Filter(s, p) == (if p(s[0]) then [s[0]] else []) + Filter(s[1..], p);
      assert multiset(Filter(s, p)) == multiset(if p(s[0]) then [s[0]] else []) + multiset(Filter(s[1..], p));
    }
  }

  /** Filtering twice with the same predicate is filtering once. */
  lemma {:induction false} FilterIdempotent<T>(s: seq<T>, p: T -> bool)
    ensures Filter(Filter(s, p), p) == Filter(s, p)
  {
    if s != [] {
      var rest := Filter(s[1..], p);
      FilterIdempotent(s[1..], p);
      if p(s[0]) {
        var f := [s[0]] + rest;
        assert Filter(s, p) == f;
        assert f[0] == s[0] && f[1..] == rest;
        assert Filter(f, p) == [s[0]] + Filter(rest, p);
      } else {
        assert Filter(s, p) == [] + rest == rest;
      }
    }
  }

  /** A predicate that holds of every element removes nothing. */
  lemma {:induction false} FilterKeepsAll<T>(s: seq<T>, p: T -> bool)
    requires forall x :: x in s ==> p(x)
    ensures Filter(s, p) == s
  {
    if s != [] {
      assert s == [s[0]] + s[1..];
      FilterKeepsAll(s[1..], p);
    }
  }

  /** `Array.prototype.find`: the first element satisfying `p`, if any. */
  function Find<T>(s: seq<T>, p: T -> bool): (r: Option<T>)
    ensures r.Some? ==> r.value in s && p(r.value)
    ensures r.None? <==> forall x :: x in s ==> !p(x)
    ensures r.Some? ==> exists i :: 0 <= i < |s| && s[i] == r.value && forall j :: 0 <= j < i ==> !p(s[j])
  {
    if s == [] then None
    else if p(s[0]) then Some(s[0])
    else
      var r := Find(s[1..], p);
      assert r.Some? ==> exists i :: 0 <= i < |s[1..]| && s[1..][i] == r.value && forall j :: 0 <= j < i ==> !p(s[1..][j]);
      assert r.Some? ==> exists i :: 0 <= i < |s| && s[i] == r.value && forall j :: 0 <= j < i ==> !p(s[j]) by {
        if r.Some? {
          var i :| 0 <= i < |s[1..]| && s[1..][i] == r.value && forall j :: 0 <= j < i ==> !p(s[1..][j]);
          assert s[i + 1] == r.value;
          assert forall j :: 0 <= j < i + 1 ==> !p(s[j]) by {
            forall j | 0 <= j < i + 1 ensures !p(s[j]) {
              if j > 0 { assert s[j] == s[1..][j - 1]; }
            }
          }
        }
      }
      r
  }

  /** `find` returns the element at the first index where `p` holds. */
  lemma {:induction false} FindFirst<T>(s: seq<T>, p: T -> bool, i: int)
    requires 0 <= i < |s| && p(s[i]) && forall j :: 0 <= j < i ==> !p(s[j])
    ensures Find(s, p) == Some(s[i])
  {
    if i > 0 {
      FindFirst(s[1..], p, i - 1);
    }
  }

  /** `prev.includes(x) ? prev.filter(y => y !== x) : [...prev, x]`:
      removes every occurrence of a present item, appends an absent one. */
  function Toggle<T(==)>(s: seq<T>, x: T): (r: seq<T>)
    ensures x in r <==> x !in s
    ensures forall y :: y in r && y != x ==> y in s
    ensures forall y :: y in s && y != x ==> y in r
    ensures x !in s ==> |r| == |s| + 1 && r[..|s|] == s && r[|s|] == x
    ensures x in s ==> IsSubsequence(r, s) && |r| < |s|
  {
    if x in s then
      var r := Filter(s, y => y != x);
      FilterIsSubsequence(s, y => y != x);
      FilterShrinks(s, y => y != x, x);
      r
    else s + [x]
  }

  /** Filtering out an element that occurs makes the sequence shorter. */
  lemma {:induction false} FilterShrinks<T>(s: seq<T>, p: T -> bool, x: T)
    requires x in s && !p(x)
    ensures |Filter(s, p)| < |s|
  {
    if s[0] != x {
      FilterShrinks(s[1..], p, x);
    } else {
      assert |Filter(s[1..], p)| <= |s[1..]|;
    }
  }

  /** Toggling twice restores membership; on an absent item it restores the list. */
  lemma {:induction false} ToggleTwice<T>(s: seq<T>, x: T)
    ensures forall y :: y in Toggle(Toggle(s, x), x) ==> y in s
    ensures forall y :: y in s ==> y in Toggle(Toggle(s, x), x)
    ensures x !in s ==> Toggle(Toggle(s, x), x) == s
  {
    if x !in s {
      var t := s + [x];
      assert Toggle(s, x) == t;
      NotInFilterKeepsAll(s, x);
      FilterAppend(s, [x], y => y != x);
      assert Filter([x], y => y != x) == [];
    }
  }

  lemma {:induction false} NotInFilterKeepsAll<T>(s: seq<T>, x: T)
    requires x !in s
    ensures Filter(s, y => y != x) == s
  {
    FilterKeepsAll(s, y => y != x);
  }

  /** The elements of `s` whose key is `k`, in order. */
  function Matching<T, K(==)>(s: seq<T>, key: T -> K, k: K): (r: seq<T>)
    ensures forall x :: x in r ==> x in s && key(x) == k
    ensures forall x :: x in s && key(x) == k ==> x in r
  {
    if s == [] then [] else (if key(s[0]) == k then [s[0]] else []) + Matching(s[1..], key, k)
  }

  /** A key's group is the filter by that key, so it keeps input order. */
  lemma {:induction false} MatchingIsFilter<T, K>(s: seq<T>, key: T -> K, k: K, p: T -> bool)
    requires forall x :: p(x) == (key(x) == k)
    ensures Matching(s, key, k) == Filter(s, p)
    ensures IsSubsequence(Matching(s, key, k), s)
  {
    if s != [] {
      MatchingIsFilter(s[1..], key, k, p);
    }
    FilterIsSubsequence(s, p);
  }

  lemma {:induction false} MatchingSnoc<T, K>(s: seq<T>, x: T, key: T -> K, k: K)
    ensures Matching(s + [x], key, k) == Matching(s, key, k) + (if key(x) == k then [x] else [])
  {
    if s == [] {
      assert [x][1..] == [];
    } else {
      assert (s + [x])[1..] == s[1..] + [x];
      MatchingSnoc(s[1..], x, key, k);
    }
  }

  /** The grouping loop `forEach(x => { if (!map[k]) map[k] = []; map[k].push(x) })`:
      every key of the result comes from some element, and each key's list is
      exactly the elements with that key, in input order (so every element is
      placed once, under its own key). A missing key reads as `|| []`. */
  method GroupBy<T, K(==)>(s: seq<T>, key: T -> K) returns (m: map<K, seq<T>>)
    ensures forall k :: k in m ==> m[k] == Matching(s, key, k) && m[k] != []
    ensures forall k :: k !in m ==> Matching(s, key, k) == []
  {
    m := map[];
    var i := 0;
    while i < |s|
      invariant 0 <= i <= |s|
      invariant forall k :: k in m ==> m[k] == Matching(s[..i], key, k) && m[k] != []
      invariant forall k :: k !in m ==> Matching(s[..i], key, k) == []
    {
      var k := key(s[i]);
      assert s[..i + 1] == s[..i] + [s[i]];
      ghost var m0 := m;
      if k in m {
        m := m[k := m[k] + [s[i]]];
      } else {
        m := m[k := [s[i]]];
      }
      forall k' | k' in m ensures m[k'] == Matching(s[..i + 1], key, k') && m[k'] != [] {
        MatchingSnoc(s[..i], s[i], key, k');
        assert Matching(s[..i + 1], key, k') == Matching(s[..i], key, k') + (if key(s[i]) == k' then [s[i]] else []);
        if k' != k {
          assert k' in m0 && m[k'] == m0[k'];
        } else if k in m0 {
          assert m0[k] == Matching(s[..i], key, k);
          assert m[k] == m0[k] + [s[i]];
        } else {
          assert Matching(s[..i], key, k) == [];
          assert m[k] == [s[i]];
        }
      }
      forall k' | k' !in m ensures Matching(s[..i + 1], key, k') == [] {
        MatchingSnoc(s[..i], s[i], key, k');
      }
      i := i + 1;
    }
    assert s[..i] == s;
  }
}

=== FILE: records.dfy ===
/** The rows the pages read from the backend tables, as the pages see them
    (joined names included), and the JavaScript value conventions the pages
    apply to their nullable text fields. */
module Records {
  import opened Lists
  import opened Text

  type Id = string

  /** JavaScript truthiness of a nullable text field: null and '' are falsy. */
  predicate Truthy(s: Option<string>)
  {
    s.Some? && s.value != ""
  }

  /** `s || ''`. */
  function OrEmpty(s: Option<string>): (r: string)
    ensures Truthy(s) ==> r == s.value
    ensures !Truthy(s) ==> r == ""
  {
    if Truthy(s) then s.value else ""
  }

  /** `s || null` on a form field. */
  function NullIfEmpty(s: string): (r: Option<string>)
    ensures r.None? <==> s == ""
    ensures r.Some? ==> r.value == s
  {
    if s == "" then None else Some(s)
  }

  /** `field?.toLowerCase().includes(query.toLowerCase())`: a nullable text
      field contains the query, ignoring case; a null field never does. */
  predicate FieldMatches(field: Option<string>, query: string)
  {
    field.Some? && MatchesCI(field.value, query)
  }

  /** The two conversions undo each other: a form string survives the trip
      to a nullable column and back, and a truthy column value survives the
      trip to the form and back. */
  lemma NullIfEmptyRoundTrip(s: string, o: Option<string>)
    ensures OrEmpty(NullIfEmpty(s)) == s
    ensures Truthy(o) ==> NullIfEmpty(OrEmpty(o)) == o
    ensures !Truthy(o) ==> NullIfEmpty(OrEmpty(o)) == None
  {
  }

  /** A stored timestamp: its ISO text and the instant it denotes, in
      milliseconds (parsing the text is outside the model). */
  datatype Instant = Instant(text: string, ms: int)

  /** A local date and time of day; `day` is a serial day number. */
  datatype DateTime = DateTime(day: int, hour: int, minute: int, second: int, millisecond: int)

  /** A row of `tarefas` with the joined `clientes(nome, telefone)` and
      `funcionarios(nome)` columns flattened into it. */
  datatype Tarefa = Tarefa(
    id: Id,
    descricao: string,
    clienteId: Option<Id>,
    tipoTarefaId: Option<Id>,
    funcionarioId: Option<Id>,
    dataPrazo: Option<string>,
    horaInicio: Option<string>,
    horaFim: Option<string>,
    local: Option<string>,
    linkGaleria: Option<string>,
    deadlineEntrega: Option<Instant>,
    realizado: bool,
    observacoes: Option<string>,
    createdAt: Option<Instant>,
    clienteNome: Option<string>,
    clienteTelefone: Option<string>,
    funcionarioNome: Option<string>)

  /** `!!tarefa.deadline_entrega`. */
  predicate HasDeadline(t: Tarefa)
  {
    t.deadlineEntrega.Some? && t.deadlineEntrega.value.text != ""
  }

  /** The deadline as the deadline engine receives it: absent when falsy. */
  function DeadlineMs(t: Tarefa): (r: Option<int>)
    ensures r.Some? <==> HasDeadline(t)
  {
    if HasDeadline(t) then Some(t.deadlineEntrega.value.ms) else None
  }

  datatype Cliente = Cliente(
    id: Id,
    nome: string,
    email: Option<string>,
    telefone: Option<string>,
    empresa: Option<string>,
    notas: Option<string>)

  datatype Funcionario = Funcionario(
    id: Id,
    nome: string,
    email: Option<string>,
    telefone: Option<string>,
    cargo: Option<string>,
    cor: Option<string>)

  datatype TipoTarefa = TipoTarefa(id: Id, nome: string, cor: Option<string>, icone: Option<string>)

  /** A row of `cronograma_posts`. */
  datatype Post = Post(id: Id, clienteId: Id, status: string, dataAgendada: DateTime)

  /** A write sent through the mutation hook: the record sent, or the id
      removed. */
  datatype Mutation<R> = Insert(record: R) | Update(id: Id, record: R) | Remove(removed: Id)
}

=== FILE: social_media.dfy ===
/** The social-media schedule page: the bulk generator that expands a date
    range, a weekday mask and a list of networks into planned post records,
    its preview line, the status/client post filter, the grouping of posts
    by month, and the network and weekday toggles of the form. Dates are
    serial day numbers; a record's schedule is a local date and time. */
module SocialMedia {
  import opened Lists
  import opened Text
  import opened Records
  import opened Dates

  /** The bulk form as the page holds it. */
  datatype BulkForm = BulkForm(
    clienteId: Id,
    redes: seq<string>,
    tipoPost: string,
    responsavelId: string,
    horario: string,
    dataInicio: string,
    dataFim: string,
    diasSemana: seq<int>)

  /** The form the page starts with and returns to after a successful
      creation: a Reel at 10:00 on Mondays, Wednesdays and Fridays. */
  const INITIAL_FORM := BulkForm("", [], "Reel", "", "10:00", "", "", [1, 3, 5])

  /** A row sent to `cronograma_posts`. */
  datatype PostRecord = PostRecord(
    clienteId: Id,
    tipoPost: string,
    redeSocial: seq<string>,
    dataAgendada: DateTime,
    responsavelId: Option<Id>,
    status: string,
    titulo: string,
    legenda: Option<string>,
    linkMidia: Option<string>)

  /** What every record of one bulk creation shares. */
  datatype Template = Template(
    clienteId: Id, tipoPost: string, responsavelId: Option<Id>, clienteNome: string,
    hour: int, minute: int)

  /** The record for one day and one network. */
  function MakeRecord(tp: Template, day: int, rede: string): (r: PostRecord)
    ensures r.clienteId == tp.clienteId && r.tipoPost == tp.tipoPost && r.redeSocial == [rede]
    ensures r.dataAgendada == DateTime(day, tp.hour, tp.minute, 0, 0)
    ensures r.responsavelId == tp.responsavelId
    ensures r.status == "Planejado" && r.legenda.None? && r.linkMidia.None?
    ensures r.titulo == "[" + rede + "] " + tp.tipoPost + " - " + tp.clienteNome
  {
    PostRecord(tp.clienteId, tp.tipoPost, [rede], DateTime(day, tp.hour, tp.minute, 0, 0),
      tp.responsavelId, "Planejado", "[" + rede + "] " + tp.tipoPost + " - " + tp.clienteNome, None, None)
  }

  /** The records of one day, one per network in form order. */
  function DayRecords(tp: Template, day: int, redes: seq<string>): (r: seq<PostRecord>)
    ensures |r| == |redes|
    ensures forall j :: 0 <= j < |redes| ==> r[j] == MakeRecord(tp, day, redes[j])
  {
    seq(|redes|, j requires 0 <= j < |redes| => MakeRecord(tp, day, redes[j]))
  }

  /** The full expansion: the day groups one after another. */
  function Expand(tp: Template, days: seq<int>, redes: seq<string>): (r: seq<PostRecord>)
    ensures |r| == |days| * |redes|
  {
    if days == [] then []
    else
      MulStep(|days| - 1, |redes|);
      Expand(tp, days[..|days| - 1], redes) + DayRecords(tp, days[|days| - 1], redes)
  }

  lemma MulStep(a: int, b: int)
    ensures (a + 1) * b == a * b + b
  {
  }

  /** The record at slot `i * |redes| + j` is the one for day `i` and
      network `j`. */
  lemma {:induction false} ExpandSlot(tp: Template, days: seq<int>, redes: seq<string>, i: int, j: int)
    requires 0 <= i < |days| && 0 <= j < |redes|
    ensures 0 <= Slot(i, j, |redes|) < |days| * |redes|
    ensures Expand(tp, days, redes)[Slot(i, j, |redes|)] == MakeRecord(tp, days[i], redes[j])
    decreases |days|
  {
    var n := |days| - 1;
    var init := days[..n];
    var prefix, last := Expand(tp, init, redes), DayRecords(tp, days[n], redes);
    MulStep(n, |redes|);
    assert Expand(tp, days, redes) == prefix + last;
    assert 0 <= i * |redes|;
    if i < n {
      ExpandSlot(tp, init, redes, i, j);
      MulMonoStrict(i, n, |redes|);
      assert init[i] == days[i];
    } else {
      assert i * |redes| == n * |redes|;
      assert Expand(tp, days, redes)[Slot(i, j, |redes|)] == last[j];
    }
  }

  /** One record per (day, network) pair, day-major: the record at
      `i * |redes| + j` is the one for day `i` and network `j`. */
  lemma ExpandAt(tp: Template, days: seq<int>, redes: seq<string>)
    ensures |Expand(tp, days, redes)| == |days| * |redes|
    ensures forall i, j :: 0 <= i < |days| && 0 <= j < |redes| ==>
      0 <= Slot(i, j, |redes|) < |days| * |redes|
      && Expand(tp, days, redes)[Slot(i, j, |redes|)] == MakeRecord(tp, days[i], redes[j])
  {
    forall i, j | 0 <= i < |days| && 0 <= j < |redes|
      ensures 0 <= Slot(i, j, |redes|) < |days| * |redes|
      ensures Expand(tp, days, redes)[Slot(i, j, |redes|)] == MakeRecord(tp, days[i], redes[j])
    {
      ExpandSlot(tp, days, redes, i, j);
    }
  }

  lemma {:induction false} MulMonoStrict(i: int, n: int, k: int)
    requires 0 <= i < n && 0 <= k
    ensures i * k + k <= n * k
    decreases n - i
  {
    MulStep(i, k);
    if i + 1 < n {
      MulMonoStrict(i + 1, n, k);
      MulStep(i + 1, k);
    }
  }

  /** Every record is the record of one of the days for one of the
      networks, with the shared fields of the template. */
  lemma {:induction false} ExpandMembers(tp: Template, days: seq<int>, redes: seq<string>)
    ensures forall r :: r in Expand(tp, days, redes) ==>
      exists i, j :: 0 <= i < |days| && 0 <= j < |redes| && r == MakeRecord(tp, days[i], redes[j])
    decreases |days|
  {
    if days != [] {
      var n := |days| - 1;
      var init := days[..n];
      ExpandMembers(tp, init, redes);
      forall r | r in Expand(tp, days, redes)
        ensures exists i, j :: 0 <= i < |days| && 0 <= j < |redes| && r == MakeRecord(tp, days[i], redes[j])
      {
        if r in Expand(tp, init, redes) {
          var i, j :| 0 <= i < |init| && 0 <= j < |redes| && r == MakeRecord(tp, init[i], redes[j]);
          assert days[i] == init[i];
        } else {
          var dr := DayRecords(tp, days[n], redes);
          assert r in dr;
          var j :| 0 <= j < |dr| && dr[j] == r;
          assert r == MakeRecord(tp, days[n], redes[j]);
        }
      }
    }
  }

  /** The bulk generation loop: for each selected day, for each network,
      push a record. */
  method GenerateRecords(tp: Template, days: seq<int>, redes: seq<string>) returns (records: seq<PostRecord>)
    ensures records == Expand(tp, days, redes)
  {
    records := [];
    var i := 0;
    while i < |days|
      invariant 0 <= i <= |days|
      invariant records == Expand(tp, days[..i], redes)
    {
      var j := 0;
      while j < |redes|
        invariant 0 <= j <= |redes|
        invariant records == Expand(tp, days[..i], redes) + DayRecords(tp, days[i], redes)[..j]
      {
        records := records + [MakeRecord(tp, days[i], redes[j])];
        j := j + 1;
      }
      assert DayRecords(tp, days[i], redes)[..j] == DayRecords(tp, days[i], redes);
      assert days[..i + 1][..i] == days[..i];
      i := i + 1;
    }
    assert days[..i] == days;
  }

  /** `'HH:mm'` split at ':' into hours and minutes, as the time input
      produces it; anything else yields no valid time. */
  function ParseTime(h: string): (r: Option<(int, int)>)
    ensures r.Some? ==> 0 <= r.value.0 <= 23 && 0 <= r.value.1 <= 59
  {
    if |h| == 5 && h[2] == ':' && IsDigit(h[0]) && IsDigit(h[1]) && IsDigit(h[3]) && IsDigit(h[4]) then
      var hh, mm := ParseNat(h[0..2]), ParseNat(h[3..5]);
      if hh <= 23 && mm <= 59 then Some((hh, mm)) else None
    else None
  }

  /** The days of `[lo, hi]` whose weekday is selected, in order. */
  function SelectedDays(lo: int, hi: int, dias: seq<int>): (r: seq<int>)
    ensures forall d :: d in r <==> lo <= d <= hi && Weekday(d) in dias
  {
    var all := EachDay(lo, hi);
    var r := Filter(all, d => Weekday(d) in dias);
    forall d | lo <= d <= hi && Weekday(d) in dias ensures d in r {
      assert all[d - lo] == d;
    }
    r
  }

  /** The selected days are increasing, so records come in date order. */
  lemma {:induction false} SelectedDaysIncrease(lo: int, hi: int, dias: seq<int>)
    ensures forall i, j :: 0 <= i < j < |SelectedDays(lo, hi, dias)| ==>
      SelectedDays(lo, hi, dias)[i] < SelectedDays(lo, hi, dias)[j]
  {
    var all := EachDay(lo, hi);
    forall i, j | 0 <= i < j < |all| ensures all[i] < all[j] {
      assert all[i] == lo + i && all[j] == lo + j;
    }
    FilterIncreasing(all, d => Weekday(d) in dias);
  }

  lemma {:induction false} FilterIncreasing(s: seq<int>, p: int -> bool)
    requires forall i, j :: 0 <= i < j < |s| ==> s[i] < s[j]
    ensures forall i, j :: 0 <= i < j < |Filter(s, p)| ==> Filter(s, p)[i] < Filter(s, p)[j]
  {
    if s != [] {
      var tail := s[1..];
      FilterIncreasing(tail, p);
      var rest := Filter(tail, p);
      if p(s[0]) {
        var r := Filter(s, p);
        assert r == [s[0]] + rest;
        forall j | 0 <= j < |rest| ensures s[0] < rest[j] {
          FilterAbove(tail, p, s[0], rest[j]);
        }
        forall i, j | 0 <= i < j < |r| ensures r[i] < r[j] {
          assert r[j] == rest[j - 1];
          if i > 0 {
            assert r[i] == rest[i - 1];
          }
        }
      } else {
        assert Filter(s, p) == rest;
      }
    }
  }

  /** An element kept from the tail of an increasing sequence lies above
      its head. */
  lemma FilterAbove(tail: seq<int>, p: int -> bool, head: int, x: int)
    requires forall i :: 0 <= i < |tail| ==> head < tail[i]
    requires x in Filter(tail, p)
    ensures head < x
  {
    assert x in tail;
  }

  /** What one press of "Gerar Planejamento" does. */
  datatype BulkOutcome =
    | MissingFields            // 'Preencha todos os campos obrigatórios.'
    | StartAfterEnd            // 'A Data de Início deve ser anterior à Data Fim.'
    | NoMatchingDays           // 'Nenhum dia corresponde ...'
    | Threw                    // an invalid date or time: the interval or the ISO conversion throws
    | Sent(records: seq<PostRecord>)  // the insert is called with these records

  /** The name of the selected client, or '' when it is not found. */
  function ClienteNome(clientes: seq<Cliente>, id: Id): (r: string)
    ensures (forall c :: c in clientes ==> c.id != id) ==> r == ""
    ensures forall i :: 0 <= i < |clientes| && clientes[i].id == id
                        && (forall j :: 0 <= j < i ==> clientes[j].id != id)
                        ==> r == clientes[i].nome
  {
    forall i | 0 <= i < |clientes| && clientes[i].id == id && (forall j :: 0 <= j < i ==> clientes[j].id != id)
      ensures Find(clientes, (c: Cliente) => c.id == id) == Some(clientes[i])
    {
      FindFirst(clientes, (c: Cliente) => c.id == id, i);
    }
    match Find(clientes, (c: Cliente) => c.id == id)
    case Some(c) => c.nome
    case None => ""
  }

  /** The generation as a function of the form and the client list. */
  function Plan(f: BulkForm, clientes: seq<Cliente>): (r: BulkOutcome)
    ensures r == MissingFields <==>
      (f.clienteId == "" || f.dataInicio == "" || f.dataFim == "" || |f.redes| == 0 || |f.diasSemana| == 0)
    ensures r == StartAfterEnd ==> (ParseDate(f.dataInicio).Some? && ParseDate(f.dataFim).Some?
      && ToDay(ParseDate(f.dataInicio).value) > ToDay(ParseDate(f.dataFim).value))
    ensures r == NoMatchingDays ==> (ParseDate(f.dataInicio).Some? && ParseDate(f.dataFim).Some?
      && SelectedDays(ToDay(ParseDate(f.dataInicio).value), ToDay(ParseDate(f.dataFim).value), f.diasSemana) == [])
    ensures r == Threw ==> ParseDate(f.dataInicio).None? || ParseDate(f.dataFim).None? || ParseTime(f.horario).None?
    ensures r.Sent? ==> (ParseDate(f.dataInicio).Some? && ParseDate(f.dataFim).Some? && ParseTime(f.horario).Some?
      && ToDay(ParseDate(f.dataInicio).value) <= ToDay(ParseDate(f.dataFim).value))
  {
    if f.clienteId == "" || f.dataInicio == "" || f.dataFim == "" || |f.redes| == 0 || |f.diasSemana| == 0 then
      MissingFields
    else
      var start, end := ParseDate(f.dataInicio), ParseDate(f.dataFim);
      if start.None? || end.None? then Threw
      else if ToDay(start.value) > ToDay(end.value) then StartAfterEnd
      else
        var days := SelectedDays(ToDay(start.value), ToDay(end.value), f.diasSemana);
        var time := ParseTime(f.horario);
        if days == [] then NoMatchingDays
        else if time.None? then Threw
        else
          Sent(Expand(Template(f.clienteId, f.tipoPost, NullIfEmpty(f.responsavelId),
            ClienteNome(clientes, f.clienteId), time.value.0, time.value.1), days, f.redes))
  }

  /** No record is produced while a required field is missing. */
  lemma PlanNeedsFields(f: BulkForm, clientes: seq<Cliente>)
    requires f.clienteId == "" || f.dataInicio == "" || f.dataFim == "" || |f.redes| == 0 || |f.diasSemana| == 0
    ensures Plan(f, clientes) == MissingFields
  {
  }

  /** The days, time and template a sent plan was built from. */
  lemma PlanParts(f: BulkForm, clientes: seq<Cliente>)
    returns (lo: int, hi: int, days: seq<int>, tp: Template)
    requires Plan(f, clientes).Sent?
    ensures ParseDate(f.dataInicio).Some? && ParseDate(f.dataFim).Some? && ParseTime(f.horario).Some?
    ensures lo == ToDay(ParseDate(f.dataInicio).value) && hi == ToDay(ParseDate(f.dataFim).value) && lo <= hi
    ensures days == SelectedDays(lo, hi, f.diasSemana) && days != []
    ensures tp == Template(f.clienteId, f.tipoPost, NullIfEmpty(f.responsavelId), ClienteNome(clientes, f.clienteId),
      ParseTime(f.horario).value.0, ParseTime(f.horario).value.1)
    ensures Plan(f, clientes).records == Expand(tp, days, f.redes)
  {
    lo, hi := ToDay(ParseDate(f.dataInicio).value), ToDay(ParseDate(f.dataFim).value);
    days := SelectedDays(lo, hi, f.diasSemana);
    var t := ParseTime(f.horario).value;
    tp := Template(f.clienteId, f.tipoPost, NullIfEmpty(f.responsavelId), ClienteNome(clientes, f.clienteId), t.0, t.1);
  }

  /** `records` holds one record per (day, network) pair in day-major
      order: the record for the `i`-th day and the `j`-th network sits at
      `i * |redes| + j`. */
  ghost predicate DayMajor(records: seq<PostRecord>, days: seq<int>, redes: seq<string>)
  {
    |records| == |days| * |redes|
    && forall i, j :: 0 <= i < |days| && 0 <= j < |redes| ==>
         0 <= Slot(i, j, |redes|) < |records|
         && records[Slot(i, j, |redes|)].dataAgendada.day == days[i]
         && records[Slot(i, j, |redes|)].redeSocial == [redes[j]]
  }

  /** The position of the `j`-th network of the `i`-th day. */
  function Slot(i: int, j: int, width: int): int
  {
    i * width + j
  }

  /** When records are sent there are (selected days) x (networks) of them,
      at least one, in day-major order. */
  lemma PlanCountAndOrder(f: BulkForm, clientes: seq<Cliente>) returns (days: seq<int>)
    requires Plan(f, clientes).Sent?
    ensures days == SelectedDays(ToDay(ParseDate(f.dataInicio).value), ToDay(ParseDate(f.dataFim).value), f.diasSemana)
    ensures |Plan(f, clientes).records| > 0
    ensures DayMajor(Plan(f, clientes).records, days, f.redes)
  {
    var lo, hi, ds, tp := PlanParts(f, clientes);
    days := ds;
    ExpandDayMajor(tp, days, f.redes);
    MulMonoStrict(0, |days|, |f.redes|);
  }

  lemma ExpandDayMajor(tp: Template, days: seq<int>, redes: seq<string>)
    ensures DayMajor(Expand(tp, days, redes), days, redes)
  {
    var e := Expand(tp, days, redes);
    ExpandAt(tp, days, redes);
    forall i, j | 0 <= i < |days| && 0 <= j < |redes|
      ensures 0 <= Slot(i, j, |redes|) < |e|
        && e[Slot(i, j, |redes|)].dataAgendada.day == days[i]
        && e[Slot(i, j, |redes|)].redeSocial == [redes[j]]
    {
      assert e[Slot(i, j, |redes|)] == MakeRecord(tp, days[i], redes[j]);
    }
  }

  /** Every sent record lies on a selected weekday inside the range, at the
      form's time with zero seconds, for the form's client and post type,
      'Planejado', without caption or media link, with the responsible
      person or null, for a single network of the form, titled
      '[rede] tipo - clienteNome'. */
  lemma PlanRecordFields(f: BulkForm, clientes: seq<Cliente>, r: PostRecord)
    requires Plan(f, clientes).Sent? && r in Plan(f, clientes).records
    ensures var lo, hi := ToDay(ParseDate(f.dataInicio).value), ToDay(ParseDate(f.dataFim).value);
      lo <= r.dataAgendada.day <= hi && Weekday(r.dataAgendada.day) in f.diasSemana
    ensures var t := ParseTime(f.horario).value;
      r.dataAgendada == DateTime(r.dataAgendada.day, t.0, t.1, 0, 0)
    ensures r.clienteId == f.clienteId && r.tipoPost == f.tipoPost
    ensures r.status == "Planejado" && r.legenda.None? && r.linkMidia.None?
    ensures r.responsavelId == NullIfEmpty(f.responsavelId)
    ensures |r.redeSocial| == 1 && r.redeSocial[0] in f.redes
    ensures r.titulo == "[" + r.redeSocial[0] + "] " + f.tipoPost + " - " + ClienteNome(clientes, f.clienteId)
  {
    var lo, hi, days, tp := PlanParts(f, clientes);
    ExpandMembers(tp, days, f.redes);
    var i, j :| 0 <= i < |days| && 0 <= j < |f.redes| && r == MakeRecord(tp, days[i], f.redes[j]);
    assert days[i] in days;
  }

  /** The preview line under the form. */
  datatype Preview =
    | FillPrompt                    // 'Preencha os campos para ver o preview'
    | InvalidRange                  // 'Datas inválidas'
    | WillCreate(days: nat, redes: nat)  // 'Serão criados days*redes posts (...)'
    | Blank                         // an invalid date makes the interval throw

  function PreviewOf(f: BulkForm): (r: Preview)
    ensures r == FillPrompt <==> (f.dataInicio == "" || f.dataFim == "" || |f.diasSemana| == 0 || |f.redes| == 0)
    ensures r == Blank ==> ParseDate(f.dataInicio).None? || ParseDate(f.dataFim).None?
    ensures r == InvalidRange ==> (ParseDate(f.dataInicio).Some? && ParseDate(f.dataFim).Some?
      && ToDay(ParseDate(f.dataInicio).value) > ToDay(ParseDate(f.dataFim).value))
    ensures r.WillCreate? ==> (r.redes == |f.redes| > 0 && ParseDate(f.dataInicio).Some? && ParseDate(f.dataFim).Some?
      && r.days <= ToDay(ParseDate(f.dataFim).value) - ToDay(ParseDate(f.dataInicio).value) + 1)
  {
    if f.dataInicio == "" || f.dataFim == "" || |f.diasSemana| == 0 || |f.redes| == 0 then FillPrompt
    else
      var start, end := ParseDate(f.dataInicio), ParseDate(f.dataFim);
      if start.None? || end.None? then Blank
      else if ToDay(start.value) > ToDay(end.value) then InvalidRange
      else WillCreate(|SelectedDays(ToDay(start.value), ToDay(end.value), f.diasSemana)|, |f.redes|)
  }

  /** The preview announces exactly as many posts as the generator sends. */
  lemma PreviewCountsRecords(f: BulkForm, clientes: seq<Cliente>)
    requires Plan(f, clientes).Sent?
    ensures PreviewOf(f).WillCreate?
    ensures PreviewOf(f).days * PreviewOf(f).redes == |Plan(f, clientes).records|
  {
    var days := PlanCountAndOrder(f, clientes);
  }

  /** Conversely, a filled form whose preview announces posts sends them,
      provided a client is chosen and the time is well formed. */
  lemma PreviewPromisesRecords(f: BulkForm, clientes: seq<Cliente>)
    requires PreviewOf(f).WillCreate? && PreviewOf(f).days > 0
    requires f.clienteId != "" && ParseTime(f.horario).Some?
    ensures Plan(f, clientes).Sent?
    ensures |Plan(f, clientes).records| == PreviewOf(f).days * PreviewOf(f).redes
  {
    var days := PlanCountAndOrder(f, clientes);
  }

  /** `filteredPosts`: a set filter must match exactly. */
  predicate PostPasses(p: Post, filterStatus: string, filterCliente: string)
  {
    (filterStatus == "" || p.status == filterStatus)
    && (filterCliente == "" || p.clienteId == filterCliente)
  }

  function FilterPosts(posts: seq<Post>, filterStatus: string, filterCliente: string): (r: seq<Post>)
    ensures forall p :: p in r <==> p in posts && PostPasses(p, filterStatus, filterCliente)
    ensures IsSubsequence(r, posts)
    ensures filterStatus == "" && filterCliente == "" ==> r == posts
  {
    var keep := p => PostPasses(p, filterStatus, filterCliente);
    FilterIsSubsequence(posts, keep);
    assert filterStatus == "" && filterCliente == "" ==> Filter(posts, keep) == posts by {
      if filterStatus == "" && filterCliente == "" {
        FilterKeepsAll(posts, keep);
      }
    }
    Filter(posts, keep)
  }

  /** `format(parseISO(p.data_agendada), 'yyyy-MM')`: a post's month key. */
  function MonthKey(p: Post): (r: string)
    ensures var d := FromDay(p.dataAgendada.day);
      0 <= d.year <= 9999 ==> (|r| == 7 && r[4] == '-'
        && (forall i :: 0 <= i < 7 && i != 4 ==> IsDigit(r[i]))
        && ParseNat(r[..4]) == d.year && ParseNat(r[5..]) == d.month)
  {
    var d := FromDay(p.dataAgendada.day);
    if 0 <= d.year <= 9999 then
      DigitsLength(d.year, 4);
      DigitsLength(d.month, 2);
      ParseDigits(d.year, 4);
      ParseDigits(d.month, 2);
      var r := FormatMonth(d);
      assert r[..4] == Digits(d.year, 4);
      assert r[5..] == Digits(d.month, 2);
      r
    else FormatMonth(d)
  }

  /** A post's month key is the first seven characters of its day key. */
  lemma MonthKeyOfDayKey(p: Post)
    requires 0 <= FromDay(p.dataAgendada.day).year <= 9999
    ensures MonthKey(p) == FormatDate(FromDay(p.dataAgendada.day))[..7]
  {
    FormatMonthPrefix(FromDay(p.dataAgendada.day));
  }

  /** `postsByMonth`: every filtered post under its month key, in order. */
  method PostsByMonth(filtered: seq<Post>) returns (m: map<string, seq<Post>>)
    ensures forall k :: k in m ==> m[k] == Matching(filtered, MonthKey, k) && m[k] != []
    ensures forall k :: k !in m ==> Matching(filtered, MonthKey, k) == []
  {
    m := GroupBy(filtered, MonthKey);
  }

  /** The validation and generation steps of `handleBulkCreate`, up to the
      insert call. */
  method BuildRecords(f: BulkForm, clientes: seq<Cliente>) returns (outcome: BulkOutcome)
    ensures outcome == Plan(f, clientes)
  {
    if f.clienteId == "" || f.dataInicio == "" || f.dataFim == "" || |f.redes| == 0 || |f.diasSemana| == 0 {
      return MissingFields;
    }
    var start, end := ParseDate(f.dataInicio), ParseDate(f.dataFim);
    if start.None? || end.None? {
      return Threw;
    }
    var lo, hi := ToDay(start.value), ToDay(end.value);
    if lo > hi {
      return StartAfterEnd;
    }
    var days := SelectedDays(lo, hi, f.diasSemana);
    if days == [] {
      return NoMatchingDays;
    }
    var time := ParseTime(f.horario);
    if time.None? {
      return Threw;
    }
    var tp := Template(f.clienteId, f.tipoPost, NullIfEmpty(f.responsavelId),
      ClienteNome(clientes, f.clienteId), time.value.0, time.value.1);
    var records := GenerateRecords(tp, days, f.redes);
    outcome := Sent(records);
  }

  /** The page: the bulk form, its visibility, and the post filters. */
  class SocialMediaPage {
    var showForm: bool
    var filterStatus: string
    var filterCliente: string
    var formClienteId: Id
    var formRedes: seq<string>
    var formTipoPost: string
    var formResponsavelId: string
    var formHorario: string
    var formDataInicio: string
    var formDataFim: string
    var formDiasSemana: seq<int>

    function Form(): BulkForm
      reads this
    {
      BulkForm(formClienteId, formRedes, formTipoPost, formResponsavelId, formHorario,
        formDataInicio, formDataFim, formDiasSemana)
    }

    constructor()
      ensures Form() == INITIAL_FORM && !showForm && filterStatus == "" && filterCliente == ""
    {
      showForm, filterStatus, filterCliente := false, "", "";
      formClienteId, formRedes, formTipoPost, formResponsavelId := "", [], "Reel", "";
      formHorario, formDataInicio, formDataFim, formDiasSemana := "10:00", "", "", [1, 3, 5];
    }

    /** `toggleRede`. */
    method ToggleRede(rede: string)
      modifies this
      ensures Form() == old(Form()).(redes := Toggle(old(formRedes), rede))
      ensures showForm == old(showForm) && filterStatus == old(filterStatus) && filterCliente == old(filterCliente)
    {
      formRedes := Toggle(formRedes, rede);
    }

    /** `toggleDia`. */
    method ToggleDia(dia: int)
      modifies this
      ensures Form() == old(Form()).(diasSemana := Toggle(old(formDiasSemana), dia))
      ensures showForm == old(showForm) && filterStatus == old(filterStatus) && filterCliente == old(filterCliente)
    {
      formDiasSemana := Toggle(formDiasSemana, dia);
    }

    /** `handleBulkCreate`: validates, generates and sends the records; when
        the insert succeeds (`insertFailed` false) the form is reset and
        closed, otherwise everything stays as it was. */
    method HandleBulkCreate(clientes: seq<Cliente>, insertFailed: bool) returns (outcome: BulkOutcome)
      modifies this
      ensures outcome == Plan(old(Form()), clientes)
      ensures outcome.Sent? && !insertFailed ==> Form() == INITIAL_FORM && !showForm
      ensures !(outcome.Sent? && !insertFailed) ==> Form() == old(Form()) && showForm == old(showForm)
      ensures filterStatus == old(filterStatus) && filterCliente == old(filterCliente)
    {
      outcome := BuildRecords(Form(), clientes);
      Finish(outcome.Sent? && !insertFailed);
    }

    /** After the insert: a successful one resets and closes the form. */
    method Finish(succeeded: bool)
      modifies this
      ensures succeeded ==> Form() == INITIAL_FORM && !showForm
      ensures !succeeded ==> Form() == old(Form()) && showForm == old(showForm)
      ensures filterStatus == old(filterStatus) && filterCliente == old(filterCliente)
    {
      if succeeded {
        formClienteId, formRedes, formTipoPost, formResponsavelId := "", [], "Reel", "";
        formHorario, formDataInicio, formDataFim, formDiasSemana := "10:00", "", "", [1, 3, 5];
        showForm := false;
      }
    }
  }
}

=== FILE: sorting.dfy ===
/** `Array.prototype.sort(compare)` as the pages use it: an in-place sort
    under a comparator. A comparator `cmp` is modelled by the relation
    `le(a, b) := cmp(a, b) <= 0`; the pages' comparators are total preorders. */
module Sorting {

  ghost predicate TotalPreorder<T(!new)>(le: (T, T) -> bool)
  {
    (forall a, b :: le(a, b) || le(b, a))
    && (forall a, b, c :: le(a, b) && le(b, c) ==> le(a, c))
  }

  predicate SortedBy<T>(s: seq<T>, le: (T, T) -> bool)
  {
    forall i, j :: 0 <= i < j < |s| ==> le(s[i], s[j])
  }

  /** Sorts `a` in place: afterwards it is ordered by `le` and holds the same
      elements as before. */
  method SortInPlace<T(!new)>(a: array<T>, le: (T, T) -> bool)
    requires TotalPreorder(le)
    modifies a
    ensures SortedBy(a[..], le)
    ensures multiset(a[..]) == multiset(old(a[..]))
  {
    var i := 0;
    while i < a.Length
      invariant 0 <= i <= a.Length
      invariant SortedBy(a[..i], le)
      invariant multiset(a[..]) == multiset(old(a[..]))
    {
      var j := i;
      while j > 0 && !le(a[j - 1], a[j])
        invariant 0 <= j <= i < a.Length
        invariant forall k, l :: 0 <= k < l <= i && l != j && k != j ==> le(a[k], a[l])
        invariant forall l :: j < l <= i ==> le(a[j], a[l])
        invariant multiset(a[..]) == multiset(old(a[..]))
        decreases j
      {
        a[j - 1], a[j] := a[j], a[j - 1];
        j := j - 1;
      }
      i := i + 1;
    }
  }
}

=== FILE: tarefa_modal.dfy ===
/** The task editor dialog of src/components/tarefas/TarefaModal.jsx: the
    form it fills from the task being edited (or from the clicked day), the
    field updates, the record it sends on submit and its two-click delete. */
module TarefaModal {
  import opened Lists
  import opened Records
  import opened Dates
  import opened Utils

  /** The form state: every input as the text it shows, plus the
      "realizado" checkbox. */
  datatype TaskForm = TaskForm(
    descricao: string,
    clienteId: string,
    tipoTarefaId: string,
    funcionarioId: string,
    dataPrazo: string,
    horaInicio: string,
    horaFim: string,
    local: string,
    linkGaleria: string,
    deadlineEntrega: string,
    realizado: bool,
    observacoes: string)

  const EMPTY_FORM := TaskForm("", "", "", "", "", "", "", "", "", "", false, "")

  /** The text inputs, by the name `handleChange` receives. */
  datatype TextField =
    | Descricao | ClienteId | TipoTarefaId | FuncionarioId | DataPrazo
    | HoraInicio | HoraFim | Local | LinkGaleria | DeadlineEntrega | Observacoes

  function TextOf(f: TaskForm, field: TextField): string
  {
    match field
    case Descricao => f.descricao
    case ClienteId => f.clienteId
    case TipoTarefaId => f.tipoTarefaId
    case FuncionarioId => f.funcionarioId
    case DataPrazo => f.dataPrazo
    case HoraInicio => f.horaInicio
    case HoraFim => f.horaFim
    case Local => f.local
    case LinkGaleria => f.linkGaleria
    case DeadlineEntrega => f.deadlineEntrega
    case Observacoes => f.observacoes
  }

  /** One `handleChange(field, value)` call: a text input or the checkbox. */
  datatype Change = SetText(field: TextField, text: string) | SetRealizado(checked: bool)

  /** `{ ...prev, [field]: value }`. */
  function Apply(f: TaskForm, c: Change): (r: TaskForm)
    ensures c.SetText? ==> TextOf(r, c.field) == c.text && r.realizado == f.realizado
    ensures c.SetText? ==> forall g :: g != c.field ==> TextOf(r, g) == TextOf(f, g)
    ensures c.SetRealizado? ==> r == f.(realizado := c.checked)
  {
    match c
    case SetRealizado(b) => f.(realizado := b)
    case SetText(field, v) =>
      match field
      case Descricao => f.(descricao := v)
      case ClienteId => f.(clienteId := v)
      case TipoTarefaId => f.(tipoTarefaId := v)
      case FuncionarioId => f.(funcionarioId := v)
      case DataPrazo => f.(dataPrazo := v)
      case HoraInicio => f.(horaInicio := v)
      case HoraFim => f.(horaFim := v)
      case Local => f.(local := v)
      case LinkGaleria => f.(linkGaleria := v)
      case DeadlineEntrega => f.(deadlineEntrega := v)
      case Observacoes => f.(observacoes := v)
  }

  /** A form is determined by its texts and its checkbox. */
  lemma FormExtensional(a: TaskForm, b: TaskForm)
    requires forall g :: TextOf(a, g) == TextOf(b, g)
    requires a.realizado == b.realizado
    ensures a == b
  {
    assert TextOf(a, Descricao) == TextOf(b, Descricao);
    assert TextOf(a, ClienteId) == TextOf(b, ClienteId);
    assert TextOf(a, TipoTarefaId) == TextOf(b, TipoTarefaId);
    assert TextOf(a, FuncionarioId) == TextOf(b, FuncionarioId);
    assert TextOf(a, DataPrazo) == TextOf(b, DataPrazo);
    assert TextOf(a, HoraInicio) == TextOf(b, HoraInicio);
    assert TextOf(a, HoraFim) == TextOf(b, HoraFim);
    assert TextOf(a, Local) == TextOf(b, Local);
    assert TextOf(a, LinkGaleria) == TextOf(b, LinkGaleria);
    assert TextOf(a, DeadlineEntrega) == TextOf(b, DeadlineEntrega);
    assert TextOf(a, Observacoes) == TextOf(b, Observacoes);
  }

  /** Typing a field's current text back into it changes nothing, and a
      later change to the same field overrides an earlier one. */
  lemma ApplyLaws(f: TaskForm, field: TextField, v: string, w: string)
    ensures Apply(f, SetText(field, TextOf(f, field))) == f
    ensures Apply(Apply(f, SetText(field, v)), SetText(field, w)) == Apply(f, SetText(field, w))
  {
    FormExtensional(Apply(f, SetText(field, TextOf(f, field))), f);
    FormExtensional(Apply(Apply(f, SetText(field, v)), SetText(field, w)), Apply(f, SetText(field, w)));
  }

  /** `s?.slice(0, n) || ''`: at most the first `n` characters of a present,
      non-empty text; '' otherwise. */
  function Prefix(s: Option<string>, n: nat): (r: string)
    ensures !Truthy(s) ==> r == ""
    ensures Truthy(s) ==> r <= s.value && |r| == (if |s.value| < n then |s.value| else n)
  {
    if !Truthy(s) then "" else s.value[..if |s.value| < n then |s.value| else n]
  }

  /** The times the editor shows are the ones the task lists show. */
  lemma FormTimeIsListTime(s: Option<string>)
    ensures Prefix(s, 5) == FormatTime(s)
  {
  }

  /** The initialisation effect: the edited task's values, with missing ones
      as '' or false, times cut to 'HH:mm' and the deadline to
      'yyyy-MM-ddTHH:mm'; for a new task an empty form dated on the clicked
      day (a serial day number), if any. */
  function InitialForm(tarefa: Option<Tarefa>, defaultDate: Option<int>): (r: TaskForm)
    ensures tarefa.Some? ==> var t := tarefa.value;
      && r.descricao == t.descricao
      && r.clienteId == OrEmpty(t.clienteId)
      && r.tipoTarefaId == OrEmpty(t.tipoTarefaId)
      && r.funcionarioId == OrEmpty(t.funcionarioId)
      && r.dataPrazo == OrEmpty(t.dataPrazo)
      && r.local == OrEmpty(t.local)
      && r.linkGaleria == OrEmpty(t.linkGaleria)
      && r.observacoes == OrEmpty(t.observacoes)
      && r.realizado == t.realizado
      && r.horaInicio == FormatTime(t.horaInicio)
      && r.horaFim == FormatTime(t.horaFim)
      && (HasDeadline(t) ==> r.deadlineEntrega <= t.deadlineEntrega.value.text
                             && |r.deadlineEntrega| == Min16(|t.deadlineEntrega.value.text|))
      && (!HasDeadline(t) ==> r.deadlineEntrega == "")
    ensures tarefa.None? ==> r.(dataPrazo := "") == EMPTY_FORM
    ensures tarefa.None? && defaultDate.None? ==> r.dataPrazo == ""
    ensures tarefa.None? && defaultDate.Some? && 0 <= FromDay(defaultDate.value).year <= 9999 ==>
      ParseDate(r.dataPrazo).Some? && ToDay(ParseDate(r.dataPrazo).value) == defaultDate.value
  {
    match tarefa
    case Some(t) =>
      TaskForm(
        t.descricao,
        OrEmpty(t.clienteId),
        OrEmpty(t.tipoTarefaId),
        OrEmpty(t.funcionarioId),
        OrEmpty(t.dataPrazo),
        Prefix(t.horaInicio, 5),
        Prefix(t.horaFim, 5),
        OrEmpty(t.local),
        OrEmpty(t.linkGaleria),
        if HasDeadline(t) then Prefix(Some(t.deadlineEntrega.value.text), 16) else "",
        t.realizado,
        OrEmpty(t.observacoes))
    case None =>
      var date := if defaultDate.Some? then FormatDate(FromDay(defaultDate.value)) else "";
      assert defaultDate.Some? && 0 <= FromDay(defaultDate.value).year <= 9999 ==>
        ParseDate(date) == Some(FromDay(defaultDate.value)) by {
        if defaultDate.Some? && 0 <= FromDay(defaultDate.value).year <= 9999 {
          FormatParse(FromDay(defaultDate.value));
        }
      }
      EMPTY_FORM.(dataPrazo := date)
  }

  function Min16(n: nat): nat
  {
    if n < 16 then n else 16
  }

  /** The record sent on submit. */
  datatype TaskPayload = TaskPayload(
    descricao: string,
    clienteId: Option<Id>,
    tipoTarefaId: Option<Id>,
    funcionarioId: Option<Id>,
    dataPrazo: string,
    horaInicio: Option<string>,
    horaFim: Option<string>,
    local: string,
    linkGaleria: Option<string>,
    deadlineEntrega: Option<string>,
    realizado: bool,
    observacoes: string)

  /** The submitted record: the six optional references and times become
      null when left empty, an empty deadline becomes null and a filled one
      is converted by `toIso` (the local-time to ISO conversion), everything
      else is sent as typed. */
  function Payload(f: TaskForm, toIso: string -> string): (r: TaskPayload)
    ensures r.clienteId.None? <==> f.clienteId == ""
    ensures r.tipoTarefaId.None? <==> f.tipoTarefaId == ""
    ensures r.funcionarioId.None? <==> f.funcionarioId == ""
    ensures r.horaInicio.None? <==> f.horaInicio == ""
    ensures r.horaFim.None? <==> f.horaFim == ""
    ensures r.linkGaleria.None? <==> f.linkGaleria == ""
    ensures r.deadlineEntrega.None? <==> f.deadlineEntrega == ""
    ensures OrEmpty(r.clienteId) == f.clienteId && OrEmpty(r.tipoTarefaId) == f.tipoTarefaId
    ensures OrEmpty(r.funcionarioId) == f.funcionarioId && OrEmpty(r.linkGaleria) == f.linkGaleria
    ensures OrEmpty(r.horaInicio) == f.horaInicio && OrEmpty(r.horaFim) == f.horaFim
    ensures r.deadlineEntrega.Some? ==> r.deadlineEntrega.value == toIso(f.deadlineEntrega)
    ensures r.descricao == f.descricao && r.dataPrazo == f.dataPrazo && r.local == f.local
    ensures r.realizado == f.realizado && r.observacoes == f.observacoes
  {
    TaskPayload(
      f.descricao,
      NullIfEmpty(f.clienteId),
      NullIfEmpty(f.tipoTarefaId),
      NullIfEmpty(f.funcionarioId),
      f.dataPrazo,
      NullIfEmpty(f.horaInicio),
      NullIfEmpty(f.horaFim),
      f.local,
      NullIfEmpty(f.linkGaleria),
      if f.deadlineEntrega != "" then Some(toIso(f.deadlineEntrega)) else None,
      f.realizado,
      f.observacoes)
  }

  /** Opening a task and saving it untouched sends back its references and
      link as they were (a missing or empty one comes back as null), its
      location, notes and due date as they were (a missing one comes back
      as ''), and its times as they were when stored as 'HH:mm'. */
  lemma EditRoundTrip(t: Tarefa, toIso: string -> string)
    ensures var p := Payload(InitialForm(Some(t), None), toIso);
      && (Truthy(t.clienteId) ==> p.clienteId == t.clienteId)
      && (Truthy(t.tipoTarefaId) ==> p.tipoTarefaId == t.tipoTarefaId)
      && (Truthy(t.funcionarioId) ==> p.funcionarioId == t.funcionarioId)
      && (Truthy(t.linkGaleria) ==> p.linkGaleria == t.linkGaleria)
      && (!Truthy(t.clienteId) ==> p.clienteId.None?)
      && (!Truthy(t.tipoTarefaId) ==> p.tipoTarefaId.None?)
      && (!Truthy(t.funcionarioId) ==> p.funcionarioId.None?)
      && (!Truthy(t.linkGaleria) ==> p.linkGaleria.None?)
      && p.local == OrEmpty(t.local) && p.observacoes == OrEmpty(t.observacoes)
      && p.dataPrazo == OrEmpty(t.dataPrazo)
      && (Truthy(t.horaInicio) && |t.horaInicio.value| <= 5 ==> p.horaInicio == t.horaInicio)
      && (Truthy(t.horaFim) && |t.horaFim.value| <= 5 ==> p.horaFim == t.horaFim)
      && p.descricao == t.descricao && p.realizado == t.realizado
  {
    var f := InitialForm(Some(t), None);
    NullIfEmptyRoundTrip(f.clienteId, t.clienteId);
    NullIfEmptyRoundTrip(f.tipoTarefaId, t.tipoTarefaId);
    NullIfEmptyRoundTrip(f.funcionarioId, t.funcionarioId);
    NullIfEmptyRoundTrip(f.linkGaleria, t.linkGaleria);
    if Truthy(t.horaInicio) && |t.horaInicio.value| <= 5 {
      assert f.horaInicio == t.horaInicio.value;
    }
    if Truthy(t.horaFim) && |t.horaFim.value| <= 5 {
      assert f.horaFim == t.horaFim.value;
    }
  }

  /** The dialog's state. */
  class TaskEditor {
    var form: TaskForm
    var confirmDelete: bool

    constructor()
      ensures form == EMPTY_FORM && !confirmDelete
    {
      form := EMPTY_FORM;
      confirmDelete := false;
    }

    /** The effect run when the task, the default date or the open flag
        changes: refills the form and disarms the delete button. */
    method Init(tarefa: Option<Tarefa>, defaultDate: Option<int>)
      modifies this
      ensures form == InitialForm(tarefa, defaultDate) && !confirmDelete
    {
      form := InitialForm(tarefa, defaultDate);
      confirmDelete := false;
    }

    /** `handleChange`. */
    method HandleChange(c: Change)
      modifies this
      ensures form == Apply(old(form), c) && confirmDelete == old(confirmDelete)
    {
      form := Apply(form, c);
    }

    /** `handleSubmit`: update when a task is being edited, insert otherwise. */
    method HandleSubmit(tarefa: Option<Tarefa>, toIso: string -> string) returns (m: Mutation<TaskPayload>)
      ensures tarefa.Some? ==> m == Update(tarefa.value.id, Payload(form, toIso))
      ensures tarefa.None? ==> m == Insert(Payload(form, toIso))
    {
      var data := Payload(form, toIso);
      if tarefa.Some? {
        m := Update(tarefa.value.id, data);
      } else {
        m := Insert(data);
      }
    }

    /** `handleDelete` on the edited task: the first click only arms the
        button, a click on the armed button removes the task (the dialog is
        then closed by the caller, which re-runs `Init`). */
    method HandleDelete(tarefa: Tarefa) returns (removed: Option<Id>)
      modifies this
      ensures removed.Some? <==> old(confirmDelete)
      ensures removed.Some? ==> removed.value == tarefa.id
      ensures confirmDelete && form == old(form)
    {
      if !confirmDelete {
        confirmDelete := true;
        return None;
      }
      removed := Some(tarefa.id);
    }
  }
}

=== FILE: tarefas_page.dfy ===
/** The task list page: the combined filter (text search, quick period or
    custom date range, client set, type set), the three-tier ordering of the
    result, and the filter-selection state with its active-filter count.
    `today` is the serial day of the clock's current date. */
module TarefasPage {
  import opened Lists
  import opened Text
  import opened Records
  import opened Dates
  import opened Sorting

  datatype QuickPeriod = Today | Tomorrow | ThisWeek

  /** The filter state the list is computed from. */
  datatype Criteria = Criteria(
    search: string,
    quickPeriod: Option<QuickPeriod>,
    dateFrom: string,
    dateTo: string,
    clientes: seq<Id>,
    tipos: seq<Id>)

  /** The text search: the query (when not empty) occurs, ignoring case, in
      the description, the client's name, the staff member's name or the
      place. */
  predicate MatchesSearch(t: Tarefa, search: string)
  {
    search == ""
    || MatchesCI(t.descricao, search)
    || FieldMatches(t.clienteNome, search)
    || FieldMatches(t.funcionarioNome, search)
    || FieldMatches(t.local, search)
  }

  /** The serial day of `data_prazo` as `parseISO` reads it; a missing or
      malformed date is an Invalid Date, which no period contains. */
  function DueDay(t: Tarefa): (r: Option<int>)
    ensures r.Some? ==> t.dataPrazo.Some? && ParseDate(t.dataPrazo.value).Some?
  {
    if t.dataPrazo.None? then None
    else match ParseDate(t.dataPrazo.value)
      case None => None
      case Some(d) => Some(ToDay(d))
  }

  /** The quick period test: due today, due tomorrow, or due in the
      Monday-to-Sunday week containing today. */
  predicate InQuickPeriod(t: Tarefa, q: QuickPeriod, today: int)
  {
    match DueDay(t)
    case None => false
    case Some(d) =>
      match q
      case Today => d == today
      case Tomorrow => d == today + 1
      case ThisWeek => StartOfWeek(today) <= d <= EndOfWeek(today)
  }

  /** The custom range test: `data_prazo` compared as a string with each
      bound that is set. A missing `data_prazo` compares false with both
      bounds in JavaScript, so it is never excluded. */
  predicate InRange(t: Tarefa, dateFrom: string, dateTo: string)
  {
    t.dataPrazo.None?
    || ((dateFrom == "" || !StrLt(t.dataPrazo.value, dateFrom))
        && (dateTo == "" || !StrLt(dateTo, t.dataPrazo.value)))
  }

  /** `list.length > 0 && !list.includes(id)` excludes. */
  predicate InSet(id: Option<Id>, list: seq<Id>)
  {
    |list| == 0 || (id.Some? && id.value in list)
  }

  /** The combined predicate of the task list. */
  predicate Passes(t: Tarefa, c: Criteria, today: int)
  {
    MatchesSearch(t, c.search)
    && (if c.quickPeriod.Some? then InQuickPeriod(t, c.quickPeriod.value, today)
        else InRange(t, c.dateFrom, c.dateTo))
    && InSet(t.clienteId, c.clientes)
    && InSet(t.tipoTarefaId, c.tipos)
  }

  function Keep(c: Criteria, today: int): Tarefa -> bool
  {
    t => Passes(t, c, today)
  }

  /** A task lies in this week's quick period exactly when its due day has
      the same Monday as today. */
  lemma WeekPeriod(t: Tarefa, today: int)
    requires DueDay(t).Some?
    ensures InQuickPeriod(t, ThisWeek, today) <==> StartOfWeek(DueDay(t).value) == StartOfWeek(today)
  {
    SameWeek(today, DueDay(t).value);
  }

  /** While a quick period is set, the custom dates play no part. */
  lemma QuickPeriodOverridesRange(t: Tarefa, c: Criteria, from: string, to: string, today: int)
    requires c.quickPeriod.Some?
    ensures Passes(t, c, today) == Passes(t, c.(dateFrom := from, dateTo := to), today)
  {
  }

  /** For dates in the stored 'yyyy-MM-dd' form the string range is the
      calendar range: a due date passes both bounds exactly when its day lies
      between theirs. */
  lemma RangeIsCalendarRange(t: Tarefa, from: Date, to: Date)
    requires DueDay(t).Some?
    requires Valid(from) && 0 <= from.year <= 9999 && Valid(to) && 0 <= to.year <= 9999
    ensures InRange(t, FormatDate(from), FormatDate(to))
        <==> ToDay(from) <= DueDay(t).value <= ToDay(to)
  {
    var p := t.dataPrazo.value;
    var d := ParseDate(p).value;
    assert DueDay(t).value == ToDay(d);
    ParseFormat(p);
    assert p == FormatDate(d);
    FormatOrder(d, from);
    FormatOrder(to, d);
    FormatMonthPrefix(from);
    FormatMonthPrefix(to);
  }

  /** Printed dates sort as strings the way they sort as days. */
  lemma FormatOrder(a: Date, b: Date)
    requires Valid(a) && 0 <= a.year <= 9999 && Valid(b) && 0 <= b.year <= 9999
    ensures StrLt(FormatDate(a), FormatDate(b)) <==> ToDay(a) < ToDay(b)
  {
    var sa, sb := FormatDate(a), FormatDate(b);
    FormatMonthPrefix(a);
    FormatMonthPrefix(b);
    DigitsLength(a.year, 4);
    DigitsLength(b.year, 4);
    DigitsLength(a.month, 2);
    DigitsLength(b.month, 2);
    DigitsLength(a.day, 2);
    DigitsLength(b.day, 2);
    assert sa == Digits(a.year, 4) + "-" + Digits(a.month, 2) + "-" + Digits(a.day, 2);
    assert sb == Digits(b.year, 4) + "-" + Digits(b.month, 2) + "-" + Digits(b.day, 2);
    DigitsOrder(a.year, b.year, 4);
    DigitsOrder(a.month, b.month, 2);
    DigitsOrder(a.day, b.day, 2);
    ConcatOrder(Digits(a.year, 4), Digits(b.year, 4), "-" + Digits(a.month, 2) + "-" + Digits(a.day, 2), "-" + Digits(b.month, 2) + "-" + Digits(b.day, 2));
    ConcatOrder(Digits(a.month, 2), Digits(b.month, 2), "-" + Digits(a.day, 2), "-" + Digits(b.day, 2));
    assert sa == Digits(a.year, 4) + ("-" + Digits(a.month, 2) + "-" + Digits(a.day, 2));
    assert sb == Digits(b.year, 4) + ("-" + Digits(b.month, 2) + "-" + Digits(b.day, 2));
    assert "-" + Digits(a.month, 2) + "-" + Digits(a.day, 2) == "-" + (Digits(a.month, 2) + ("-" + Digits(a.day, 2)));
    assert "-" + Digits(b.month, 2) + "-" + Digits(b.day, 2) == "-" + (Digits(b.month, 2) + ("-" + Digits(b.day, 2)));
    ConsOrder('-', Digits(a.month, 2) + ("-" + Digits(a.day, 2)), Digits(b.month, 2) + ("-" + Digits(b.day, 2)));
    ConsOrder('-', Digits(a.day, 2), Digits(b.day, 2));
    DateOrder(a, b);
  }

  /** Zero-padded numbers of one width sort as strings as they sort as
      numbers. */
  lemma {:induction false} DigitsOrder(x: nat, y: nat, width: nat)
    requires 1 <= width && x < Pow10(width) && y < Pow10(width)
    ensures StrLt(Digits(x, width), Digits(y, width)) <==> x < y
    ensures Digits(x, width) == Digits(y, width) <==> x == y
  {
    DigitsLength(x, width);
    DigitsLength(y, width);
    ParseDigits(x, width);
    ParseDigits(y, width);
    if width == 1 {
      assert Digits(x, 1) == [DigitChar(x)] && Digits(y, 1) == [DigitChar(y)];
    } else {
      assert Digits(x, width) == Digits(x / 10, width - 1) + [DigitChar(x % 10)];
      assert Digits(y, width) == Digits(y / 10, width - 1) + [DigitChar(y % 10)];
      assert x / 10 < Pow10(width - 1) && y / 10 < Pow10(width - 1);
      DigitsOrder(x / 10, y / 10, width - 1);
      DigitsLength(x / 10, width - 1);
      DigitsLength(y / 10, width - 1);
      SnocOrder(Digits(x / 10, width - 1), Digits(y / 10, width - 1), DigitChar(x % 10), DigitChar(y % 10));
    }
  }

  /** Equal-length strings followed by one character each compare by the
      strings first, then by the characters. */
  lemma {:induction false} SnocOrder(a: string, b: string, x: char, y: char)
    requires |a| == |b|
    ensures StrLt(a + [x], b + [y]) <==> StrLt(a, b) || (a == b && x < y)
    decreases |a|
  {
    if a == [] {
      assert a + [x] == [x] && b + [y] == [y];
    } else {
      assert (a + [x])[1..] == a[1..] + [x];
      assert (b + [y])[1..] == b[1..] + [y];
      SnocOrder(a[1..], b[1..], x, y);
      if a[0] == b[0] {
        assert a == [a[0]] + a[1..] && b == [b[0]] + b[1..];
      }
    }
  }

  /** Equal-length prefixes decide the comparison unless they are equal. */
  lemma {:induction false} ConcatOrder(a: string, b: string, x: string, y: string)
    requires |a| == |b|
    ensures StrLt(a + x, b + y) <==> StrLt(a, b) || (a == b && StrLt(x, y))
    decreases |a|
  {
    if a == [] {
      assert a + x == x && b + y == y;
    } else {
      assert (a + x)[1..] == a[1..] + x;
      assert (b + y)[1..] == b[1..] + y;
      ConcatOrder(a[1..], b[1..], x, y);
      if a[0] == b[0] {
        assert a == [a[0]] + a[1..] && b == [b[0]] + b[1..];
      }
    }
  }

  lemma ConsOrder(c: char, x: string, y: string)
    ensures StrLt([c] + x, [c] + y) <==> StrLt(x, y)
  {
    assert ([c] + x)[1..] == x && ([c] + y)[1..] == y;
  }

  /** Dates are ordered as their (year, month, day) triples. */
  lemma DateOrder(a: Date, b: Date)
    requires Valid(a) && Valid(b)
    ensures ToDay(a) < ToDay(b) <==>
      a.year < b.year || (a.year == b.year && (a.month < b.month || (a.month == b.month && a.day < b.day)))
  {
    ToDayInYear(a);
    ToDayInYear(b);
    if a.year < b.year {
      DaysBeforeYearMono(a.year, b.year);
    } else if b.year < a.year {
      DaysBeforeYearMono(b.year, a.year);
    } else if a.month < b.month {
      DaysBeforeMonthMono(a.year, a.month, b.month);
    } else if b.month < a.month {
      DaysBeforeMonthMono(a.year, b.month, a.month);
    }
  }

  /** The ordering comparator as a relation: tasks with a deadline first,
      by deadline instant; then the rest by `data_prazo` text. */
  predicate TaskLe(a: Tarefa, b: Tarefa)
  {
    if HasDeadline(a) && HasDeadline(b) then a.deadlineEntrega.value.ms <= b.deadlineEntrega.value.ms
    else if HasDeadline(a) then true
    else if HasDeadline(b) then false
    else StrLeq(OrEmpty(a.dataPrazo), OrEmpty(b.dataPrazo))
  }

  lemma TaskLeTotalPreorder()
    ensures TotalPreorder(TaskLe)
  {
    forall a, b ensures TaskLe(a, b) || TaskLe(b, a) {
      StrLeqTotal(OrEmpty(a.dataPrazo), OrEmpty(b.dataPrazo));
    }
    forall a, b, c | TaskLe(a, b) && TaskLe(b, c) ensures TaskLe(a, c) {
      if !HasDeadline(a) && !HasDeadline(b) && !HasDeadline(c) {
        StrLeqTrans(OrEmpty(a.dataPrazo), OrEmpty(b.dataPrazo), OrEmpty(c.dataPrazo));
      }
    }
  }

  /** The three tiers of a list ordered by `TaskLe`: every task with a
      deadline precedes every task without one; tasks with deadlines are in
      deadline order; the others are in `data_prazo` order. */
  lemma SortedTiers(s: seq<Tarefa>, i: int, j: int)
    requires SortedBy(s, TaskLe) && 0 <= i < j < |s|
    ensures HasDeadline(s[j]) ==> HasDeadline(s[i])
    ensures HasDeadline(s[i]) && HasDeadline(s[j]) ==> s[i].deadlineEntrega.value.ms <= s[j].deadlineEntrega.value.ms
    ensures !HasDeadline(s[i]) && !HasDeadline(s[j]) ==> StrLeq(OrEmpty(s[i].dataPrazo), OrEmpty(s[j].dataPrazo))
  {
    assert TaskLe(s[i], s[j]);
  }

  /** `filteredTarefas`: the tasks passing the filter, ordered by the three
      tiers. */
  method FilteredTarefas(tarefas: seq<Tarefa>, c: Criteria, today: int) returns (r: seq<Tarefa>)
    ensures multiset(r) == multiset(Filter(tarefas, Keep(c, today)))
    ensures SortedBy(r, TaskLe)
    ensures forall t :: t in r <==> t in tarefas && Passes(t, c, today)
  {
    var kept := Filter(tarefas, Keep(c, today));
    var a := new Tarefa[|kept|](i requires 0 <= i < |kept| => kept[i]);
    assert a[..] == kept;
    TaskLeTotalPreorder();
    SortInPlace(a, TaskLe);
    r := a[..];
    forall t ensures t in r <==> t in kept {
      assert t in r <==> t in multiset(r);
      assert t in kept <==> t in multiset(kept);
    }
  }

  /** `activeFiltersCount`: one for a quick period, one for either custom
      date, plus one per selected client and type. */
  function ActiveFiltersCount(c: Criteria): (r: nat)
    ensures r == 0 <==> c.quickPeriod.None? && c.dateFrom == "" && c.dateTo == "" && c.clientes == [] && c.tipos == []
    ensures r >= |c.clientes| + |c.tipos|
  {
    (if c.quickPeriod.Some? then 1 else 0)
    + (if c.dateFrom != "" || c.dateTo != "" then 1 else 0)
    + |c.clientes| + |c.tipos|
  }

  /** With no active filter the list is narrowed by the search alone. */
  lemma NoActiveFilter(t: Tarefa, c: Criteria, today: int)
    requires ActiveFiltersCount(c) == 0
    ensures Passes(t, c, today) <==> MatchesSearch(t, c.search)
  {
  }

  /** Every active filter can only narrow the list: the tasks passing are
      among those matching the search. */
  lemma FilterNarrows(tarefas: seq<Tarefa>, c: Criteria, today: int)
    ensures forall t :: t in Filter(tarefas, Keep(c, today)) ==> MatchesSearch(t, c.search)
  {
  }

  /** The page's filter selection. */
  class TarefasFilters {
    var search: string
    var quickPeriod: Option<QuickPeriod>
    var dateFrom: string
    var dateTo: string
    var filtroClientes: seq<Id>
    var filtroTipos: seq<Id>

    function Current(): Criteria
      reads this
    {
      Criteria(search, quickPeriod, dateFrom, dateTo, filtroClientes, filtroTipos)
    }

    /** A quick period and a custom date are never both set. */
    predicate Exclusive()
      reads this
    {
      quickPeriod.Some? ==> dateFrom == "" && dateTo == ""
    }

    constructor()
      ensures Current() == Criteria("", None, "", "", [], []) && Exclusive()
    {
      search, quickPeriod, dateFrom, dateTo := "", None, "", "";
      filtroClientes, filtroTipos := [], [];
    }

    /** `selectQuickPeriod`: choosing the active period clears it; choosing
        another sets it and clears both custom dates. */
    method SelectQuickPeriod(key: QuickPeriod)
      modifies this
      ensures old(quickPeriod) == Some(key) ==> Current() == old(Current()).(quickPeriod := None)
      ensures old(quickPeriod) != Some(key) ==> Current() == old(Current()).(quickPeriod := Some(key), dateFrom := "", dateTo := "")
      ensures old(Exclusive()) ==> Exclusive()
    {
      if quickPeriod == Some(key) {
        quickPeriod := None;
      } else {
        quickPeriod := Some(key);
        dateFrom := "";
        dateTo := "";
      }
    }

    /** `handleDateFrom`: sets the lower bound and clears the quick period. */
    method HandleDateFrom(v: string)
      modifies this
      ensures Current() == old(Current()).(dateFrom := v, quickPeriod := None)
      ensures Exclusive()
    {
      dateFrom := v;
      quickPeriod := None;
    }

    /** `handleDateTo`: sets the upper bound and clears the quick period. */
    method HandleDateTo(v: string)
      modifies this
      ensures Current() == old(Current()).(dateTo := v, quickPeriod := None)
      ensures Exclusive()
    {
      dateTo := v;
      quickPeriod := None;
    }

    method ToggleCliente(id: Id)
      modifies this
      ensures Current() == old(Current()).(clientes := Toggle(old(filtroClientes), id))
      ensures old(Exclusive()) ==> Exclusive()
    {
      filtroClientes := Toggle(filtroClientes, id);
    }

    method ToggleTipo(id: Id)
      modifies this
      ensures Current() == old(Current()).(tipos := Toggle(old(filtroTipos), id))
      ensures old(Exclusive()) ==> Exclusive()
    {
      filtroTipos := Toggle(filtroTipos, id);
    }

    /** `clearAllFilters`: no filter left active and no search. */
    method ClearAllFilters()
      modifies this
      ensures Current() == Criteria("", None, "", "", [], [])
      ensures ActiveFiltersCount(Current()) == 0 && Exclusive()
    {
      search, quickPeriod, dateFrom, dateTo := "", None, "", "";
      filtroClientes, filtroTipos := [], [];
    }
  }

  /** While a quick period and a custom date exclude each other, the two
      date terms of the count add at most one. */
  lemma ExclusiveCount(c: Criteria)
    requires c.quickPeriod.Some? ==> c.dateFrom == "" && c.dateTo == ""
    ensures ActiveFiltersCount(c) <= 1 + |c.clientes| + |c.tipos|
  {
  }
}

=== FILE: task_order.dfy ===
/** The order in which the calendar cell and the day-detail list show one
    day's tasks: `(a.hora_inicio || '').localeCompare(b.hora_inicio || '')`,
    applied with an in-place sort. */
module TaskOrder {
  import opened Lists
  import opened Text
  import opened Records
  import opened Sorting

  /** The sort key: the start time, with a missing one read as ''. */
  function StartKey(t: Tarefa): string
  {
    OrEmpty(t.horaInicio)
  }

  /** The comparator as a relation: `a` may come before `b`. */
  predicate StartLe(a: Tarefa, b: Tarefa)
  {
    StrLeq(StartKey(a), StartKey(b))
  }

  lemma StartLeTotalPreorder()
    ensures TotalPreorder(StartLe)
  {
    forall a, b ensures StartLe(a, b) || StartLe(b, a) {
      StrLeqTotal(StartKey(a), StartKey(b));
    }
    forall a, b, c | StartLe(a, b) && StartLe(b, c) ensures StartLe(a, c) {
      StrLeqTrans(StartKey(a), StartKey(b), StartKey(c));
    }
  }

  /** Sorts one day's tasks by start time, in place. */
  method SortByStart(a: array<Tarefa>)
    modifies a
    ensures SortedBy(a[..], StartLe)
    ensures multiset(a[..]) == multiset(old(a[..]))
  {
    StartLeTotalPreorder();
    SortInPlace(a, StartLe);
  }

  /** In a list sorted by start time, the tasks without a start time come
      first: every task before one without a time has no time either, and
      every task after one with a time has a time too. */
  lemma {:induction false} MissingTimesFirst(s: seq<Tarefa>, i: int, j: int)
    requires SortedBy(s, StartLe)
    requires 0 <= i < j < |s|
    ensures !Truthy(s[j].horaInicio) ==> !Truthy(s[i].horaInicio)
    ensures Truthy(s[i].horaInicio) ==> Truthy(s[j].horaInicio)
  {
    assert StartLe(s[i], s[j]);
    if !Truthy(s[j].horaInicio) {
      assert StrLeq(StartKey(s[i]), "");
      assert StartKey(s[i]) == "";
    }
  }

  /** Tasks with the same start time keep no particular relative order, but
      two tasks with different start times appear in increasing order of
      their times. */
  lemma SortedStartsIncrease(s: seq<Tarefa>, i: int, j: int)
    requires SortedBy(s, StartLe)
    requires 0 <= i < |s| && 0 <= j < |s| && StrLt(StartKey(s[j]), StartKey(s[i]))
    ensures j < i
  {
    if i < j {
      assert StartLe(s[i], s[j]);
      StrLeqAntisym(StartKey(s[i]), StartKey(s[j]));
    }
  }
}

=== FILE: text.dfy ===
/** String helpers used by the searches and sorts: ASCII lower-casing,
    `String.prototype.includes`, and the code-unit order that string `<`
    and `localeCompare` are modelled by. */
module Text {

  /** `toLowerCase` on one character; only A-Z are folded. */
  function LowerChar(c: char): (r: char)
    ensures 'A' <= c <= 'Z' ==> 'a' <= r <= 'z'
    ensures !('A' <= c <= 'Z') ==> r == c
    ensures !('A' <= r <= 'Z')
  {
    if 'A' <= c <= 'Z' then (c as int + 32) as char else c
  }

  /** `toLowerCase`: every character folded, the length kept. */
  function Lower(s: string): (r: string)
    ensures |r| == |s|
    ensures forall i :: 0 <= i < |s| ==> r[i] == LowerChar(s[i])
  {
    if s == [] then [] else [LowerChar(s[0])] + Lower(s[1..])
  }

  /** Lower-casing twice is lower-casing once. */
  lemma LowerIdempotent(s: string)
    ensures Lower(Lower(s)) == Lower(s)
  {
    var once := Lower(s);
    assert forall i :: 0 <= i < |once| ==> LowerChar(once[i]) == once[i];
  }

  /** `t` occurs in `s` starting at offset `i`. */
  predicate OccursAt(s: string, t: string, i: int)
  {
    0 <= i <= |s| - |t| && s[i..i + |t|] == t
  }

  /** `s.includes(t)`: `t` occurs in `s` at some offset. */
  predicate Includes(s: string, t: string)
  {
    exists i :: 0 <= i <= |s| - |t| && OccursAt(s, t, i)
  }

  /** Every string includes the empty string, and itself. */
  lemma IncludesTrivial(s: string)
    ensures Includes(s, "")
    ensures Includes(s, s)
  {
    assert OccursAt(s, "", 0);
    assert OccursAt(s, s, 0);
  }

  /** An occurrence survives lower-casing both sides, so a case-insensitive
      search finds everything a case-sensitive one finds. */
  lemma IncludesLower(s: string, t: string)
    requires Includes(s, t)
    ensures Includes(Lower(s), Lower(t))
  {
    var i :| 0 <= i <= |s| - |t| && OccursAt(s, t, i);
    var ls, lt := Lower(s), Lower(t);
    assert |ls| == |s| && |lt| == |t|;
    assert ls[i..i + |t|] == lt by {
      forall j | 0 <= j < |t| ensures ls[i..i + |t|][j] == lt[j] {
        assert t[j] == s[i..i + |t|][j] == s[i + j];
      }
    }
    assert OccursAt(ls, lt, i);
  }

  /** The case-insensitive substring test all the pages' searches use:
      `field.toLowerCase().includes(query.toLowerCase())`. */
  predicate MatchesCI(field: string, query: string)
  {
    Includes(Lower(field), Lower(query))
  }

  /** The empty query matches every field; a query's case does not matter. */
  lemma MatchesCIProperties(field: string, query: string)
    ensures MatchesCI(field, "")
    ensures MatchesCI(field, Lower(query)) == MatchesCI(field, query)
    ensures Includes(field, query) ==> MatchesCI(field, query)
  {
    IncludesTrivial(Lower(field));
    assert Lower("") == "";
    LowerIdempotent(query);
    if Includes(field, query) {
      IncludesLower(field, query);
    }
  }

  /** Code-unit lexicographic order: `a <= b` on JavaScript strings. It is
      also the model of `localeCompare(...) <= 0` on the ASCII date and time
      strings it is applied to. */
  predicate StrLeq(a: string, b: string)
  {
    if a == [] then true
    else if b == [] then false
    else if a[0] != b[0] then a[0] < b[0]
    else StrLeq(a[1..], b[1..])
  }

  /** `a < b` on JavaScript strings. */
  predicate StrLt(a: string, b: string)
  {
    StrLeq(a, b) && a != b
  }

  lemma {:induction false} StrLeqRefl(a: string)
    ensures StrLeq(a, a)
  {
    if a != [] {
      StrLeqRefl(a[1..]);
    }
  }

  lemma {:induction false} StrLeqTotal(a: string, b: string)
    ensures StrLeq(a, b) || StrLeq(b, a)
  {
    if a != [] && b != [] && a[0] == b[0] {
      StrLeqTotal(a[1..], b[1..]);
    }
  }

  lemma {:induction false} StrLeqTrans(a: string, b: string, c: string)
    requires StrLeq(a, b) && StrLeq(b, c)
    ensures StrLeq(a, c)
  {
    if a != [] && b != [] && c != [] && a[0] == b[0] && b[0] == c[0] {
      StrLeqTrans(a[1..], b[1..], c[1..]);
    }
  }

  lemma {:induction false} StrLeqAntisym(a: string, b: string)
    requires StrLeq(a, b) && StrLeq(b, a)
    ensures a == b
  {
    if a != [] && b != [] {
      StrLeqAntisym(a[1..], b[1..]);
      assert a == [a[0]] + a[1..] && b == [b[0]] + b[1..];
    }
  }

  /** `/\d/`: an ASCII decimal digit. */
  predicate IsDigit(c: char)
  {
    '0' <= c <= '9'
  }
}

=== FILE: tipos_tarefa.dfy ===
/** The task-type register of src/pages/TiposTarefaPage.jsx: the list with
    each type's icon label, a create/edit dialog and a two-click delete. */
module TiposTarefaPage {
  import opened Lists
  import opened Records
  import opened Utils
  import opened Crud

  const DEFAULT_COLOR := "#5d109c"
  const DEFAULT_ICON := "camera"

  /** One entry of the icon picker. */
  datatype IconOption = IconOption(value: string, text: string)

  /** `ICON_OPTIONS`, in picker order. */
  const ICON_OPTIONS: seq<IconOption> := [
    IconOption("camera", "Câmera"),
    IconOption("video", "Vídeo"),
    IconOption("image", "Imagem"),
    IconOption("film", "Filme"),
    IconOption("briefcase", "Pasta"),
    IconOption("users", "Pessoas"),
    IconOption("package", "Pacote"),
    IconOption("calendar", "Calendário"),
    IconOption("star", "Estrela"),
    IconOption("heart", "Coração")
  ]

  /** Every key the picker offers is one the calendar and the day-detail
      dialog can draw, with a non-empty label, and every drawable key is
      offered. */
  lemma IconOptionsMatchIconMap()
    ensures forall o :: o in ICON_OPTIONS ==> o.value in ICON_MAP && o.text != ""
    ensures forall k :: k in ICON_MAP ==> exists i :: 0 <= i < |ICON_OPTIONS| && ICON_OPTIONS[i].value == k
  {
    forall k | k in ICON_MAP
      ensures exists i :: 0 <= i < |ICON_OPTIONS| && ICON_OPTIONS[i].value == k
    {
      if k == "camera" { assert ICON_OPTIONS[0].value == k; }
      else if k == "video" { assert ICON_OPTIONS[1].value == k; }
      else if k == "image" { assert ICON_OPTIONS[2].value == k; }
      else if k == "film" { assert ICON_OPTIONS[3].value == k; }
      else if k == "briefcase" { assert ICON_OPTIONS[4].value == k; }
      else if k == "users" { assert ICON_OPTIONS[5].value == k; }
      else if k == "package" { assert ICON_OPTIONS[6].value == k; }
      else if k == "calendar" { assert ICON_OPTIONS[7].value == k; }
      else if k == "star" { assert ICON_OPTIONS[8].value == k; }
      else { assert ICON_OPTIONS[9].value == k; }
    }
  }

  /** Every picker label is non-empty. */
  lemma IconLabelsNonEmpty()
    ensures forall o :: o in ICON_OPTIONS ==> o.text != ""
  {
  }

  /** `options.find(o => o.value === key)?.label || key` over any list of
      options whose labels are all non-empty. */
  function LabelIn(options: seq<IconOption>, key: string): (r: string)
    requires forall o :: o in options ==> o.text != ""
    ensures (forall o :: o in options ==> o.value != key) ==> r == key
    ensures forall i :: 0 <= i < |options| && options[i].value == key
                        && (forall j :: 0 <= j < i ==> options[j].value != key)
                        ==> r == options[i].text
    ensures r != key ==> exists i :: 0 <= i < |options| && options[i].value == key && r == options[i].text
                                     && forall j :: 0 <= j < i ==> options[j].value != key
  {
    var matches := (o: IconOption) => o.value == key;
    forall i | 0 <= i < |options| && matches(options[i]) && (forall j :: 0 <= j < i ==> !matches(options[j]))
      ensures Find(options, matches) == Some(options[i])
    {
      FindFirst(options, matches, i);
    }
    match Find(options, matches)
    case Some(o) => if o.text != "" then o.text else key
    case None => key
  }

  /** The icon column: the label of the first option with the type's key,
      or the raw key when no option has it (nothing when the key is
      missing). */
  function IconLabel(icone: Option<string>): (r: Option<string>)
    ensures icone.None? ==> r.None?
    ensures icone.Some? && (forall o :: o in ICON_OPTIONS ==> o.value != icone.value) ==> r == icone
    ensures r != icone ==> exists i :: (0 <= i < |ICON_OPTIONS| && Some(ICON_OPTIONS[i].value) == icone
                                        && r == Some(ICON_OPTIONS[i].text)
                                        && forall j :: 0 <= j < i ==> Some(ICON_OPTIONS[j].value) != icone)
    ensures forall i :: 0 <= i < |ICON_OPTIONS| && Some(ICON_OPTIONS[i].value) == icone
                        && (forall j :: 0 <= j < i ==> Some(ICON_OPTIONS[j].value) != icone)
                        ==> r == Some(ICON_OPTIONS[i].text)
  {
    if icone.None? then None else
      IconLabelsNonEmpty();
      Some(LabelIn(ICON_OPTIONS, icone.value))
  }

  /** The dialog's inputs. */
  datatype TipoForm = TipoForm(nome: string, cor: string, icone: string)

  const NEW_FORM := TipoForm("", DEFAULT_COLOR, DEFAULT_ICON)

  /** `openEdit`'s form: the type's name, its colour and icon or the
      defaults. */
  function EditForm(t: TipoTarefa): (r: TipoForm)
    ensures r.nome == t.nome
    ensures r.cor == (if Truthy(t.cor) then t.cor.value else DEFAULT_COLOR)
    ensures r.icone == (if Truthy(t.icone) then t.icone.value else DEFAULT_ICON)
  {
    TipoForm(t.nome, if Truthy(t.cor) then t.cor.value else DEFAULT_COLOR,
      if Truthy(t.icone) then t.icone.value else DEFAULT_ICON)
  }

  /** The dialog always starts with a colour and an icon, and a form with a
      picker key is listed under that key's label once saved. */
  lemma FormsHaveColourAndIcon(t: TipoTarefa)
    ensures EditForm(t).cor != "" && EditForm(t).icone != ""
    ensures IconLabel(Some(NEW_FORM.icone)) == Some("Câmera")
    ensures t.icone.None? ==> IconLabel(Some(EditForm(t).icone)) == Some("Câmera")
  {
    assert ICON_OPTIONS[0].value == DEFAULT_ICON;
  }

  /** The page state. */
  class TiposState {
    var showModal: bool
    var editing: Option<TipoTarefa>
    var confirmDelete: Option<Id>
    var form: TipoForm

    constructor()
      ensures !showModal && editing.None? && confirmDelete.None? && form == NEW_FORM
    {
      showModal, editing, confirmDelete, form := false, None, None, NEW_FORM;
    }

    /** `openNew`. */
    method OpenNew()
      modifies this
      ensures showModal && editing.None? && form == NEW_FORM && confirmDelete == old(confirmDelete)
    {
      editing := None;
      form := NEW_FORM;
      showModal := true;
    }

    /** `openEdit`. */
    method OpenEdit(t: TipoTarefa)
      modifies this
      ensures showModal && editing == Some(t) && form == EditForm(t) && confirmDelete == old(confirmDelete)
    {
      editing := Some(t);
      form := EditForm(t);
      showModal := true;
    }

    /** `handleSubmit`: update when editing, insert otherwise; the dialog
        closes. */
    method HandleSubmit() returns (m: Mutation<TipoForm>)
      modifies this
      ensures old(editing).Some? ==> m == Update(old(editing).value.id, old(form))
      ensures old(editing).None? ==> m == Insert(old(form))
      ensures !showModal && editing == old(editing) && form == old(form) && confirmDelete == old(confirmDelete)
    {
      if editing.Some? {
        m := Update(editing.value.id, form);
      } else {
        m := Insert(form);
      }
      showModal := false;
    }

    /** `handleDelete(id)`: the two-click confirmation. */
    method HandleDelete(id: Id) returns (removed: Option<Id>)
      modifies this
      ensures confirmDelete == DeleteClick(old(confirmDelete), id).armed
      ensures removed == DeleteClick(old(confirmDelete), id).removed
      ensures showModal == old(showModal) && editing == old(editing) && form == old(form)
    {
      if confirmDelete != Some(id) {
        confirmDelete := Some(id);
        return None;
      }
      removed := Some(id);
      confirmDelete := None;
    }
  }
}

=== FILE: tv_dashboard.dfy ===
/** The wall-screen dashboard of src/pages/TvDashboardPage.jsx: the same
    staff and type filter as the main dashboard, behind a panel that a
    button shows and hides. */
module TvDashboard {
  import opened Lists
  import opened Records
  import opened FilterSidebar
  import opened Dashboard

  class TvDashboardState {
    var showFilters: bool
    var filters: SidebarFilters

    constructor()
      ensures !showFilters && filters == NO_FILTERS
    {
      showFilters := false;
      filters := NO_FILTERS;
    }

    /** The "Filtros" / "Ocultar Filtros" button. */
    method ToggleShowFilters()
      modifies this
      ensures showFilters == !old(showFilters) && filters == old(filters)
    {
      showFilters := !showFilters;
    }

    /** The panel, when it is rendered: the lists it shows and edits. */
    function Sidebar(): (r: Option<SidebarFilters>)
      reads this
      ensures r.Some? <==> showFilters
      ensures r.Some? ==> r.value == filters
    {
      if showFilters then Some(filters) else None
    }

    /** An event from the panel, which exists only while it is shown. The
        lists survive hiding the panel. */
    method OnSidebar(e: SidebarEvent)
      requires showFilters
      modifies this
      ensures filters == Handle(old(filters), e) && showFilters
    {
      filters := Handle(filters, e);
    }

    /** The tasks the calendar receives. */
    function Shown(tarefas: seq<Tarefa>): (r: seq<Tarefa>)
      reads this
      ensures forall t :: t in r <==> t in tarefas && Passes(t, filters)
      ensures IsSubsequence(r, tarefas)
    {
      FilterTarefas(tarefas, filters)
    }
  }

  /** What the TV shows is already filtered: filtering it again, as the
      main dashboard does for its day-detail list, changes nothing. */
  lemma ShownIsStable(s: TvDashboardState, tarefas: seq<Tarefa>)
    ensures s.Shown(s.Shown(tarefas)) == s.Shown(tarefas)
  {
    FilterTwice(tarefas, s.filters);
  }
}

=== FILE: utils.dfy ===
/** The small helpers of src/lib/utils.js that the pages rely on. */
module Utils {
  import opened Lists

  /** `formatTime(time)`: '' for a missing or empty time, otherwise its first
      five characters (`'14:30:00'` becomes `'14:30'`). */
  function FormatTime(time: Option<string>): (r: string)
    ensures time.None? || time.value == "" ==> r == ""
    ensures time.Some? ==> |r| == (if |time.value| < 5 then |time.value| else 5)
    ensures time.Some? ==> r <= time.value
  {
    if time.None? || time.value == "" then "" else
      var t := time.value;
      t[..if |t| < 5 then |t| else 5]
  }

  /** Formatting an already formatted time changes nothing. */
  lemma FormatTimeIdempotent(time: Option<string>)
    ensures FormatTime(Some(FormatTime(time))) == FormatTime(time)
  {
  }

  /** `ICON_MAP`: the icon key stored on a task type to the icon component
      name. Calendar.jsx keeps an identical table under the name ICON_KEY_MAP. */
  const ICON_MAP: map<string, string> := map[
    "camera" := "Camera",
    "video" := "Video",
    "image" := "Image",
    "film" := "Film",
    "briefcase" := "Briefcase",
    "users" := "Users",
    "package" := "Package",
    "calendar" := "CalendarDays",
    "star" := "Star",
    "heart" := "Heart"
  ]

  /** The icon keys a task type may carry. */
  const ICON_KEYS: set<string> :=
    {"camera", "video", "image", "film", "briefcase", "users", "package", "calendar", "star", "heart"}

  /** `ICON_MAP[key] || fallback`: the mapped icon name, or the fallback for
      an unknown or missing key. */
  function IconName(key: Option<string>, fallback: string): (r: string)
    ensures key.Some? && key.value in ICON_KEYS ==> key.value in ICON_MAP && r == ICON_MAP[key.value]
    ensures key.None? || key.value !in ICON_KEYS ==> r == fallback
  {
    if key.Some? && key.value in ICON_MAP then ICON_MAP[key.value] else fallback
  }

  /** The table covers exactly the icon keys, and 'calendar' maps to
      'CalendarDays'. */
  lemma IconMapShape()
    ensures ICON_MAP.Keys == ICON_KEYS
    ensures ICON_MAP["calendar"] == "CalendarDays"
  {
  }
}
